=== FILE: README.md ===
# graphql-modules: dependency injection and operation context, modelled in Dafny

This project models the core of graphql-modules: its dependency-injection engine and the
per-operation context lifecycle that sits on top of it. All of it is in `dist/index.esm.js`.

- **Key registry** (`Registry`). The process-wide `GlobalKeyRegistry` hands out one `Key` per
  token, with dense ids 0, 1, … in registration order. It is a class holding a `KeyTable` value
  (a map plus insertion order). Resolution functions thread that value explicitly.
- **Provider resolution** (`Providers`, `Resolution`). This covers the scope filters
  `onlySingletonProviders` and `onlyOperationProviders`, and the flattening of nested provider
  lists (`normalizeProviders`). It also covers how each provider gets its key and factory:
  dependencies from class metadata or a factory's `deps`, a parameter without a token being
  rejected, and the `executionContextIn` and `global` flags. Finally, `mergeResolvedProviders`
  keeps the last provider per key id, at the position where that id first appeared.
- **Errors** (`Errors`). Injection errors carry a key path that grows by one key per enclosing
  construction (`addKey`). They also carry the shortest closed cycle that
  `constructResolvingPath` prints.
- **Injectors** (`RuntimeState`, `Walks`, `Runtime`). Every `ReflectiveInjector` of a running
  application lives in one arena held by the `Runtime.Application` class; an injector is its
  index. The arena holds each injector's:
  - fixed configuration (name, providers, key ids, parent, fallback parent);
  - object slots (`_objs`);
  - construction counter;
  - global-providers map.

  `_getByKey` searches the parent chain, then the fallback parent's chain. `_getObjByKeyId`
  delegates a global key to the module that declared it, and otherwise constructs on first use.
  `_new` detects cycles with the construction counter, and `_instantiateProvider` appends keys
  to errors and binds context members.
- **Operation context** (`Runtime.Application.BuildContext`, `GetModuleContext`, `Destroy`).
  `createContextBuilder`:
  - reattaches the singleton global map;
  - installs the execution-context getters;
  - opens the `App (Operation Scope)` injector with its `CONTEXT` value;
  - registers teardown hooks.

  Module operation injectors are created lazily and cached per module. `destroy` is guarded by
  `once` and calls `onDestroy` only on instances that were actually created.
- **Application assembly** (`GlobalIndex`, `Assembly`). These model `createApplication`,
  `ensureModuleUniqueIds`, `createModulesMap`, `createGlobalProvidersMap` /
  `attachGlobalProvidersMap`, each module's `factory` (its singleton injector with the
  `MODULE_ID` value), `instantiateSingletonProviders` and `pickMiddlewares`.

Application code is represented by parameters:
- what a class constructor or a factory function returns or throws is the `invoke` parameter of
  `Application`;
- class metadata is a `ClassTable`;
- the keys of `CONTEXT` and `MODULE_ID` are given as parameters.

A thrown JavaScript error is an `Err` of `Result` (or `Some` of a `thrown` option).

## Model

| member | source | states |
|---|---|---|
| Registry.LookupKeepsDense | dist/index.esm.js:365-400 | `Key.get`: a key passed in comes back unchanged, a registered token gets its key back, a new token is registered under the next id (the number of keys so far), and a falsy token fails with "Token must be defined"; the registry stays dense (ids 0..n-1, one per token) and only grows |
| Registry.LookupGrows | dist/index.esm.js:387-397 | on any table, a lookup never removes or renumbers a key and answers with the key the table now holds for the token |
| Registry.LookupIdempotent | dist/index.esm.js:387-397 | asking for the same token twice gives the same key and changes nothing the second time |
| Registry.SameIdIffSameToken | dist/index.esm.js:383-400 | two tokens receive the same id exactly when they are the same token |
| Registry.GlobalKeyRegistry.constructor | dist/index.esm.js:384-386 | a new registry is empty (and dense) |
| Registry.GlobalKeyRegistry.Get | dist/index.esm.js:387-397 | the registry object's `get` returns what `Lookup` answers and leaves the table `Lookup` produces; the registry stays valid |
| Errors.FirstRepeatFromFacts | dist/index.esm.js:126-136 | the scan stops at the first key already seen, with all keys before it distinct; no stop means all keys are distinct |
| Errors.FirstClosedCycleIsShortest | dist/index.esm.js:126-136 | `findFirstClosedCycle` returns a prefix of its input that either ends with the first repeated key (all keys before it distinct) or is the whole input when no key repeats |
| Errors.FindFirstClosedCycle | dist/index.esm.js:126-136 | the loop with its `res` list computes exactly that prefix |
| Errors.Reversed | dist/index.esm.js:120 | the reversed key path has the same length, element i being element n-1-i of the input |
| Errors.ResolvingPath | dist/index.esm.js:118-125 | a path of at most one key prints no cycle; otherwise the printed cycle starts at the outermost key and only names keys from the path |
| Resolution.Signature | dist/index.esm.js:52-72 | the signature has one entry per parameter: `?` for a parameter without a usable token, the stringified token otherwise |
| Providers.OnlyScopeSound | dist/index.esm.js:177-202 | every declaration a scope filter keeps has that scope (a class by its `@Injectable` options, a provider object by its `scope`, default singleton) |
| Providers.OnlyScopeCons | dist/index.esm.js:177-202 | the filter keeps or drops the first declaration by its scope and fails when that declaration's scope cannot be read (missing metadata, `null`) |
| Providers.ScopeFiltersPartition | dist/index.esm.js:177-202 | the two filters fail on the same inputs, and otherwise split the declarations into two parts whose multisets add up to the input |
| Providers.Leaf | dist/index.esm.js:469-486 | a class becomes `{provide: C, useClass: C}`, a provider object with `provide` is kept, and anything else is an invalid provider |
| Providers.NormalizeAccepts | dist/index.esm.js:469-486 | normalisation succeeds exactly when every leaf of the nested lists is a class or a provider object with `provide`; otherwise it fails with the invalid-provider error |
| Providers.NormalizeFlattens | dist/index.esm.js:469-486 | on success, the result is the leaves of the nested lists, in order and each turned into a provider object |
| Providers.NormalizeAppend | dist/index.esm.js:469-486 | normalising a concatenation is normalising each part and concatenating, the first failure winning |
| Providers.NormalizeProviders | dist/index.esm.js:469-486 | the recursive procedure that pushes onto `res` yields `res` followed by the normalised declarations, or the first failure |
| Resolution.ExtractTokensFacts | dist/index.esm.js:556-570 | extracting the parameters' tokens succeeds exactly when no token is falsy; each dependency then holds its token's registry key and the parameter's optional flag; otherwise the error names a falsy token and the whole signature |
| Resolution.DependenciesFor | dist/index.esm.js:523-532 | a class without metadata fails with no-injectable; a class without a parameter list has no dependencies; a parameter whose type is missing fails with no-annotation naming the class; otherwise the result succeeds exactly when no parameter's token is falsy, with one dependency per parameter, in order, keyed by its token and keeping its optional flag, and a failure is no-annotation naming a falsy token |
| Resolution.ConstructDependencies | dist/index.esm.js:556-563 | a factory's `deps` become required dependencies in order, and resolution succeeds exactly when none of them is falsy |
| Resolution.ResolveFactoryFacts | dist/index.esm.js:487-522 | a value provider has no dependencies, context members or teardown; a class provider takes `global` and the `onDestroy` hook from the class; a factory takes `global` from the provider object and resolves exactly when no `deps` entry is falsy |
| Resolution.ResolveProvider | dist/index.esm.js:456-461 | the provider's key is the registry's key for `provide` (a falsy unregistered token fails first), then the factory is resolved; the registry only grows |
| Resolution.ResolveAllPrefixFailure | dist/index.esm.js:452 | resolving providers in order stops at the first failure: once a prefix fails, the whole list fails the same way |
| Resolution.ResolveEach | dist/index.esm.js:452 | the loop over the normalised providers computes the in-order resolution, threading the registry |
| Resolution.MergedLastWins | dist/index.esm.js:462-468 | after merging, the key ids are distinct and in order of first appearance, every input id is present, and each kept provider is the last one with its id |
| Resolution.SetAgreesWithMergeStep | dist/index.esm.js:465 | a `Map.set` on the id-keyed map, read back in insertion order, equals one merge step on the list |
| Resolution.MergeResolvedProviders | dist/index.esm.js:462-468 | the loop of `Map.set` calls produces a map whose values, in insertion order, are the merged list |
| Resolution.ResolveProviders | dist/index.esm.js:450-455 | `resolveProviders` against the registry object: normalise, resolve each in order, merge; the registry ends as the specification's table |
| GlobalIndex.CreateGlobalProvidersMap | dist/index.esm.js:935-954 | the loops over modules and their providers of the scope build the index of global keys, or fail on the first duplicate |
| GlobalIndex.IndexDistinct | dist/index.esm.js:935-954 | building the global map succeeds exactly when no key id is declared global twice |
| GlobalIndex.IndexOk | dist/index.esm.js:935-954 | on success, the map's keys are the declared global ids and each maps to the module that declared it |
| GlobalIndex.IndexErr | dist/index.esm.js:943-948 | on failure, two declarations share a key id, and the error names the later key with the later module and then the earlier one |
| GlobalIndex.IndexNamesModules | dist/index.esm.js:935-954 | every module id in the global map is one of the application's modules |
| GlobalIndex.AsWrittenAgreesWithoutEmptyIds | dist/index.esm.js:943 | when no module id is empty, the truthiness test as written behaves like a membership test |
| GlobalIndex.EmptyModuleIdHidesDuplicate | dist/index.esm.js:943-949 | with module ids "" and "b" both declaring the same global key, the code as written accepts and keeps "b", while the membership test reports the duplicate |
| RuntimeState.FirstIndex | dist/index.esm.js:691-698 | the slot of a key id is its first position in `_keyIds`, and there is none exactly when the id is not provided |
| RuntimeState.AddInjector | dist/index.esm.js:589-610 | a new injector keeps every existing injector, slot and operation and leaves the module-context count unchanged |
| RuntimeState.Fill | dist/index.esm.js:693-695 | storing a constructed object keeps the state valid and extends it, changing neither measure of remaining work |
| RuntimeState.Bump | dist/index.esm.js:748 | a construction attempt increments the counter; while the counter is within the slot count, one unit of the construction budget is consumed |
| RuntimeState.TeardownOf | dist/index.esm.js:1011-1019 | the teardown list of an injector holds exactly its providers that have an `onDestroy` hook, tagged with that injector |
| RuntimeState.Hooks | dist/index.esm.js:1125-1131 | the hook calls are for listed entries whose object was created, each with that object, and every listed created object is called |
| RuntimeState.HooksSnoc | dist/index.esm.js:1125-1131 | hooks are called in teardown-list order |
| RuntimeState.Destroyed | dist/index.esm.js:1124-1133 | destroying an operation marks it destroyed and empties its context cache, leaving injectors, objects and other operations unchanged |
| RuntimeState.AddOperation | dist/index.esm.js:1004-1010 | a new operation starts with an empty context cache and teardown list, not yet destroyed |
| RuntimeState.WithContext | dist/index.esm.js:1100-1103 | caching a module context leaves the injectors unchanged and lowers the count of uncached module contexts by one |
| RuntimeState.WithTeardown | dist/index.esm.js:1011-1019 | registering teardown entries changes nothing the lookup depends on |
| RuntimeState.OpenOperation | dist/index.esm.js:1053-1064 | the operation's app injector is appended with empty slots and a zero counter, has the operation-scope global map attached (targeting this operation's module injectors), and opens a new operation whose teardown list is its hook providers |
| RuntimeState.ReattachSame | dist/index.esm.js:1021-1027 | reattaching the same singleton global map on every operation changes nothing |
| RuntimeState.Chain | dist/index.esm.js:643-651 | the parent chain starts at the injector and only visits injectors created before it |
| RuntimeState.ChainStable | dist/index.esm.js:643-651 | creating more injectors does not change an existing injector's parent chain |
| RuntimeState.FirstKnowerAppend | dist/index.esm.js:641-665 | the first injector that knows a key in a concatenated search order is the first in the first part, or else the first in the second part |
| RuntimeState.NotFoundResult | dist/index.esm.js:701-707 | a missing key yields the caller's default when one is given, and otherwise the no-provider error for the requesting injector and key |
| RuntimeState.StoredKept | dist/index.esm.js:693-696 | a slot, once filled, stays filled in every later state |
| RuntimeState.FoundLocally | dist/index.esm.js:691-697 | a successful `get` on an injector that provides the key itself returns the object now stored in its own slot |
| RuntimeState.BuiltOneMore | dist/index.esm.js:708-712 | after `_getByKey` succeeds for the next provider, one more of the injector's providers is built |
| RuntimeState.AllBuiltKept | dist/index.esm.js:708-712 | an injector whose providers are all built stays so in every later state |
| RuntimeState.WiredKept | dist/index.esm.js:995-1001 | the context builder's captured configuration stays consistent with the state as the state grows |
| Walks.WalkStep | dist/index.esm.js:643-652 | one step of the chain walk either ends it with the injector's answer or moves on, having seen no knower or a knower whose owner lacks the key |
| Walks.DelegatedOutcome | dist/index.esm.js:681-690 | handing a key to its owner answers as the owner does, `UNDEFINED` exactly when the owner does not provide the key, and keeps the delegating injector's slot `UNDEFINED` |
| Walks.GlobalSlotEmpty | dist/index.esm.js:681-690 | an injector never constructs a key its global map hands on |
| Walks.OwnerKept | dist/index.esm.js:964-966 | once a handed-on key's owner exists it stays the same injector with the same key ids |
| Walks.WalkAdvance | dist/index.esm.js:644-651 | after asking the current injector, the walk stops on an answer or at the root, and otherwise continues at the parent |
| Walks.SearchHitFirst | dist/index.esm.js:654-657 | an answer from the injector's own chain is returned without consulting the fallback chain |
| Walks.SearchHitSecond | dist/index.esm.js:659-664 | when the own chain has no provider, the fallback chain's answer is returned |
| Walks.SearchMiss | dist/index.esm.js:666-669 | when neither chain provides the key, the not-found result is returned |
| Runtime.ValueProviderResolved | dist/index.esm.js:1056-1061 | resolving `{provide: CONTEXT, useValue: context}` yields exactly `ValueProvider` for the token's key: no dependencies, not global, no teardown |
| Runtime.ModuleContextProviderResolved | dist/index.esm.js:1084-1091 | resolving the module operation injector's `{provide: CONTEXT, useFactory}` without `deps` yields `ModuleContextProvider`'s key, dependencies (none), context members, teardown and global flag; only the factory body differs, read from the context cache by `Make` |
| Runtime.Application.NewInjector | dist/index.esm.js:589-625 | `createFromResolved` appends an injector with the given name, providers, key ids, parent and fallback parent, empty slots, a zero counter, no global map and the not-in-execution-context getter |
| Runtime.Application.SetExecutionContextGetter | dist/index.esm.js:638-640 | only that injector's getter changes |
| Runtime.Application.AttachGlobalProvidersMap | dist/index.esm.js:955-968 | the injector's global map becomes the given ids, resolved against the given kind of module injector |
| Runtime.Application.SetModules | dist/index.esm.js:1405 | the modules map is recorded and nothing else changes |
| Runtime.Application.IsObjectDefinedByKeyId | dist/index.esm.js:671-678 | true exactly when the injector provides the key id and its first slot for it holds an object |
| Runtime.Application.RegisterProvidersToDestroy | dist/index.esm.js:1011-1019 | appends the injector's hook providers, in order, to the operation's teardown list |
| Runtime.Application.GetObjByKeyId | dist/index.esm.js:679-700 | `_getObjByKeyId` answers as `LookupOutcome` says for the single injector: a global key is answered by its owner (the object the owner stores for it, the injector's own slot staying `UNDEFINED`); otherwise a stored object is returned unchanged, an `UNDEFINED` slot goes through `_new` (the injector's construction counter rises) and an answer is what the slot now holds, an object the provider's factory built from one value per dependency (`Built`); a key not provided is `UNDEFINED` with nothing changed; the state only grows and the recursion terminates |
| Runtime.Application.Delegate | dist/index.esm.js:681-690 | a key in the injector's global map is answered by the owner `OwnerIn` names: an answer is the object the owner now stores for the key, it is `UNDEFINED` exactly when the owner does not provide the key, and the delegating injector's own slot stays `UNDEFINED` |
| Runtime.Application.Owner | dist/index.esm.js:964-966 | the injector returned is `OwnerIn`'s: for a singleton map the owning module's singleton injector, found without any change; for an operation map the owning module's operation injector cached in that operation (created on demand); either has no global map of its own |
| Runtime.Application.GetLocal | dist/index.esm.js:691-699 | a key the injector does not delegate is answered from its own first slot for the key (a stored object unchanged, an `UNDEFINED` slot constructed by the provider's factory through `_new`), or not provided |
| Runtime.Application.SlotObject | dist/index.esm.js:692-696 | an `UNDEFINED` slot goes through `_new` (the counter rises) and, when that returns, holds and answers an object the provider's factory built; a filled slot is returned unchanged with nothing changed |
| Runtime.Application.New | dist/index.esm.js:713-752 | the construction counter always increases; once it exceeds the slot count, the cyclic-dependency error for the provider's key is thrown and only the counter changes; otherwise the dependencies are looked up from the bumped state as `DependenciesLookedUp` records, and when all answered the result is `Instantiate` of the factory run on exactly those answers; a failed lookup's error is returned with this provider's key appended |
| Runtime.Application.Dependencies | dist/index.esm.js:715-725 | one value per dependency, in order, each the answer of `_getByKey` from this injector for that dependency's key (`null` when an optional one is not provided, `noProviderError` when a required one is not); the first failing lookup stops the loop and its error gets this provider's key appended |
| Runtime.Application.Construct | dist/index.esm.js:693-695 | `_new` always runs (the injector's construction counter rises); an answer is stored in the slot and is what `Instantiate` makes of the provider's factory applied to one value per declared dependency (`Built`) |
| RuntimeState.Instantiate | dist/index.esm.js:726-742 | an exception from the constructor or factory becomes the instantiation error with the provider's key; otherwise the instance is returned, bound to the injector's context getter when it lists context members |
| Runtime.Application.WalkChain | dist/index.esm.js:643-653 | the walk answers from the first injector on the parent chain that knows the key (its own slot, or its owner when it hands the key on; an owner without the key lets the walk go on), or reports `UNDEFINED` with nothing changed when none does |
| Runtime.Application.GetByKey | dist/index.esm.js:641-670 | `_getByKey` answers from the first knower in the own chain followed by the fallback chain, as `GetOutcome` says for a local or a delegated knower (a local `UNDEFINED` slot is constructed by its provider's factory through `_new`), or returns the not-found result (default or no-provider error) with nothing changed |
| Runtime.Application.Get | dist/index.esm.js:635-637 | `get(token)` registers the token (a falsy token fails with nothing else changed) and then answers as `_getByKey` does, an `UNDEFINED` slot being constructed by its provider's factory |
| Runtime.Application.InstantiateAll | dist/index.esm.js:708-712 | when nothing is thrown, every key the injector keeps in a slot of its own has its first slot constructed; a key its global map hands to a module is built in that module, and a later provider with the same key is never built |
| Runtime.Application.ReadExecutionContext | dist/index.esm.js:733-735 | a context member read outside any operation fails; the app getter returns the operation's app context; a module getter returns that module's cached context, or on first read creates it as the next injector, caches it and returns it, or fails for an unknown module with nothing changed |
| Runtime.Application.GetModuleContext | dist/index.esm.js:1071-1106 | a cached module context is returned as is with nothing changed; an unknown module fails with nothing changed; otherwise the state is `ContextCreated`'s: a `Module "id" (Operation Scope)` injector appended with the configuration `ModuleOperationConfig` gives, every slot `UNDEFINED`, a zero counter and no global map, the context cached and its hook providers registered for teardown in this operation, while every other injector's slots and counter, every other operation and the modules map stay as they were |
| Runtime.Application.ModuleOperationConfig | dist/index.esm.js:1081-1097 | the module operation injector is configured with the module's operation providers followed by `CONTEXT`, the module's singleton injector as parent and the operation's app injector as fallback parent |
| Runtime.Application.CreateModuleContext | dist/index.esm.js:1081-1103 | the cache miss of `getModuleContext`: the new injector is the next index, has no global map and is cached for the module, and the state is `ContextCreated`'s |
| RuntimeState.ContextCreatedBySteps | dist/index.esm.js:1081-1103 | creating the injector, registering its teardown pairs and caching the context together change exactly what `ContextCreated` lists |
| Runtime.Application.CacheModuleContext | dist/index.esm.js:1100-1103 | records the new module context in the operation's cache |
| Runtime.Application.Destroy | dist/index.esm.js:1124-1133 | the first call runs `onDestroy` on exactly the created instances in the teardown list, in order, then clears the context cache; any later call changes nothing (`once`) |
| Runtime.Application.CallHooks | dist/index.esm.js:1125-1131 | calls the hooks for the entries in order without changing the injectors |
| Runtime.Application.CallHook | dist/index.esm.js:1126-1130 | calls one entry's hook when its instance exists |
| Runtime.Application.BuildContext | dist/index.esm.js:1004-1136 | the context builder installs the getters (app injector to the application context, each module injector to its module context) and opens `App (Operation Scope)` with the app's operation providers plus `CONTEXT`, the app injector as parent and the operation global map attached |
| Runtime.Application.InstallGetters | dist/index.esm.js:1021-1040 | the app getter and every module's getter are set, other getters unchanged, the state unchanged |
| Runtime.Application.ModuleGetters | dist/index.esm.js:1036-1040 | each module's singleton injector gets the getter for its own module |
| Runtime.Application.OpenOperationInjector | dist/index.esm.js:1049-1122 | the picker is installed for the new operation and the operation's app injector is opened as above |
| Runtime.Application.SetWiring | dist/index.esm.js:1429-1435 | the context builder captures the app injector, the modules and the two global maps |
| Assembly.FindIndex | dist/index.esm.js:1497 | `findIndex` returns the first position of the id, or -1 exactly when it is absent |
| Assembly.CollisionsUpToMembers | dist/index.esm.js:1496-1498 | an id is listed as a collision exactly when it occurs twice |
| Assembly.RepeatedAt | dist/index.esm.js:1497 | a position differs from its id's first position exactly when the id occurred earlier |
| Assembly.UniqueIdsCheck | dist/index.esm.js:1495-1505 | `ensureModuleUniqueIds` throws exactly when two modules share an id, listing every repeated id |
| Assembly.CreateModulesMap | dist/index.esm.js:1469-1494 | the loop builds the modules map, or fails on the first repeated id |
| Assembly.ModulesMapPrefixFailure | dist/index.esm.js:1472-1490 | once a prefix fails, the whole map fails the same way |
| Assembly.ModulesMapOk | dist/index.esm.js:1469-1494 | the map succeeds exactly when the ids are distinct; its keys are then the ids and each maps to its module |
| Assembly.UniqueIdsThenMapOk | dist/index.esm.js:1397-1405 | after the unique-id check passes, building the modules map cannot fail |
| Assembly.Defined | dist/index.esm.js:1689 | `filter(isDefined)` keeps exactly the defined middlewares and never lengthens the list |
| Assembly.DefinedAppend | dist/index.esm.js:1689 | filtering a concatenation filters each part |
| Assembly.PickMiddlewares | dist/index.esm.js:1673-1690 | a middleware is picked exactly when it is defined and listed under `*.*`, `Type.*`, or `Type.field` for a non-empty field |
| Assembly.PickMiddlewaresOrder | dist/index.esm.js:1673-1690 | the picked middlewares come in the order `*.*`, then `Type.*`, then `Type.field` |
| Assembly.ResolveScope | dist/index.esm.js:1383-1394 | a scope's providers are resolved after filtering, and a filter failure leaves the registry as it was |
| Assembly.ResolveScoped | dist/index.esm.js:1383-1394 | the registry object ends as `ResolveScope` describes |
| Assembly.Prepare | dist/index.esm.js:1383-1413 | when everything before assembly succeeds, the module ids are unique and the two global maps are those the modules declare |
| Assembly.PreparedFacts | dist/index.esm.js:1397-1413 | after preparation, the module ids are distinct and every global map entry names one of the modules |
| Assembly.NamesAmongIds | dist/index.esm.js:935-954 | every module named in a global map is one of the modules |
| Assembly.RunModuleFactories | dist/index.esm.js:1399-1404 | each module's factory appends its `Module "id" (Singleton Scope)` injector (its singleton providers plus `MODULE_ID`, parented by the app injector), in module order, leaving earlier slots untouched |
| Assembly.FactoryModulesMap | dist/index.esm.js:1405 | the modules map from the factories has exactly the module ids, each mapped to its own injector and operation providers |
| Assembly.SingletonInjectorsCover | dist/index.esm.js:929-934 | that list covers every module's singleton injector |
| Assembly.InstantiateEach | dist/index.esm.js:931-933 | when nothing is thrown, every listed injector has the first slot of every key it keeps locally constructed |
| Assembly.InstantiateSingletonProviders | dist/index.esm.js:929-934 | when nothing is thrown, the app injector and every module injector have the first slot of every key they keep locally constructed |
| Assembly.FirstInjector | dist/index.esm.js:1386-1389 | the app singleton injector is the first injector, with empty slots and no global map |
| Assembly.AssembledKept | dist/index.esm.js:1453-1460 | the assembled shape survives any later growth of the state |
| Assembly.AssembledWired | dist/index.esm.js:1429-1435 | an assembled application is consistent with the context builder's configuration |
| Assembly.AssembledAllBuilt | dist/index.esm.js:1449-1452 | once the singleton injectors are all built, every injector from the app's up to the last module's has the first slot of every key it keeps locally constructed |
| Assembly.RegisterModules | dist/index.esm.js:1399-1405 | the injectors are the app's followed by one per module, nothing is attached yet, and the modules map has exactly the module ids |
| Assembly.AttachAndWire | dist/index.esm.js:1414-1435 | the singleton global map is attached to the app injector and the context builder is configured |
| Assembly.AssembleModules | dist/index.esm.js:1399-1435 | a duplicated global token fails (singleton scope checked first); otherwise the application is assembled |
| Assembly.AssembleAndInstantiate | dist/index.esm.js:1399-1452 | the same outcomes, and when start-up instantiation throws nothing, every singleton injector is built |
| Assembly.CreateApplication | dist/index.esm.js:1375-1460 | the steps run in the source's order, and the first failure (scope filter, resolution, non-unique ids, duplicated global) is what is thrown; on success, the app injector is first, module injectors follow in order, the modules map and both global maps are set, and if instantiation throws nothing, all singleton providers are built |

## Left out

- The async-context store (`executionContextStore`, async hooks) is a single `ambient` field naming the operation whose picker was installed last.
- A `defineProperty` getter is modelled as a `ContextBound` value recording its members and injector; `ReadExecutionContext` is the getter's body.
- Decorators, `reflect-metadata` and `forwardRef` are left out: class metadata is given as a `ClassTable`, and tokens are never forward references.
- `onDestroy` is assumed not to throw; a hook that throws would stop `destroy` in the source.
- JavaScript prototype-chain lookups on plain objects are not modelled: `contextCache[moduleId]` (dist/index.esm.js:1074) and `middlewareMap[type]` (dist/index.esm.js:1680) read inherited members of `Object.prototype`. For a module id such as `constructor`, the source returns the inherited `Object` function as the cached module context and creates no injector, whereas `Runtime.Application.GetModuleContext`, `Runtime.Application.Owner`, and `Runtime.Application.ReadExecutionContext` treat the id as uncached and create an injector for it; `Assembly.PickMiddlewares` likewise treats a type named `constructor` as having no entry.
- GlobalIndex.CreateGlobalProvidersMap: rejects every second global declaration of a key, as the corrected duplicate test does (see Findings); the code's truthiness test at dist/index.esm.js:943 lets a duplicate through when the earlier module's id is the empty string, and that behaviour is modelled only by `GlobalIndex.IndexAsWritten`.
- Assembly.Prepare: builds both global maps with the corrected duplicate test of `GlobalIndex.CreateGlobalProvidersMap`, so it fails where the code silently lets a module with a non-empty id take over a key first declared by a module with id "".
- Assembly.AssembleModules: inherits the corrected duplicate test through its global maps, as `Assembly.Prepare` does.
- Assembly.AssembleAndInstantiate: inherits the corrected duplicate test through its global maps, as `Assembly.Prepare` does.
- Assembly.CreateApplication: inherits the corrected duplicate test through `Assembly.Prepare`; with a module whose id is "" it reports the duplicated global token where the code does not.
- Runtime.Application.SlotObject: does not state that a failed construction leaves the slot `UNDEFINED`. The code assigns the slot only when `_new` returns (dist/index.esm.js:694), but a nested lookup of the same provider reached through its own dependencies could fill the slot before the outer construction fails, and ruling that out needs an argument over the whole recursion.
- RuntimeState.StoredKept: proves that a filled slot stays filled, not that it keeps the same object. The code assigns the slot after `_new` returns (dist/index.esm.js:694), so a construction of the same provider that completed inside that `_new` through its dependencies would be overwritten by the outer one; ruling that out needs an argument over the whole recursion.
- `_new` returning `UNDEFINED` (a factory returning the sentinel object) is not representable.
- A class token is identified by its name (`Tokens.Token.Class`): two distinct classes with the same name are one token and one key here, whereas the code's `Map` of keys compares class objects by identity.
- The context objects built with `merge` (the shared context and the `injector`/`moduleId` fields) are represented by `OperationContext` and `ModuleContext` values; their other fields are not modelled.
- Type definitions, schema building, resolver and middleware wrapping, and the Apollo, execution and subscription creators are left out; `pickMiddlewares` is modelled on its own.
- `moduleFactory` is modelled only from the point where it creates the module injector. Module providers arrive already resolved and filtered: the filtering and resolution at module creation are the same `ResolveScope` steps, applied earlier.
- The keys of `CONTEXT` and `MODULE_ID` are parameters, not tokens registered by the model.
- `createApplication` receives the application object empty instead of creating it; a `providers` given as a function and an absent `providers` list (treated as empty) are the caller's concern.
- The `inj.get(...)` call in `_getByKey` after the fallback search cannot be reached: `inj` is always `null` there, so the not-found result is returned directly.
- Module operation injectors get no global map: `getModuleContext` creates them without attaching one (dist/index.esm.js:1081-1097), so only the operation app injector answers for operation-scope global keys.
- A factory provider without `deps` has no dependencies (`provider.deps || []`, dist/index.esm.js:504); no constructor-parameter metadata is read for a factory.
- A class provider takes `global` and `executionContextIn` from the class's `@Injectable` options, as the code does; the same fields on the provider object are ignored.

## Findings

| source | as written | input that shows it | evidently intended | confidence | as-written member | corrected member |
|---|---|---|---|---|---|---|
| dist/index.esm.js:943 | `createGlobalProvidersMap` tests whether a key is already declared global with `if (globalProvidersMap[key])`, which is false when the earlier module's id is the empty string | two modules with ids "" and "b" both providing the same token with `global: true`: no error, and "b" silently takes over the key | a second global declaration of a key is always rejected with the duplicated-global-token error | not executed | GlobalIndex.EmptyModuleIdHidesDuplicate | GlobalIndex.IndexDistinct |

=== FILE: assembly.dfy ===
/** Application assembly (`createApplication`): the module id checks, the modules map, the
    middleware lookup, and the order in which the injectors are created, wired and filled. */
module Assembly {
  import opened Wrappers
  import opened Tokens
  import opened Errors
  import opened Registry
  import opened Providers
  import opened Resolution
  import opened GlobalIndex
  import opened RuntimeState
  import opened Runtime

  // ---------------------------------------------------------------------------------------------
  // `ensureModuleUniqueIds`

  /** `all.findIndex(m => m.id === id)`: the first position holding `id`, or -1. */
  function FindIndex(all: seq<string>, id: string): (r: int)
    ensures -1 <= r < |all|
    ensures r >= 0 ==> all[r] == id && id !in all[..r]
    ensures r == -1 <==> id !in all
  {
    if all == [] then -1
    else if all[0] == id then 0
    else
      var q := FindIndex(all[1..], id);
      assert all[1..][..q + 1] == all[1..q + 2] by {
        if q >= 0 {
          assert all[..q + 1] == [all[0]] + all[1..][..q];
        }
      }
      if q < 0 then -1 else q + 1
  }

  /** The ids among the first `k` positions whose position is not the first one holding their id,
      in order. */
  function CollisionsUpTo(all: seq<string>, k: nat): seq<string>
    requires k <= |all|
  {
    if k == 0 then []
    else CollisionsUpTo(all, k - 1) + (if k - 1 != FindIndex(all, all[k - 1]) then [all[k - 1]] else [])
  }

  /** `ensureModuleUniqueIds`' `collisions`: one entry per module whose id an earlier module
      already has. */
  function Collisions(all: seq<string>): seq<string> {
    CollisionsUpTo(all, |all|)
  }

  /** `ensureModuleUniqueIds(modules)`: `moduleNonUniqueIdError` listing the collisions, if any. */
  function EnsureModuleUniqueIds(ids: seq<string>): Option<DiError> {
    var collisions := Collisions(ids);
    if |collisions| > 0 then Some(ModuleNonUniqueId(collisions)) else None
  }

  /** An id is listed among the first `k` collisions exactly when two of the first `k` positions
      hold it. */
  lemma {:induction false} CollisionsUpToMembers(all: seq<string>, k: nat)
    requires k <= |all|
    ensures forall x :: x in CollisionsUpTo(all, k) <==> exists i, j | 0 <= i < j < k :: all[i] == x && all[j] == x
  {
    if k > 0 {
      CollisionsUpToMembers(all, k - 1);
      RepeatedAt(all, k - 1);
      forall x | exists i, j | 0 <= i < j < k :: all[i] == x && all[j] == x
        ensures x in CollisionsUpTo(all, k)
      {
        var i, j :| 0 <= i < j < k && all[i] == x && all[j] == x;
        if j == k - 1 {
          assert all[..k - 1][i] == x;
        }
      }
      forall x | x in CollisionsUpTo(all, k)
        ensures exists i, j | 0 <= i < j < k :: all[i] == x && all[j] == x
      {
        if x !in CollisionsUpTo(all, k - 1) {
          var i :| 0 <= i < k - 1 && all[..k - 1][i] == x;
          assert all[i] == x && all[k - 1] == x;
        }
      }
    }
  }

  /** Position `n` is not the first holding its id exactly when an earlier position holds it. */
  lemma RepeatedAt(all: seq<string>, n: nat)
    requires n < |all|
    ensures n != FindIndex(all, all[n]) <==> all[n] in all[..n]
  {
    var f := FindIndex(all, all[n]);
    if f < n {
      assert all[..n][f] == all[n];
    }
  }

  /** The check passes exactly when the module ids are distinct, and an id is reported exactly
      when at least two modules have it. */
  lemma UniqueIdsCheck(ids: seq<string>)
    ensures EnsureModuleUniqueIds(ids).None? <==> Distinct(ids)
    ensures forall x :: x in Collisions(ids) <==> exists i, j | 0 <= i < j < |ids| :: ids[i] == x && ids[j] == x
  {
    CollisionsUpToMembers(ids, |ids|);
    if !Distinct(ids) {
      var i, j :| 0 <= i < j < |ids| && ids[i] == ids[j];
      assert ids[i] in Collisions(ids);
    }
    if |Collisions(ids)| > 0 {
      assert Collisions(ids)[0] in Collisions(ids);
    }
  }

  // ---------------------------------------------------------------------------------------------
  // `createModulesMap`

  /** A module after its factory ran: its id and what the context builder reads of it. */
  datatype BuiltModule = BuiltModule(id: string, entry: ModuleEntry)

  function IdsOf(ms: seq<BuiltModule>): (ids: seq<string>)
    ensures |ids| == |ms| && forall i | 0 <= i < |ms| :: ids[i] == ms[i].id
  {
    seq(|ms|, i requires 0 <= i < |ms| => ms[i].id)
  }

  /** The modules map filled in order; a module whose id is already a key throws
      `ModuleDuplicatedError`. */
  function ModulesMap(ms: seq<BuiltModule>): Result<map<string, ModuleEntry>, DiError> {
    if ms == [] then Ok(map[])
    else
      var n := |ms| - 1;
      match ModulesMap(ms[..n])
      case Err(e) => Err(e)
      case Ok(acc) => if ms[n].id in acc then Err(ModuleDuplicated(ms[n].id)) else Ok(acc[ms[n].id := ms[n].entry])
  }

  /** `createModulesMap(modules)`: the `for ... of` loop over the modules. */
  method CreateModulesMap(ms: seq<BuiltModule>) returns (r: Result<map<string, ModuleEntry>, DiError>)
    ensures r == ModulesMap(ms)
  {
    var acc: map<string, ModuleEntry> := map[];
    var i := 0;
    while i < |ms|
      invariant 0 <= i <= |ms| && ModulesMap(ms[..i]) == Ok(acc)
    {
      assert ms[..i + 1][..i] == ms[..i];
      if ms[i].id in acc {
        ModulesMapPrefixFailure(ms, i + 1);
        return Err(ModuleDuplicated(ms[i].id));
      }
      acc := acc[ms[i].id := ms[i].entry];
      i := i + 1;
    }
    assert ms[..i] == ms;
    r := Ok(acc);
  }

  /** Once filling the map has failed, the rest of the modules do not change the outcome. */
  lemma {:induction false} ModulesMapPrefixFailure(ms: seq<BuiltModule>, k: nat)
    requires k <= |ms| && ModulesMap(ms[..k]).Err?
    ensures ModulesMap(ms) == ModulesMap(ms[..k])
    decreases |ms| - k
  {
    if k < |ms| {
      var n := |ms| - 1;
      if k < n {
        assert ms[..n][..k] == ms[..k];
        ModulesMapPrefixFailure(ms[..n], k);
      } else {
        assert ms[..k] == ms[..n];
      }
    } else {
      assert ms[..k] == ms;
    }
  }

  /** The map is built exactly when the ids are distinct; it then has one key per module, holding
      that module. */
  lemma {:induction false} ModulesMapOk(ms: seq<BuiltModule>)
    ensures ModulesMap(ms).Ok? <==> Distinct(IdsOf(ms))
    ensures ModulesMap(ms).Ok? ==>
      && (forall x :: x in ModulesMap(ms).value <==> x in IdsOf(ms))
      && (forall i | 0 <= i < |ms| :: ModulesMap(ms).value[ms[i].id] == ms[i].entry)
  {
    if ms != [] {
      var n := |ms| - 1;
      var pre := ms[..n];
      ModulesMapOk(pre);
      assert IdsOf(ms) == IdsOf(pre) + [ms[n].id];
      DistinctSnoc(IdsOf(pre), ms[n].id);
      if ModulesMap(ms).Ok? {
        forall i | 0 <= i < n
          ensures ModulesMap(ms).value[ms[i].id] == ms[i].entry
        {
          assert ms[i] == pre[i] && IdsOf(pre)[i] == ms[i].id;
        }
      }
    }
  }

  /** After `ensureModuleUniqueIds` has passed, `createModulesMap` cannot throw. */
  lemma UniqueIdsThenMapOk(ms: seq<BuiltModule>)
    requires EnsureModuleUniqueIds(IdsOf(ms)).None?
    ensures ModulesMap(ms).Ok?
  {
    UniqueIdsCheck(IdsOf(ms));
    ModulesMapOk(ms);
  }

  // ---------------------------------------------------------------------------------------------
  // `pickMiddlewares`

  /** A middleware map: type name, then field name (or `*` for all), to a list of middlewares;
      an entry is `None` when it is `undefined` or `null`. */
  type MiddlewareMap = map<string, map<string, seq<Option<nat>>>>

  /** The list at `map[a][b]`, or nothing when either level is missing. */
  function Listed(mm: MiddlewareMap, a: string, b: string): seq<Option<nat>> {
    if a in mm && b in mm[a] then mm[a][b] else []
  }

  /** `filter(isDefined)`. */
  function Defined(xs: seq<Option<nat>>): (ys: seq<nat>)
    ensures forall y :: y in ys <==> Some(y) in xs
    ensures |ys| <= |xs|
  {
    if xs == [] then []
    else
      var n := |xs| - 1;
      assert forall x :: x in xs <==> x in xs[..n] || x == xs[n] by {
        assert xs == xs[..n] + [xs[n]];
      }
      Defined(xs[..n]) + (if xs[n].Some? then [xs[n].value] else [])
  }

  lemma {:induction false} DefinedAppend(a: seq<Option<nat>>, b: seq<Option<nat>>)
    ensures Defined(a + b) == Defined(a) + Defined(b)
    decreases |b|
  {
    if b == [] {
      assert a + b == a;
    } else {
      var n := |b| - 1;
      assert (a + b)[..|a + b| - 1] == a + b[..n];
      DefinedAppend(a, b[..n]);
    }
  }

  /** `pickMiddlewares([type, field], map)`: the list for every type and field, then the type's
      list for all its fields, then, when `field` is non-empty, the field's own list; entries
      that are `undefined` or `null` dropped. */
  function PickMiddlewares(typeName: string, field: string, mm: MiddlewareMap): (r: seq<nat>)
    ensures forall x :: x in r <==>
      Some(x) in Listed(mm, "*", "*") || Some(x) in Listed(mm, typeName, "*") || (field != "" && Some(x) in Listed(mm, typeName, field))
  {
    var forField := if field != "" then Listed(mm, typeName, field) else [];
    Defined(Listed(mm, "*", "*") + Listed(mm, typeName, "*") + forField)
  }

  /** The three groups keep their order: everything for all types first, the field's own last. */
  lemma PickMiddlewaresOrder(typeName: string, field: string, mm: MiddlewareMap)
    ensures PickMiddlewares(typeName, field, mm) ==
      Defined(Listed(mm, "*", "*")) + Defined(Listed(mm, typeName, "*")) +
      (if field != "" then Defined(Listed(mm, typeName, field)) else [])
  {
    var forField := if field != "" then Listed(mm, typeName, field) else [];
    DefinedAppend(Listed(mm, "*", "*") + Listed(mm, typeName, "*"), forField);
    DefinedAppend(Listed(mm, "*", "*"), Listed(mm, typeName, "*"));
    if field == "" {
      assert Defined([]) == [];
    }
  }

  // ---------------------------------------------------------------------------------------------
  // `createApplication`

  function ModuleIdsOf(modules: seq<ModuleProviders>): (ids: seq<string>)
    ensures |ids| == |modules| && forall k | 0 <= k < |modules| :: ids[k] == modules[k].id
  {
    seq(|modules|, k requires 0 <= k < |modules| => modules[k].id)
  }

  /** What `createApplication` has computed when it reaches `instantiateSingletonProviders`: the
      application's resolved providers of both scopes and the two global maps. */
  datatype Prepared = Prepared(
    singletonProviders: seq<ResolvedProvider>,
    operationProviders: seq<ResolvedProvider>,
    singletonGlobals: map<nat, string>,
    operationGlobals: map<nat, string>)

  /** `ReflectiveInjector.resolve(onlySingletonProviders(providers))` and its operation twin, over
      the registry's table: the filter's error, or the resolution's outcome. */
  function ResolveScope(t: KeyTable, classes: ClassTable, providers: seq<Decl>, scope: Scope): (res: (Result<seq<ResolvedProvider>, DiError>, KeyTable))
    ensures Grows(t, res.1) && (Dense(t) ==> Dense(res.1))
    ensures OnlyScope(classes, providers, scope).Err? ==> res == (Err(OnlyScope(classes, providers, scope).error), t)
    ensures OnlyScope(classes, providers, scope).Ok? ==> res == ResolveProvidersSpec(t, classes, OnlyScope(classes, providers, scope).value)
  {
    match OnlyScope(classes, providers, scope)
    case Err(e) => (Err(e), t)
    case Ok(ds) => ResolveProvidersSpec(t, classes, ds)
  }

  /** The filter and resolution for one scope, on the registry. */
  method ResolveScoped(reg: GlobalKeyRegistry, classes: ClassTable, providers: seq<Decl>, scope: Scope) returns (r: Result<seq<ResolvedProvider>, DiError>)
    requires reg.Valid()
    modifies reg
    ensures reg.Valid() && (r, reg.table) == ResolveScope(old(reg.table), classes, providers, scope)
  {
    var ds := OnlyScope(classes, providers, scope);
    if ds.Err? {
      return Err(ds.error);
    }
    r := ResolveProviders(reg, classes, ds.value);
  }

  /** `createApplication` up to `instantiateSingletonProviders`, over the registry's table: the
      singleton providers resolved, the operation providers resolved, the module id check, the
      singleton global map, the operation global map; the first that throws decides the outcome,
      and the keys registered until then stay registered. */
  function Prepare(t: KeyTable, classes: ClassTable, providers: seq<Decl>, modules: seq<ModuleProviders>): (res: (Result<Prepared, DiError>, KeyTable))
    ensures Grows(t, res.1) && (Dense(t) ==> Dense(res.1))
    ensures res.0.Ok? ==>
      && EnsureModuleUniqueIds(ModuleIdsOf(modules)).None?
      && Index(AllDecls(modules, Singleton)) == Ok(res.0.value.singletonGlobals)
      && Index(AllDecls(modules, Scope.Operation)) == Ok(res.0.value.operationGlobals)
  {
    var (rs, t1) := ResolveScope(t, classes, providers, Singleton);
    if rs.Err? then (Err(rs.error), t1)
    else
      var (ro, t2) := ResolveScope(t1, classes, providers, Scope.Operation);
      GrowsTrans(t, t1, t2);
      if ro.Err? then (Err(ro.error), t2)
      else match EnsureModuleUniqueIds(ModuleIdsOf(modules))
        case Some(e) => (Err(e), t2)
        case None =>
          match Index(AllDecls(modules, Singleton))
          case Err(e) => (Err(e), t2)
          case Ok(sg) =>
            match Index(AllDecls(modules, Scope.Operation))
            case Err(e) => (Err(e), t2)
            case Ok(og) => (Ok(Prepared(rs.value, ro.value, sg, og)), t2)
  }

  /** When preparation succeeds the module ids are distinct and each global map sends key ids to
      ids of the modules that declare them. */
  lemma PreparedFacts(t: KeyTable, classes: ClassTable, providers: seq<Decl>, modules: seq<ModuleProviders>, p: Prepared)
    requires Prepare(t, classes, providers, modules).0 == Ok(p)
    ensures Distinct(ModuleIdsOf(modules))
    ensures forall id | id in p.singletonGlobals :: p.singletonGlobals[id] in ModuleIdsOf(modules)
    ensures forall id | id in p.operationGlobals :: p.operationGlobals[id] in ModuleIdsOf(modules)
  {
    UniqueIdsCheck(ModuleIdsOf(modules));
    NamesAmongIds(modules, Singleton);
    NamesAmongIds(modules, Scope.Operation);
  }

  /** A global map built from `modules` names only ids that `modules` has. */
  lemma NamesAmongIds(modules: seq<ModuleProviders>, scope: Scope)
    ensures Index(AllDecls(modules, scope)).Ok? ==>
      forall id | id in Index(AllDecls(modules, scope)).value :: Index(AllDecls(modules, scope)).value[id] in ModuleIdsOf(modules)
  {
    IndexNamesModules(modules, scope);
    if Index(AllDecls(modules, scope)).Ok? {
      var g := Index(AllDecls(modules, scope)).value;
      forall id | id in g ensures g[id] in ModuleIdsOf(modules) {
        var k :| 0 <= k < |modules| && modules[k].id == g[id];
        assert ModuleIdsOf(modules)[k] == g[id];
      }
    }
  }

  function ModuleSingletonName(moduleId: string): string {
    "Module \"" + moduleId + "\" (Singleton Scope)"
  }

  /** The injector a module's `factory` creates: the module's singleton providers and its
      `MODULE_ID` value provider, with the application's singleton injector as parent. */
  function ModuleInjector(m: ModuleProviders, appInjector: nat, moduleIdKey: Key): InjectorConfig {
    var ps := m.singletonProviders + [ValueProvider(moduleIdKey, Text(m.id))];
    InjectorConfig(ModuleSingletonName(m.id), ps, Resolution.Ids(ps), Some(appInjector), None)
  }

  /** The injectors the module factories create, in module order. */
  function FactoryInjectors(modules: seq<ModuleProviders>, appInjector: nat, moduleIdKey: Key): (cs: seq<InjectorConfig>)
    ensures |cs| == |modules|
  {
    seq(|modules|, k requires 0 <= k < |modules| => ModuleInjector(modules[k], appInjector, moduleIdKey))
  }

  /** The modules the factories return, the `k`th with its injector at `n + k`. */
  function FactoryResults(modules: seq<ModuleProviders>, n: nat): (bs: seq<BuiltModule>)
    ensures |bs| == |modules|
  {
    seq(|modules|, k requires 0 <= k < |modules| => BuiltModule(modules[k].id, ModuleEntry(n + k, modules[k].operationProviders)))
  }

  lemma FactoriesSnoc(modules: seq<ModuleProviders>, k: nat, appInjector: nat, moduleIdKey: Key, n: nat)
    requires k < |modules|
    ensures FactoryInjectors(modules[..k + 1], appInjector, moduleIdKey)
      == FactoryInjectors(modules[..k], appInjector, moduleIdKey) + [ModuleInjector(modules[k], appInjector, moduleIdKey)]
    ensures FactoryResults(modules[..k + 1], n)
      == FactoryResults(modules[..k], n) + [BuiltModule(modules[k].id, ModuleEntry(n + k, modules[k].operationProviders))]
  {
  }

  /** `config.modules.map(mod => mod.factory({injector: appInjector, ...}))`: one singleton
      injector per module, in order, appended after the injectors that exist, each one's id
      returned with the module. */
  method RunModuleFactories(app: Application, modules: seq<ModuleProviders>, appInjector: nat, moduleIdKey: Key) returns (built: seq<BuiltModule>)
    requires app.Valid() && appInjector < |app.st.injectors|
    modifies app`st, app`getters
    ensures app.Valid()
    ensures app.st.injectors == old(app.st.injectors) + FactoryInjectors(modules, appInjector, moduleIdKey)
    ensures built == FactoryResults(modules, old(|app.st.injectors|))
    ensures app.st.objs[..old(|app.st.objs|)] == old(app.st.objs)
    ensures app.st.globals == old(app.st.globals) + seq(|modules|, _ => NoGlobals)
    ensures app.st.operations == old(app.st.operations) && app.st.modules == old(app.st.modules)
  {
    ghost var s0 := app.st;
    var n := |app.st.injectors|;
    built := [];
    var k := 0;
    while k < |modules|
      invariant 0 <= k <= |modules| && app.Valid()
      invariant app.st.injectors == s0.injectors + FactoryInjectors(modules[..k], appInjector, moduleIdKey)
      invariant built == FactoryResults(modules[..k], n)
      invariant app.st.objs[..n] == s0.objs
      invariant app.st.globals == s0.globals + seq(k, _ => NoGlobals)
      invariant app.st.operations == s0.operations && app.st.modules == s0.modules
    {
      var m := modules[k];
      var ps := m.singletonProviders + [ValueProvider(moduleIdKey, Text(m.id))];
      var j := app.NewInjector(ModuleSingletonName(m.id), ps, Some(appInjector), None);
      FactoriesSnoc(modules, k, appInjector, moduleIdKey, n);
      built := built + [BuiltModule(m.id, ModuleEntry(j, m.operationProviders))];
      k := k + 1;
    }
    assert modules[..k] == modules;
  }

  /** The modules map `createModulesMap` builds from the factories' results: one key per module
      id, the `k`th module's entry pointing at injector `n + k`. */
  lemma {:induction false} FactoryModulesMap(modules: seq<ModuleProviders>, n: nat, mm: map<string, ModuleEntry>)
    requires ModulesMap(FactoryResults(modules, n)) == Ok(mm)
    ensures forall m :: m in mm <==> m in ModuleIdsOf(modules)
    ensures forall k | 0 <= k < |modules| :: mm[modules[k].id] == ModuleEntry(n + k, modules[k].operationProviders)
  {
    var built := FactoryResults(modules, n);
    ModulesMapOk(built);
    assert IdsOf(built) == ModuleIdsOf(modules);
    forall k | 0 <= k < |modules| ensures mm[modules[k].id] == ModuleEntry(n + k, modules[k].operationProviders) {
      assert built[k].id == modules[k].id;
    }
  }

  const AppSingletonName := "App (Singleton Scope)"

  /** The application's own singleton injector: its singleton providers, no parent. */
  function AppInjector(p: Prepared): InjectorConfig {
    InjectorConfig(AppSingletonName, p.singletonProviders, Resolution.Ids(p.singletonProviders), None, None)
  }

  /** What `createApplication` has put in place once it reaches `instantiateSingletonProviders`:
      the application's injector first, then one injector per module in module order, the modules
      map over them, the singleton global map on the application's injector, and the context
      builder wired to all of it. */
  ghost predicate Assembled(s: AppState, w: Wiring, p: Prepared, modules: seq<ModuleProviders>, moduleIdKey: Key) {
    && Shaped(s)
    && |s.injectors| > |modules|
    && s.injectors[0] == AppInjector(p)
    && (forall k | 0 <= k < |modules| :: s.injectors[k + 1] == ModuleInjector(modules[k], 0, moduleIdKey))
    && (forall m :: m in s.modules <==> m in ModuleIdsOf(modules))
    && (forall k | 0 <= k < |modules| :: modules[k].id in s.modules && s.modules[modules[k].id] == ModuleEntry(k + 1, modules[k].operationProviders))
    && s.globals[0] == Attached(p.singletonGlobals, ModuleSingletonInjector)
    && w == Wiring(ModuleIdsOf(modules), 0, p.operationProviders, p.singletonGlobals, p.operationGlobals)
  }

  /** Resolution after assembly leaves the assembly as it was. */
  lemma AssembledKept(s: AppState, t: AppState, w: Wiring, p: Prepared, modules: seq<ModuleProviders>, moduleIdKey: Key)
    requires Assembled(s, w, p, modules, moduleIdKey) && Extends(s, t)
    ensures Assembled(t, w, p, modules, moduleIdKey)
  {
    assert t.injectors[..|s.injectors|] == s.injectors;
    assert t.globals[0] == s.globals[0];
  }

  /** An assembled application whose operation global map names its modules is wired. */
  lemma {:induction false} AssembledWired(s: AppState, w: Wiring, p: Prepared, modules: seq<ModuleProviders>, moduleIdKey: Key)
    requires Assembled(s, w, p, modules, moduleIdKey)
    requires forall id | id in p.operationGlobals :: p.operationGlobals[id] in ModuleIdsOf(modules)
    ensures Wired(s, w)
  {
    forall m | m in s.modules ensures exists k :: 0 <= k < |modules| && m == modules[k].id && s.modules[m].injector == k + 1 {
      var k :| 0 <= k < |modules| && ModuleIdsOf(modules)[k] == m;
      assert s.modules[modules[k].id].injector == k + 1;
    }
  }

  /** The singleton injectors `instantiateSingletonProviders` walks: the application's, then each
      module's in the order of the modules map. */
  ghost function SingletonInjectors(s: AppState, w: Wiring): (walk: seq<nat>)
    requires Wired(s, w)
    ensures |walk| == |w.moduleOrder| + 1 && walk[0] == w.appInjector
    ensures forall q | 0 <= q < |w.moduleOrder| :: walk[q + 1] == s.modules[w.moduleOrder[q]].injector
  {
    [w.appInjector] + seq(|w.moduleOrder|, q requires 0 <= q < |w.moduleOrder| => s.modules[w.moduleOrder[q]].injector)
  }

  /** Every injector in the walk exists, and every module's injector is in the walk. */
  lemma SingletonInjectorsCover(s: AppState, w: Wiring)
    requires Valid(s) && Wired(s, w)
    ensures forall i | i in SingletonInjectors(s, w) :: i < |s.injectors|
    ensures forall m | m in s.modules :: s.modules[m].injector in SingletonInjectors(s, w)
  {
    var walk := SingletonInjectors(s, w);
    forall m | m in s.modules ensures s.modules[m].injector in walk {
      var q :| 0 <= q < |w.moduleOrder| && w.moduleOrder[q] == m;
      assert walk[q + 1] == s.modules[m].injector;
    }
  }

  lemma AllBuiltListKept(s: AppState, t: AppState, walk: seq<nat>)
    requires Valid(s) && Valid(t) && Extends(s, t)
    requires forall i | i in walk :: i < |s.injectors| && AllBuilt(s, i)
    ensures forall i | i in walk :: i < |t.injectors| && AllBuilt(t, i)
  {
    forall i | i in walk ensures i < |t.injectors| && AllBuilt(t, i) {
      AllBuiltKept(s, t, i);
    }
  }

  /** `instantiateAll` on each of the injectors `js` in turn, stopping at the first error. */
  method InstantiateEach(app: Application, js: seq<nat>) returns (thrown: Option<DiError>)
    requires app.Valid() && forall i | i in js :: i < |app.st.injectors|
    modifies app`st, app`getters
    ensures app.Valid() && Extends(old(app.st), app.st) && old(app.getters) <= app.getters
    ensures thrown.None? ==> forall i | i in js :: i < |app.st.injectors| && AllBuilt(app.st, i)
  {
    ghost var s0 := app.st;
    ExtendsRefl(s0);
    thrown := None;
    var k := 0;
    while k < |js|
      invariant 0 <= k <= |js| && app.Valid() && Extends(s0, app.st) && old(app.getters) <= app.getters
      invariant forall i | i in js[..k] :: i < |app.st.injectors| && AllBuilt(app.st, i)
    {
      ghost var s1 := app.st;
      assert js[k] in js && |s0.injectors| <= |app.st.injectors|;
      thrown := app.InstantiateAll(js[k]);
      ExtendsTrans(s0, s1, app.st);
      if thrown.Some? {
        return;
      }
      AllBuiltListKept(s1, app.st, js[..k]);
      assert js[..k + 1] == js[..k] + [js[k]];
      k := k + 1;
    }
    assert js[..k] == js;
  }

  /** `instantiateSingletonProviders`: `instantiateAll` on the application's injector, then on
      each module's in the modules map's order; an error thrown stops the walk. When nothing
      throws every singleton provider of every one of them has its instance. */
  method InstantiateSingletonProviders(app: Application) returns (thrown: Option<DiError>)
    requires app.Ready()
    modifies app`st, app`getters
    ensures app.Ready() && Extends(old(app.st), app.st) && old(app.getters) <= app.getters
    ensures thrown.None? ==> forall i | i in SingletonInjectors(app.st, app.wiring) :: i < |app.st.injectors| && AllBuilt(app.st, i)
  {
    ghost var s0 := app.st;
    var order := app.wiring.moduleOrder;
    var walk := [app.wiring.appInjector] + seq(|order|, q requires 0 <= q < |order| && order[q] in app.st.modules reads app`st =>
      app.st.modules[order[q]].injector);
    assert walk == SingletonInjectors(s0, app.wiring);
    SingletonInjectorsCover(s0, app.wiring);
    thrown := InstantiateEach(app, walk);
    WiredKept(s0, app.st, app.wiring);
    assert SingletonInjectors(app.st, app.wiring) == walk;
  }

  /** After the factories and `createModulesMap`: no injector has a global map yet and every
      module's injector is one of the factories'. */
  lemma FactoriesFitModules(s: AppState, modules: seq<ModuleProviders>, mm: map<string, ModuleEntry>)
    requires |s.injectors| == |modules| + 1 && s.globals == [NoGlobals] + seq(|modules|, _ => NoGlobals)
    requires forall m :: m in mm <==> m in ModuleIdsOf(modules)
    requires forall k | 0 <= k < |modules| :: mm[modules[k].id] == ModuleEntry(1 + k, modules[k].operationProviders)
    ensures forall i | 0 <= i < |s.globals| :: s.globals[i].NoGlobals?
    ensures forall m | m in mm :: 0 < mm[m].injector < |s.injectors|
  {
    forall m | m in mm ensures 0 < mm[m].injector < |s.injectors| {
      var k :| 0 <= k < |modules| && ModuleIdsOf(modules)[k] == m;
    }
    forall i | 0 <= i < |s.globals| ensures s.globals[i].NoGlobals? {
      if i > 0 {
        assert s.globals[i] == seq(|modules|, _ => NoGlobals)[i - 1];
      }
    }
  }

  /** The singleton global map may be attached to the application's injector before any
      operation exists, while its slots are all empty. */
  lemma AppAttachFits(s: AppState, ids: map<nat, string>)
    requires Shaped(s) && 0 < |s.injectors| && s.operations == []
    requires forall k | 0 <= k < |s.objs[0]| :: s.objs[0][k].Empty?
    requires forall id | id in ids :: ids[id] in s.modules
    requires forall m | m in s.modules :: s.modules[m].injector != 0
    ensures AttachFits(s, 0, ids, ModuleSingletonInjector)
  {
  }

  /** The state the assembly leaves, described field by field, is `Assembled`. */
  lemma AssembledFromParts(s: AppState, w: Wiring, p: Prepared, modules: seq<ModuleProviders>, moduleIdKey: Key)
    requires Shaped(s) && s.injectors == [AppInjector(p)] + FactoryInjectors(modules, 0, moduleIdKey)
    requires forall m :: m in s.modules <==> m in ModuleIdsOf(modules)
    requires forall k | 0 <= k < |modules| :: s.modules[modules[k].id] == ModuleEntry(1 + k, modules[k].operationProviders)
    requires s.globals[0] == Attached(p.singletonGlobals, ModuleSingletonInjector)
    requires w == Wiring(ModuleIdsOf(modules), 0, p.operationProviders, p.singletonGlobals, p.operationGlobals)
    ensures Assembled(s, w, p, modules, moduleIdKey)
  {
    forall k | 0 <= k < |modules| ensures s.injectors[k + 1] == ModuleInjector(modules[k], 0, moduleIdKey) {
      assert s.injectors[k + 1] == FactoryInjectors(modules, 0, moduleIdKey)[k];
    }
    forall k | 0 <= k < |modules| ensures modules[k].id in s.modules {
      assert ModuleIdsOf(modules)[k] == modules[k].id;
    }
  }

  /** The module factories and `createModulesMap` on an application that holds only its own
      singleton injector `c0`: after them the application holds `c0` and the modules' injectors,
      none with a global map yet, and the modules map over them. */
  method RegisterModules(app: Application, ghost c0: InjectorConfig, modules: seq<ModuleProviders>, moduleIdKey: Key)
    requires app.Valid() && app.st.injectors == [c0]
    requires app.st.globals == [NoGlobals] && app.st.operations == [] && app.st.modules == map[]
    requires forall k | 0 <= k < |app.st.objs[0]| :: app.st.objs[0][k].Empty?
    requires EnsureModuleUniqueIds(ModuleIdsOf(modules)).None?
    modifies app`st, app`getters
    ensures app.Valid() && app.st.injectors == [c0] + FactoryInjectors(modules, 0, moduleIdKey)
    ensures forall k | 0 <= k < |app.st.objs[0]| :: app.st.objs[0][k].Empty?
    ensures forall i | 0 <= i < |app.st.globals| :: app.st.globals[i].NoGlobals?
    ensures app.st.operations == []
    ensures forall m :: m in app.st.modules <==> m in ModuleIdsOf(modules)
    ensures forall k | 0 <= k < |modules| :: app.st.modules[modules[k].id] == ModuleEntry(1 + k, modules[k].operationProviders)
    ensures forall m | m in app.st.modules :: app.st.modules[m].injector != 0
  {
    ghost var s0 := app.st;
    var built := RunModuleFactories(app, modules, 0, moduleIdKey);
    ghost var s2 := app.st;
    assert s2.objs[0] == s0.objs[0] by {
      assert s2.objs[..1][0] == s0.objs[0];
    }
    assert IdsOf(built) == ModuleIdsOf(modules);
    UniqueIdsThenMapOk(built);
    var modulesMap := CreateModulesMap(built);
    var mm := modulesMap.value;
    FactoryModulesMap(modules, 1, mm);
    FactoriesFitModules(s2, modules, mm);
    app.SetModules(mm);
  }

  /** The part of `createApplication` between `ensureModuleUniqueIds` and
      `instantiateSingletonProviders`, on an application that holds only its own singleton injector
      (with singleton providers `sp`): the module factories, `createModulesMap`, the two global
      maps (the first error thrown is the result), then the singleton map attached to the
      application's injector and the context builder wired. */
  method AssembleModules(app: Application, sp: seq<ResolvedProvider>, appOperationProviders: seq<ResolvedProvider>,
                         modules: seq<ModuleProviders>, moduleIdKey: Key)
    returns (globals: Result<(map<nat, string>, map<nat, string>), DiError>)
    requires app.Valid() && app.st.injectors == [InjectorConfig(AppSingletonName, sp, Resolution.Ids(sp), None, None)]
    requires app.st.globals == [NoGlobals] && app.st.operations == [] && app.st.modules == map[]
    requires forall k | 0 <= k < |app.st.objs[0]| :: app.st.objs[0][k].Empty?
    requires EnsureModuleUniqueIds(ModuleIdsOf(modules)).None?
    modifies app`st, app`getters, app`wiring
    ensures Index(AllDecls(modules, Singleton)).Err? ==> globals == Err(Index(AllDecls(modules, Singleton)).error)
    ensures Index(AllDecls(modules, Singleton)).Ok? ==>
      globals == (match Index(AllDecls(modules, Scope.Operation))
                  case Err(e) => Err(e)
                  case Ok(og) => Ok((Index(AllDecls(modules, Singleton)).value, og)))
    ensures globals.Ok? ==>
      app.Ready() && Assembled(app.st, app.wiring, Prepared(sp, appOperationProviders, globals.value.0, globals.value.1), modules, moduleIdKey)
  {
    RegisterModules(app, app.st.injectors[0], modules, moduleIdKey);
    var sg := CreateGlobalProvidersMap(modules, Singleton);
    if sg.Err? {
      return Err(sg.error);
    }
    var og := CreateGlobalProvidersMap(modules, Scope.Operation);
    if og.Err? {
      return Err(og.error);
    }
    globals := Ok((sg.value, og.value));
    var p := Prepared(sp, appOperationProviders, sg.value, og.value);
    AttachAndWire(app, p, modules, moduleIdKey);
  }

  /** `attachGlobalProvidersMap` on the application's injector with the singleton global map, and
      the context builder's wiring. */
  method AttachAndWire(app: Application, p: Prepared, modules: seq<ModuleProviders>, moduleIdKey: Key)
    requires app.Valid() && app.st.injectors == [AppInjector(p)] + FactoryInjectors(modules, 0, moduleIdKey)
    requires forall k | 0 <= k < |app.st.objs[0]| :: app.st.objs[0][k].Empty?
    requires app.st.operations == []
    requires forall m :: m in app.st.modules <==> m in ModuleIdsOf(modules)
    requires forall k | 0 <= k < |modules| :: app.st.modules[modules[k].id] == ModuleEntry(1 + k, modules[k].operationProviders)
    requires forall m | m in app.st.modules :: app.st.modules[m].injector != 0
    requires Index(AllDecls(modules, Singleton)) == Ok(p.singletonGlobals)
    requires Index(AllDecls(modules, Scope.Operation)) == Ok(p.operationGlobals)
    modifies app`st, app`wiring
    ensures app.Ready() && Assembled(app.st, app.wiring, p, modules, moduleIdKey)
  {
    NamesAmongIds(modules, Singleton);
    NamesAmongIds(modules, Scope.Operation);
    ghost var s3 := app.st;
    AppAttachFits(s3, p.singletonGlobals);
    app.AttachGlobalProvidersMap(0, p.singletonGlobals, ModuleSingletonInjector);
    ghost var s4 := app.st;
    assert s4 == s3.(globals := s3.globals[0 := Attached(p.singletonGlobals, ModuleSingletonInjector)]);
    app.SetWiring(Wiring(ModuleIdsOf(modules), 0, p.operationProviders, p.singletonGlobals, p.operationGlobals));
    AssembledFromParts(s4, app.wiring, p, modules, moduleIdKey);
    AssembledWired(s4, app.wiring, p, modules, moduleIdKey);
  }

  /** The application's first injector, added to the empty state, has no global map and every
      slot empty. */
  lemma FirstInjector(c: InjectorConfig)
    requires ConfigFits(AppState([], [], [], [], [], map[]), c)
    ensures var t := AddInjector(AppState([], [], [], [], [], map[]), c);
      && t.injectors == [c] && t.globals == [NoGlobals] && t.operations == [] && t.modules == map[]
      && forall k | 0 <= k < |t.objs[0]| :: t.objs[0][k].Empty?
  {
  }

  /** Once every injector of the walk has its singletons, so has every injector of an assembled
      application. */
  lemma {:induction false} AssembledAllBuilt(s: AppState, w: Wiring, p: Prepared, modules: seq<ModuleProviders>, moduleIdKey: Key)
    requires Valid(s) && Wired(s, w) && Assembled(s, w, p, modules, moduleIdKey)
    requires forall j | j in SingletonInjectors(s, w) :: j < |s.injectors| && AllBuilt(s, j)
    ensures forall i | 0 <= i <= |modules| :: AllBuilt(s, i)
  {
    var walk := SingletonInjectors(s, w);
    SingletonInjectorsCover(s, w);
    forall i | 0 <= i <= |modules| ensures AllBuilt(s, i) {
      if i == 0 {
        assert walk[0] == 0;
      } else {
        var m := modules[i - 1].id;
        assert m in s.modules && s.modules[m].injector == i;
        assert i in walk;
      }
    }
  }

  /** The module assembly followed by `instantiateSingletonProviders`. */
  method AssembleAndInstantiate(app: Application, sp: seq<ResolvedProvider>, appOperationProviders: seq<ResolvedProvider>,
                                modules: seq<ModuleProviders>, moduleIdKey: Key) returns (thrown: Option<DiError>)
    requires app.Valid() && app.st.injectors == [InjectorConfig(AppSingletonName, sp, Resolution.Ids(sp), None, None)]
    requires app.st.globals == [NoGlobals] && app.st.operations == [] && app.st.modules == map[]
    requires forall k | 0 <= k < |app.st.objs[0]| :: app.st.objs[0][k].Empty?
    requires EnsureModuleUniqueIds(ModuleIdsOf(modules)).None?
    modifies app`st, app`getters, app`wiring
    ensures Index(AllDecls(modules, Singleton)).Err? ==> thrown == Some(Index(AllDecls(modules, Singleton)).error)
    ensures Index(AllDecls(modules, Singleton)).Ok? && Index(AllDecls(modules, Scope.Operation)).Err? ==>
      thrown == Some(Index(AllDecls(modules, Scope.Operation)).error)
    ensures Index(AllDecls(modules, Singleton)).Ok? && Index(AllDecls(modules, Scope.Operation)).Ok? ==>
      var p := Prepared(sp, appOperationProviders, Index(AllDecls(modules, Singleton)).value, Index(AllDecls(modules, Scope.Operation)).value);
      && app.Ready() && Assembled(app.st, app.wiring, p, modules, moduleIdKey)
      && (thrown.None? ==> forall i | 0 <= i <= |modules| :: AllBuilt(app.st, i))
  {
    var globals := AssembleModules(app, sp, appOperationProviders, modules, moduleIdKey);
    if globals.Err? {
      return Some(globals.error);
    }
    ghost var p := Prepared(sp, appOperationProviders, globals.value.0, globals.value.1);
    ghost var s1 := app.st;
    thrown := InstantiateSingletonProviders(app);
    AssembledKept(s1, app.st, app.wiring, p, modules, moduleIdKey);
    if thrown.None? {
      AssembledAllBuilt(app.st, app.wiring, p, modules, moduleIdKey);
    }
  }

  /** `createApplication(config)`, from the provider lists to `instantiateSingletonProviders`, on a
      fresh application: the first error thrown is what it throws, and the registry keeps every
      key registered until then. When preparation succeeds the application is assembled as
      `Assembled` describes and ready for operations; when instantiation succeeds as well, every
      singleton provider of the application and of every module has its instance. */
  method CreateApplication(app: Application, reg: GlobalKeyRegistry, classes: ClassTable, providers: seq<Decl>,
                           modules: seq<ModuleProviders>, moduleIdKey: Key) returns (thrown: Option<DiError>)
    requires app.Valid() && app.st == AppState([], [], [], [], [], map[]) && reg.Valid()
    modifies app`st, app`getters, app`wiring, reg
    ensures reg.Valid() && reg.table == Prepare(old(reg.table), classes, providers, modules).1
    ensures Prepare(old(reg.table), classes, providers, modules).0.Err? ==>
      thrown == Some(Prepare(old(reg.table), classes, providers, modules).0.error)
    ensures Prepare(old(reg.table), classes, providers, modules).0.Ok? ==>
      && app.Ready()
      && Assembled(app.st, app.wiring, Prepare(old(reg.table), classes, providers, modules).0.value, modules, moduleIdKey)
      && (thrown.None? ==> forall i | 0 <= i <= |modules| :: AllBuilt(app.st, i))
  {
    var rs := ResolveScoped(reg, classes, providers, Singleton);
    if rs.Err? {
      return Some(rs.error);
    }
    var appInjector := app.NewInjector(AppSingletonName, rs.value, None, None);
    FirstInjector(InjectorConfig(AppSingletonName, rs.value, Resolution.Ids(rs.value), None, None));
    var ro := ResolveScoped(reg, classes, providers, Scope.Operation);
    if ro.Err? {
      return Some(ro.error);
    }
    var dup := EnsureModuleUniqueIds(ModuleIdsOf(modules));
    if dup.Some? {
      return dup;
    }
    thrown := AssembleAndInstantiate(app, rs.value, ro.value, modules, moduleIdKey);
  }
}

=== FILE: errors.dfy ===
/** The engine's errors, and the key path an injection error carries and reports. */
module Errors {
  import opened Tokens
  import opened Wrappers

  /** Which of the three injection errors a value stands for. */
  datatype InjectionKind = NoProvider | CyclicDependency | Instantiation(cause: string)

  datatype DiError =
    | TokenUndefined                                   // `new Key` with a falsy token
    | InvalidProvider                                  // a declaration that is neither a class, a provider object nor a list
    | NoInjectable(subject: Token)                     // a class without decorator metadata
    | NoAnnotation(subject: Token, signature: seq<string>)  // a parameter without a usable token
    | NullishProvider                                  // a `null`/`undefined` entry reached by the scope filters
    | Injection(kind: InjectionKind, keys: seq<Key>, injectorName: string)
    | DuplicatedGlobalToken(key: Key, moduleIds: seq<string>)
    | ModuleNonUniqueId(collisions: seq<string>)
    | ModuleDuplicated(id: string)
    | UnknownModule(id: string)                        // a module id missing from the modules map
    | NotInExecutionContext                            // the execution context getter of an injector outside any operation
    | NoExecutionContext                               // an execution context read where no operation installed one

  /** A freshly thrown injection error: its key path holds only the key being resolved. */
  function InjectionError(kind: InjectionKind, injectorName: string, key: Key): DiError {
    Injection(kind, [key], injectorName)
  }

  /** `error.addKey(key)`: an injection error records the key of each enclosing construction. */
  function AddKey(e: DiError, key: Key): DiError {
    if e.Injection? then e.(keys := e.keys + [key]) else e
  }

  predicate Distinct<T(==)>(s: seq<T>) {
    forall i, j | 0 <= i < j < |s| :: s[i] != s[j]
  }

  /** A list one element longer is distinct exactly when the shorter one is and lacks the element. */
  lemma DistinctSnoc<T>(s: seq<T>, x: T)
    ensures Distinct(s + [x]) <==> Distinct(s) && x !in s
  {
    var t := s + [x];
    if Distinct(t) {
      assert forall i | 0 <= i < |s| :: t[i] == s[i];
      assert forall i | 0 <= i < |s| :: t[i] != t[|s|];
    }
  }

  /** The first index from `i` on whose key already occurred before it. */
  function FirstRepeatFrom(keys: seq<Key>, i: nat): Option<nat>
    decreases |keys| - i
  {
    if i >= |keys| then None
    else if keys[i] in keys[..i] then Some(i)
    else FirstRepeatFrom(keys, i + 1)
  }

  /** The keys up to and including the first repeated one, or all keys when none repeats. */
  function FirstClosedCycle(keys: seq<Key>): seq<Key> {
    match FirstRepeatFrom(keys, 0)
    case Some(j) => if j < |keys| then keys[..j + 1] else keys
    case None => keys
  }

  lemma {:induction false} FirstRepeatFromFacts(keys: seq<Key>, i: nat)
    requires i <= |keys| && Distinct(keys[..i])
    ensures FirstRepeatFrom(keys, i).Some? ==>
              var j := FirstRepeatFrom(keys, i).value;
              i <= j < |keys| && keys[j] in keys[..j] && Distinct(keys[..j])
    ensures FirstRepeatFrom(keys, i).None? ==> Distinct(keys)
    decreases |keys| - i
  {
    if i == |keys| {
      assert keys[..i] == keys;
    } else if keys[i] !in keys[..i] {
      var s := keys[..i + 1];
      assert s == keys[..i] + [keys[i]];
      forall a, b | 0 <= a < b < |s| ensures s[a] != s[b] {
        if b == i {
          assert s[a] == keys[..i][a];
        } else {
          assert s[a] == keys[..i][a] && s[b] == keys[..i][b];
        }
      }
      FirstRepeatFromFacts(keys, i + 1);
    }
  }

  /** `findFirstClosedCycle`: the reported cycle is a prefix of the path whose elements are all
      distinct except the last, which either closes a cycle or is the end of a duplicate-free path. */
  lemma {:induction false} FirstClosedCycleIsShortest(keys: seq<Key>)
    ensures var r := FirstClosedCycle(keys);
      && r <= keys
      && (r != [] ==> Distinct(r[..|r| - 1]))
      && ((r != [] && r[|r| - 1] in r[..|r| - 1]) || (r == keys && Distinct(keys)))
  {
    assert keys[..0] == [];
    FirstRepeatFromFacts(keys, 0);
    var r := FirstClosedCycle(keys);
    match FirstRepeatFrom(keys, 0)
    case Some(j) =>
      assert r == keys[..j + 1];
      assert r[..|r| - 1] == keys[..j];
    case None =>
      if r != [] {
        var p := r[..|r| - 1];
        forall a, b | 0 <= a < b < |p| ensures p[a] != p[b] {
          assert p[a] == keys[a] && p[b] == keys[b];
        }
      }
  }

  /** The same search, written as the source's push loop. */
  method FindFirstClosedCycle(keys: seq<Key>) returns (res: seq<Key>)
    ensures res == FirstClosedCycle(keys)
  {
    res := [];
    var i := 0;
    while i < |keys|
      invariant 0 <= i <= |keys|
      invariant res == keys[..i]
      invariant FirstRepeatFrom(keys, 0) == FirstRepeatFrom(keys, i)
    {
      if keys[i] in res {
        res := res + [keys[i]];
        return;
      }
      res := res + [keys[i]];
      i := i + 1;
    }
    assert res == keys;
  }

  function Reversed<T>(s: seq<T>): (r: seq<T>)
    ensures |r| == |s|
    ensures forall i | 0 <= i < |s| :: r[i] == s[|s| - 1 - i]
  {
    if s == [] then [] else Reversed(s[1..]) + [s[0]]
  }

  /** `constructResolvingPath`: the keys shown in an injection error's message. With more than one
      key it starts at the outermost requested key (the last one added) and runs inwards until
      the first key seen twice; a single key shows no path. */
  function ResolvingPath(keys: seq<Key>): (path: seq<Key>)
    ensures |keys| <= 1 ==> path == []
    ensures |keys| > 1 ==> path != [] && path[0] == keys[|keys| - 1]
    ensures forall k | k in path :: k in keys
  {
    if |keys| > 1 then
      var rev := Reversed(keys);
      FirstClosedCycleIsShortest(rev);
      assert forall k | k in rev :: k in keys by {
        forall k | k in rev ensures k in keys {
          var i :| 0 <= i < |rev| && rev[i] == k;
          assert keys[|keys| - 1 - i] == k;
        }
      }
      FirstClosedCycle(rev)
    else []
  }
}

=== FILE: global_index.dfy ===
/** Which module provides each global token (`createGlobalProvidersMap`). */
module GlobalIndex {
  import opened Wrappers
  import opened Tokens
  import opened Errors
  import opened Providers
  import opened Resolution

  /** What the index reads of a module: its id and its resolved providers, per scope. */
  datatype ModuleProviders = ModuleProviders(
    id: string,
    singletonProviders: seq<ResolvedProvider>,
    operationProviders: seq<ResolvedProvider>)

  function ProvidersIn(m: ModuleProviders, scope: Scope): seq<ResolvedProvider> {
    if scope == Singleton then m.singletonProviders else m.operationProviders
  }

  /** One global declaration: a provider's key and the id of the module declaring it. */
  datatype GlobalDecl = GlobalDecl(key: Key, moduleId: string)

  /** The global providers of one module's list, in order. */
  function Decls(moduleId: string, ps: seq<ResolvedProvider>): (ds: seq<GlobalDecl>)
    ensures forall d | d in ds :: d.moduleId == moduleId
  {
    if ps == [] then []
    else
      var n := |ps| - 1;
      if ps[n].factory.isGlobal then Decls(moduleId, ps[..n]) + [GlobalDecl(ps[n].key, moduleId)]
      else Decls(moduleId, ps[..n])
  }

  /** The global declarations of all modules, modules in order and each module's providers in order. */
  function AllDecls(modules: seq<ModuleProviders>, scope: Scope): seq<GlobalDecl> {
    if modules == [] then []
    else
      var n := |modules| - 1;
      AllDecls(modules[..n], scope) + Decls(modules[n].id, ProvidersIn(modules[n], scope))
  }

  /** Recording one declaration. An id already recorded is a duplicate, reported with the
      declaring module first and the recorded module second. */
  function Record(acc: map<nat, string>, d: GlobalDecl): Result<map<nat, string>, DiError> {
    if d.key.id in acc then Err(DuplicatedGlobalToken(d.key, [d.moduleId, acc[d.key.id]]))
    else Ok(acc[d.key.id := d.moduleId])
  }

  /** The index built from a list of declarations, stopping at the first duplicate. */
  function Index(ds: seq<GlobalDecl>): Result<map<nat, string>, DiError> {
    if ds == [] then Ok(map[])
    else
      var n := |ds| - 1;
      match Index(ds[..n])
      case Err(e) => Err(e)
      case Ok(acc) => Record(acc, ds[n])
  }

  function Ids(ds: seq<GlobalDecl>): (ids: seq<nat>)
    ensures |ids| == |ds| && forall i | 0 <= i < |ds| :: ids[i] == ds[i].key.id
  {
    seq(|ds|, i requires 0 <= i < |ds| => ds[i].key.id)
  }

  /** The index succeeds exactly when no id is declared twice. */
  lemma {:induction false} IndexDistinct(ds: seq<GlobalDecl>)
    ensures Index(ds).Ok? <==> Distinct(Ids(ds))
  {
    if ds != [] {
      var n := |ds| - 1;
      var pre := ds[..n];
      IndexDistinct(pre);
      IndexOk(pre);
      assert Ids(ds) == Ids(pre) + [ds[n].key.id];
      DistinctSnoc(Ids(pre), ds[n].key.id);
    }
  }

  /** A successful index holds exactly the declared ids, each mapped to the module declaring it. */
  lemma {:induction false} IndexOk(ds: seq<GlobalDecl>)
    ensures Index(ds).Ok? ==>
      (forall id :: id in Index(ds).value <==> id in Ids(ds)) &&
      (forall d | d in ds :: Index(ds).value[d.key.id] == d.moduleId)
  {
    if ds != [] && Index(ds).Ok? {
      var n := |ds| - 1;
      var pre := ds[..n];
      IndexOk(pre);
      assert Ids(ds) == Ids(pre) + [ds[n].key.id];
      var acc := Index(pre).value;
      assert Index(ds).value == acc[ds[n].key.id := ds[n].moduleId];
      forall d | d in ds ensures Index(ds).value[d.key.id] == d.moduleId {
        if d != ds[n] {
          var i :| 0 <= i < n && ds[i] == d;
          assert pre[i] == d && Ids(pre)[i] == d.key.id;
        }
      }
    }
  }

  /** A failing index names a declaration that repeats an earlier one, with both modules, the
      later declaration's module first. */
  lemma {:induction false} IndexErr(ds: seq<GlobalDecl>)
    ensures Index(ds).Err? ==>
      exists i, j | 0 <= i < j < |ds| :: ds[i].key.id == ds[j].key.id &&
        Index(ds).error == DuplicatedGlobalToken(ds[j].key, [ds[j].moduleId, ds[i].moduleId])
  {
    if ds != [] {
      var n := |ds| - 1;
      var pre := ds[..n];
      IndexErr(pre);
      if Index(pre).Err? {
        var i, j :| 0 <= i < j < |pre| && pre[i].key.id == pre[j].key.id &&
          Index(pre).error == DuplicatedGlobalToken(pre[j].key, [pre[j].moduleId, pre[i].moduleId]);
        assert ds[i] == pre[i] && ds[j] == pre[j];
      } else if Index(ds).Err? {
        IndexOk(pre);
        var acc := Index(pre).value;
        var i :| 0 <= i < |pre| && Ids(pre)[i] == ds[n].key.id;
        assert pre[i] in pre && ds[i] == pre[i];
      }
    }
  }

  /** A failing prefix makes every extension fail with the same error. */
  lemma {:induction false} IndexPrefixFailure(a: seq<GlobalDecl>, b: seq<GlobalDecl>)
    requires a <= b && Index(a).Err?
    ensures Index(b) == Index(a) && Index(b).Err?
    decreases |b|
  {
    if |b| > |a| {
      var n := |b| - 1;
      assert a <= b[..n];
      IndexPrefixFailure(a, b[..n]);
    } else {
      assert a == b;
    }
  }

  lemma {:induction false} DeclsPrefix(id: string, ps: seq<ResolvedProvider>, k: nat)
    requires k <= |ps|
    ensures Decls(id, ps[..k]) <= Decls(id, ps)
    decreases |ps|
  {
    if k < |ps| {
      var n := |ps| - 1;
      assert ps[..n][..k] == ps[..k];
      DeclsPrefix(id, ps[..n], k);
    } else {
      assert ps[..k] == ps;
    }
  }

  lemma {:induction false} AllDeclsPrefix(modules: seq<ModuleProviders>, scope: Scope, k: nat)
    requires k <= |modules|
    ensures AllDecls(modules[..k], scope) <= AllDecls(modules, scope)
    decreases |modules|
  {
    if k < |modules| {
      var n := |modules| - 1;
      assert modules[..n][..k] == modules[..k];
      AllDeclsPrefix(modules[..n], scope, k);
    } else {
      assert modules[..k] == modules;
    }
  }

  lemma IndexSnoc(ds: seq<GlobalDecl>, d: GlobalDecl)
    ensures Index(ds + [d]) == match Index(ds) case Err(e) => Err(e) case Ok(acc) => Record(acc, d)
  {
    assert (ds + [d])[..|ds|] == ds;
  }

  /** One more provider of a module's list: its declaration, if it is global, comes last. */
  lemma DeclsStep(id: string, ps: seq<ResolvedProvider>, j: nat)
    requires j < |ps|
    ensures Decls(id, ps[..j + 1]) == Decls(id, ps[..j]) + (if ps[j].factory.isGlobal then [GlobalDecl(ps[j].key, id)] else [])
  {
    assert ps[..j + 1][..j] == ps[..j];
  }

  /** A failure part-way through a module's providers is the failure of the whole module. */
  lemma DeclsFailure(before: seq<GlobalDecl>, id: string, ps: seq<ResolvedProvider>, j: nat)
    requires j <= |ps| && Index(before + Decls(id, ps[..j])).Err?
    ensures Index(before + Decls(id, ps)) == Index(before + Decls(id, ps[..j]))
  {
    DeclsPrefix(id, ps, j);
    var part := Decls(id, ps[..j]);
    var whole := Decls(id, ps);
    assert before + part <= before + whole by {
      assert (before + whole)[..|before + part|] == before + whole[..|part|];
    }
    IndexPrefixFailure(before + part, before + whole);
  }

  lemma AllDeclsStep(modules: seq<ModuleProviders>, scope: Scope, i: nat)
    requires i < |modules|
    ensures AllDecls(modules[..i + 1], scope) == AllDecls(modules[..i], scope) + Decls(modules[i].id, ProvidersIn(modules[i], scope))
  {
    assert modules[..i + 1][..i] == modules[..i];
  }

  /** `createGlobalProvidersMap({modules, scope})`: a loop over the modules and, inside it, over
      the module's providers of that scope, recording each global one; the first duplicate
      throws. */
  method CreateGlobalProvidersMap(modules: seq<ModuleProviders>, scope: Scope) returns (r: Result<map<nat, string>, DiError>)
    ensures r == Index(AllDecls(modules, scope))
  {
    var acc: map<nat, string> := map[];
    var i := 0;
    while i < |modules|
      invariant 0 <= i <= |modules|
      invariant Index(AllDecls(modules[..i], scope)) == Ok(acc)
    {
      AllDeclsStep(modules, scope, i);
      var next := RecordModule(modules[i].id, ProvidersIn(modules[i], scope), AllDecls(modules[..i], scope), acc);
      if next.Err? {
        AllDeclsPrefix(modules, scope, i + 1);
        IndexPrefixFailure(AllDecls(modules[..i + 1], scope), AllDecls(modules, scope));
        return next;
      }
      acc := next.value;
      i := i + 1;
    }
    assert modules[..i] == modules;
    r := Ok(acc);
  }

  /** The inner loop of `createGlobalProvidersMap` over one module's providers, starting from the
      index of the declarations `before` it: that index grown by the module's global providers,
      or the first duplicate's error. */
  method RecordModule(id: string, ps: seq<ResolvedProvider>, ghost before: seq<GlobalDecl>, acc0: map<nat, string>) returns (r: Result<map<nat, string>, DiError>)
    requires Index(before) == Ok(acc0)
    ensures r == Index(before + Decls(id, ps))
  {
    var acc := acc0;
    var j := 0;
    assert before + Decls(id, ps[..0]) == before;
    while j < |ps|
      invariant 0 <= j <= |ps| && Index(before + Decls(id, ps[..j])) == Ok(acc)
    {
      var p := ps[j];
      DeclsStep(id, ps, j);
      if p.factory.isGlobal {
        assert before + Decls(id, ps[..j + 1]) == (before + Decls(id, ps[..j])) + [GlobalDecl(p.key, id)];
        IndexSnoc(before + Decls(id, ps[..j]), GlobalDecl(p.key, id));
        if p.key.id in acc {
          DeclsFailure(before, id, ps, j + 1);
          return Err(DuplicatedGlobalToken(p.key, [id, acc[p.key.id]]));
        }
        acc := acc[p.key.id := id];
      } else {
        assert Decls(id, ps[..j]) + [] == Decls(id, ps[..j]);
      }
      j := j + 1;
    }
    assert ps[..j] == ps;
    r := Ok(acc);
  }

  /** Every declaration comes from one of the modules and names it. */
  lemma {:induction false} AllDeclsFromModules(modules: seq<ModuleProviders>, scope: Scope)
    ensures forall d | d in AllDecls(modules, scope) :: exists k | 0 <= k < |modules| :: modules[k].id == d.moduleId
  {
    if modules != [] {
      var n := |modules| - 1;
      AllDeclsFromModules(modules[..n], scope);
      forall d | d in AllDecls(modules, scope)
        ensures exists k | 0 <= k < |modules| :: modules[k].id == d.moduleId
      {
        if d in AllDecls(modules[..n], scope) {
          var k :| 0 <= k < n && modules[..n][k].id == d.moduleId;
          assert modules[k].id == d.moduleId;
        } else {
          assert d in Decls(modules[n].id, ProvidersIn(modules[n], scope));
        }
      }
    }
  }

  /** The map a scope's run builds sends every key id to the id of one of the modules. */
  lemma IndexNamesModules(modules: seq<ModuleProviders>, scope: Scope)
    ensures Index(AllDecls(modules, scope)).Ok? ==>
      forall id | id in Index(AllDecls(modules, scope)).value ::
        exists k | 0 <= k < |modules| :: modules[k].id == Index(AllDecls(modules, scope)).value[id]
  {
    var ds := AllDecls(modules, scope);
    IndexOk(ds);
    AllDeclsFromModules(modules, scope);
    if Index(ds).Ok? {
      forall id | id in Index(ds).value
        ensures exists k | 0 <= k < |modules| :: modules[k].id == Index(ds).value[id]
      {
        var i :| 0 <= i < |ds| && Ids(ds)[i] == id;
        assert ds[i] in ds;
      }
    }
  }

  // ---------------------------------------------------------------------------------------------
  // The duplicate check as written tests the recorded module id for truthiness.

  /** Recording as the source writes it: an id counts as recorded only when the module id stored
      for it is a non-empty string. */
  function RecordAsWritten(acc: map<nat, string>, d: GlobalDecl): Result<map<nat, string>, DiError> {
    if d.key.id in acc && acc[d.key.id] != "" then Err(DuplicatedGlobalToken(d.key, [d.moduleId, acc[d.key.id]]))
    else Ok(acc[d.key.id := d.moduleId])
  }

  function IndexAsWritten(ds: seq<GlobalDecl>): Result<map<nat, string>, DiError> {
    if ds == [] then Ok(map[])
    else
      var n := |ds| - 1;
      match IndexAsWritten(ds[..n])
      case Err(e) => Err(e)
      case Ok(acc) => RecordAsWritten(acc, ds[n])
  }

  /** Without a module whose id is the empty string the two checks agree. */
  lemma {:induction false} AsWrittenAgreesWithoutEmptyIds(ds: seq<GlobalDecl>)
    requires forall d | d in ds :: d.moduleId != ""
    ensures IndexAsWritten(ds) == Index(ds)
    ensures Index(ds).Ok? ==> forall id | id in Index(ds).value :: Index(ds).value[id] != ""
  {
    if ds != [] {
      var n := |ds| - 1;
      assert forall d | d in ds[..n] :: d in ds;
      AsWrittenAgreesWithoutEmptyIds(ds[..n]);
    }
  }

  /** Two modules, the first with id `""`, both declaring the same token global: the check as
      written lets the second declaration through and overwrite the first, where the duplicate
      should have been reported. */
  lemma EmptyModuleIdHidesDuplicate(k: Key)
    ensures var ds := [GlobalDecl(k, ""), GlobalDecl(k, "b")];
      && IndexAsWritten(ds) == Ok(map[k.id := "b"])
      && Index(ds) == Err(DuplicatedGlobalToken(k, ["b", ""]))
  {
    var ds := [GlobalDecl(k, ""), GlobalDecl(k, "b")];
    var one := [GlobalDecl(k, "")];
    assert ds[..1] == one;
    assert one[..0] == [];
    assert IndexAsWritten(one) == Ok(map[k.id := ""]);
    assert Index(one) == Ok(map[k.id := ""]);
    assert map[k.id := ""][k.id := "b"] == map[k.id := "b"];
  }
}

=== FILE: providers.dfy ===
/** Provider declarations as the application writes them, their two lifetime scopes, and their
    normalisation into a flat list of provider objects (`normalizeProviders`). */
module Providers {
  import opened Wrappers
  import opened Tokens
  import opened Errors

  datatype Scope = Singleton | Operation

  /** Values the engine stores and hands out. The contents of application objects are opaque. */
  datatype Value =
    | Null
    | Absent                                      // JavaScript `undefined`
    | Text(s: string)                             // a string, such as a module's id
    | Opaque(n: int)                              // an object supplied by the application
    | OperationContext(injector: nat)             // an operation's application-level context, named by its operation injector
    | ModuleContext(injector: nat, moduleId: string)  // a module's context in an operation, named by its operation injector
    | ContextBound(obj: Value, members: seq<string>, injector: nat)  // an instance whose listed members read the execution context of `injector`

  /** Whether a value is an object (properties can be defined on it). */
  predicate IsObject(v: Value) {
    !(v.Null? || v.Absent? || v.Text?)
  }

  /** One constructor parameter as the decorators record it; `Undefined` when no token was found. */
  datatype Param = Param(token: Token, optional: bool)

  datatype InjectableOptions = InjectableOptions(scope: Option<Scope>, executionContextIn: Option<seq<string>>, global: Option<bool>)

  /** The metadata `@Injectable` leaves on a class, and whether its prototype has `onDestroy`. */
  datatype ClassInfo = ClassInfo(params: Option<seq<Param>>, options: InjectableOptions, hasOnDestroy: bool)

  /** The decorated classes by name; a class missing here carries no metadata. */
  type ClassTable = map<string, ClassInfo>

  /** How a provider makes its instance. A declaration carrying several of `useClass`,
      `useFactory` and `useValue` is represented by the one the resolver picks: class, then factory,
      then value (a provider object with none of them is a value provider of `undefined`). */
  datatype Use = UseClass(cls: string) | UseFactory(fn: nat, deps: Option<seq<Token>>) | UseValue(value: Value)

  /** A provider object; `provide` is `None` when the property is missing or `undefined`. */
  datatype ProviderDef = ProviderDef(provide: Option<Token>, use: Use, scope: Option<Scope>, global: Option<bool>, executionContextIn: Option<seq<string>>)

  /** One entry of a `providers` list. */
  datatype Decl =
    | BareClass(name: string)      // a class given on its own
    | Provider(def: ProviderDef)   // a provider object
    | Nested(items: seq<Decl>)     // a nested list
    | Other(nullish: bool)         // anything else; `nullish` for `null` and `undefined`

  // ---------------------------------------------------------------------------------------------
  // Scope filters (`onlySingletonProviders`, `onlyOperationProviders`)

  /** The scope the filters read off one entry: a bare class's decorator options, otherwise the
      entry's own `scope` property (which a list and a primitive do not have). Only an explicit
      `Operation` counts as operation-scoped. */
  function DeclScope(classes: ClassTable, d: Decl): Result<Scope, DiError> {
    match d
    case BareClass(n) =>
      if n in classes then Ok(if classes[n].options.scope == Some(Operation) then Operation else Singleton)
      else Err(NoInjectable(Class(n)))
    case Provider(def) => Ok(if def.scope == Some(Operation) then Operation else Singleton)
    case Nested(_) => Ok(Singleton)
    case Other(nullish) => if nullish then Err(NullishProvider) else Ok(Singleton)
  }

  /** `providers.filter(...)` keeping the entries of scope `s`; the first entry whose scope cannot
      be read aborts the filter. */
  function OnlyScope(classes: ClassTable, ds: seq<Decl>, s: Scope): Result<seq<Decl>, DiError> {
    if ds == [] then Ok([])
    else
      match DeclScope(classes, ds[0])
      case Err(e) => Err(e)
      case Ok(s0) =>
        match OnlyScope(classes, ds[1..], s)
        case Err(e) => Err(e)
        case Ok(rest) => Ok(if s0 == s then [ds[0]] + rest else rest)
  }

  function OnlySingletonProviders(classes: ClassTable, ds: seq<Decl>): Result<seq<Decl>, DiError> {
    OnlyScope(classes, ds, Singleton)
  }

  function OnlyOperationProviders(classes: ClassTable, ds: seq<Decl>): Result<seq<Decl>, DiError> {
    OnlyScope(classes, ds, Operation)
  }

  /** Every entry a filter keeps is of the scope it filters for. */
  lemma {:induction false} OnlyScopeSound(classes: ClassTable, ds: seq<Decl>, s: Scope)
    ensures OnlyScope(classes, ds, s).Ok? ==> forall d | d in OnlyScope(classes, ds, s).value :: DeclScope(classes, d) == Ok(s)
  {
    if ds != [] {
      OnlyScopeSound(classes, ds[1..], s);
    }
  }

  /** One step of a filter: the first entry's scope, then the rest of the list. */
  lemma OnlyScopeCons(classes: ClassTable, ds: seq<Decl>, s: Scope)
    requires ds != []
    ensures OnlyScope(classes, ds, s).Ok? <==> DeclScope(classes, ds[0]).Ok? && OnlyScope(classes, ds[1..], s).Ok?
    ensures OnlyScope(classes, ds, s).Ok? ==>
      OnlyScope(classes, ds, s).value ==
        if DeclScope(classes, ds[0]).value == s then [ds[0]] + OnlyScope(classes, ds[1..], s).value
        else OnlyScope(classes, ds[1..], s).value
  {
  }

  /** The two filters fail together, and otherwise split the list between them: every entry lands
      in exactly one of the two (in the list of its scope, by `OnlyScopeSound`). */
  lemma {:induction false} ScopeFiltersPartition(classes: ClassTable, ds: seq<Decl>)
    ensures OnlySingletonProviders(classes, ds).Ok? <==> OnlyOperationProviders(classes, ds).Ok?
    ensures OnlySingletonProviders(classes, ds).Ok? ==>
      multiset(OnlySingletonProviders(classes, ds).value) + multiset(OnlyOperationProviders(classes, ds).value) == multiset(ds)
  {
    if ds != [] {
      ScopeFiltersPartition(classes, ds[1..]);
      OnlyScopeCons(classes, ds, Singleton);
      OnlyScopeCons(classes, ds, Operation);
      if OnlySingletonProviders(classes, ds).Ok? {
        assert ds == [ds[0]] + ds[1..];
        SplitCons(ds[0], OnlySingletonProviders(classes, ds[1..]).value, OnlyOperationProviders(classes, ds[1..]).value, ds[1..],
          OnlySingletonProviders(classes, ds).value, OnlyOperationProviders(classes, ds).value);
      }
    }
  }

  /** Sending one more entry to one side of a split keeps the split. */
  lemma SplitCons(d: Decl, xs: seq<Decl>, ys: seq<Decl>, rest: seq<Decl>, xs': seq<Decl>, ys': seq<Decl>)
    requires multiset(xs) + multiset(ys) == multiset(rest)
    requires (xs' == [d] + xs && ys' == ys) || (xs' == xs && ys' == [d] + ys)
    ensures multiset(xs') + multiset(ys') == multiset([d] + rest)
  {
  }

  // ---------------------------------------------------------------------------------------------
  // Normalisation (`normalizeProviders`)

  /** The entries that are not lists, in the order a depth-first walk meets them. */
  function Leaves(ds: seq<Decl>): seq<Decl> {
    if ds == [] then []
    else (if ds[0].Nested? then Leaves(ds[0].items) else [ds[0]]) + Leaves(ds[1..])
  }

  /** An entry normalisation accepts: a class, or a provider object with `provide` set. */
  predicate AcceptedLeaf(d: Decl) {
    d.BareClass? || (d.Provider? && d.def.provide.Some?)
  }

  /** What normalisation turns an accepted entry into: a bare class `C` becomes
      `{provide: C, useClass: C}`, a provider object stays as it is. */
  function AsProvider(d: Decl): ProviderDef
    requires AcceptedLeaf(d)
  {
    if d.BareClass? then ProviderDef(Some(Class(d.name)), UseClass(d.name), None, None, None) else d.def
  }

  /** Two normalisation outcomes one after the other: the first error, or both lists joined. */
  function Cat(a: Result<seq<ProviderDef>, DiError>, b: Result<seq<ProviderDef>, DiError>): Result<seq<ProviderDef>, DiError> {
    match a
    case Err(e) => Err(e)
    case Ok(x) => match b case Err(e) => Err(e) case Ok(y) => Ok(x + y)
  }

  lemma CatAssoc(a: Result<seq<ProviderDef>, DiError>, b: Result<seq<ProviderDef>, DiError>, c: Result<seq<ProviderDef>, DiError>)
    ensures Cat(a, Cat(b, c)) == Cat(Cat(a, b), c)
  {
    if a.Ok? && b.Ok? && c.Ok? {
      assert a.value + (b.value + c.value) == (a.value + b.value) + c.value;
    }
  }

  /** One entry that is not a list: a class becomes a provider object, a provider object with
      `provide` stays, anything else throws `InvalidProvider`. */
  function Leaf(d: Decl): (r: Result<seq<ProviderDef>, DiError>)
    requires !d.Nested?
    ensures r.Ok? <==> AcceptedLeaf(d)
    ensures r.Ok? ==> r.value == [AsProvider(d)]
    ensures r.Err? ==> r.error == InvalidProvider
  {
    match d
    case BareClass(_) => Ok([AsProvider(d)])
    case Provider(def) => if def.provide.Some? then Ok([def]) else Err(InvalidProvider)
    case Other(_) => Err(InvalidProvider)
  }

  /** `normalizeProviders`, read as a function: entries in order, lists flattened in place, the
      first entry that is neither a class, a provider object with `provide` nor a list throws. */
  function Normalize(ds: seq<Decl>): Result<seq<ProviderDef>, DiError> {
    if ds == [] then Ok([])
    else Cat(if ds[0].Nested? then Normalize(ds[0].items) else Leaf(ds[0]), Normalize(ds[1..]))
  }

  /** Normalisation succeeds exactly when every non-list entry, however deeply nested, is
      accepted, and otherwise fails with `InvalidProvider`. */
  lemma {:induction false} NormalizeAccepts(ds: seq<Decl>)
    ensures Normalize(ds).Ok? <==> forall d | d in Leaves(ds) :: AcceptedLeaf(d)
    ensures Normalize(ds).Err? ==> Normalize(ds).error == InvalidProvider
  {
    if ds != [] {
      var l0 := if ds[0].Nested? then Leaves(ds[0].items) else [ds[0]];
      assert Leaves(ds) == l0 + Leaves(ds[1..]);
      if ds[0].Nested? {
        NormalizeAccepts(ds[0].items);
      }
      NormalizeAccepts(ds[1..]);
      assert (forall d | d in Leaves(ds) :: AcceptedLeaf(d)) <==>
        (forall d | d in l0 :: AcceptedLeaf(d)) && (forall d | d in Leaves(ds[1..]) :: AcceptedLeaf(d));
    }
  }

  /** `r` is `l` with every entry accepted and made a provider object, position by position. */
  ghost predicate FlatOf(r: seq<ProviderDef>, l: seq<Decl>) {
    && (forall d | d in l :: AcceptedLeaf(d))
    && |r| == |l|
    && forall i | 0 <= i < |r| :: r[i] == AsProvider(l[i])
  }

  lemma FlatOfAppend(r0: seq<ProviderDef>, l0: seq<Decl>, r1: seq<ProviderDef>, l1: seq<Decl>)
    requires FlatOf(r0, l0) && FlatOf(r1, l1)
    ensures FlatOf(r0 + r1, l0 + l1)
  {
    var r, l := r0 + r1, l0 + l1;
    forall i | 0 <= i < |r| ensures r[i] == AsProvider(l[i]) {
      if i >= |r0| {
        assert r[i] == r1[i - |r0|] && l[i] == l1[i - |r0|];
      } else {
        assert r[i] == r0[i] && l[i] == l0[i];
      }
    }
  }

  /** A successful normalisation yields one provider object per non-list entry, in depth-first
      order. */
  lemma {:induction false} NormalizeFlattens(ds: seq<Decl>)
    ensures Normalize(ds).Ok? ==> FlatOf(Normalize(ds).value, Leaves(ds))
  {
    if ds != [] && Normalize(ds).Ok? {
      var l0 := if ds[0].Nested? then Leaves(ds[0].items) else [ds[0]];
      var hr := if ds[0].Nested? then Normalize(ds[0].items) else Leaf(ds[0]);
      if ds[0].Nested? {
        NormalizeFlattens(ds[0].items);
      }
      NormalizeFlattens(ds[1..]);
      FlatOfAppend(hr.value, l0, Normalize(ds[1..]).value, Leaves(ds[1..]));
    }
  }

  /** Normalising a concatenation is normalising each part, the first part's error first. */
  lemma {:induction false} NormalizeAppend(a: seq<Decl>, b: seq<Decl>)
    ensures Normalize(a + b) == Cat(Normalize(a), Normalize(b))
  {
    if a == [] {
      assert a + b == b;
      if Normalize(b).Ok? {
        assert [] + Normalize(b).value == Normalize(b).value;
      }
    } else {
      assert (a + b)[0] == a[0];
      assert (a + b)[1..] == a[1..] + b;
      NormalizeAppend(a[1..], b);
      CatAssoc(if a[0].Nested? then Normalize(a[0].items) else Leaf(a[0]), Normalize(a[1..]), Normalize(b));
    }
  }

  /** The entries up to and including `i`, normalised: the prefix before `i`, then entry `i`. */
  lemma NormalizeStep(ds: seq<Decl>, i: nat)
    requires i < |ds|
    ensures Normalize(ds[..i + 1]) == Cat(Normalize(ds[..i]), if ds[i].Nested? then Normalize(ds[i].items) else Leaf(ds[i]))
  {
    NormalizeAppend(ds[..i], [ds[i]]);
    assert ds[..i + 1] == ds[..i] + [ds[i]];
    assert [ds[i]][1..] == [];
    var h := if ds[i].Nested? then Normalize(ds[i].items) else Leaf(ds[i]);
    if h.Ok? {
      assert h.value + [] == h.value;
    }
  }

  /** Once the entries up to `i` fail to normalise, the whole list fails the same way. */
  lemma NormalizeFailsAt(ds: seq<Decl>, i: nat)
    requires i < |ds| && Normalize(ds[..i + 1]).Err?
    ensures Normalize(ds) == Normalize(ds[..i + 1])
  {
    NormalizeAppend(ds[..i + 1], ds[i + 1..]);
    assert ds == ds[..i + 1] + ds[i + 1..];
  }

  /** `normalizeProviders(providers, res)`: walks the list, pushing onto the accumulator and
      descending into nested lists with the same accumulator. */
  method NormalizeProviders(ds: seq<Decl>, res: seq<ProviderDef>) returns (r: Result<seq<ProviderDef>, DiError>)
    ensures r == Cat(Ok(res), Normalize(ds))
    decreases ds
  {
    var acc := res;
    var i := 0;
    assert ds[..0] == [] && res + [] == res;
    while i < |ds|
      invariant 0 <= i <= |ds|
      invariant Cat(Ok(res), Normalize(ds[..i])) == Ok(acc)
      decreases |ds| - i
    {
      NormalizeStep(ds, i);
      CatAssoc(Ok(res), Normalize(ds[..i]), if ds[i].Nested? then Normalize(ds[i].items) else Leaf(ds[i]));
      match ds[i] {
      case BareClass(name) =>
        acc := acc + [AsProvider(ds[i])];
      case Provider(def) =>
        if def.provide.None? {
          NormalizeFailsAt(ds, i);
          return Err(InvalidProvider);
        }
        acc := acc + [def];
      case Nested(items) =>
        var sub := NormalizeProviders(items, acc);
        if sub.Err? {
          NormalizeFailsAt(ds, i);
          return sub;
        }
        acc := sub.value;
      case Other(_) =>
        NormalizeFailsAt(ds, i);
        return Err(InvalidProvider);
      }
      i := i + 1;
    }
    assert ds[..i] == ds;
    r := Ok(acc);
  }
}

=== FILE: registry.dfy ===
/** The process-wide key registry (`GlobalKeyRegistry` and `Key.get`). */
module Registry {
  import opened Wrappers
  import opened Tokens
  import opened Errors

  /** The registry's `Map` from token to key, with its insertion order (a JavaScript `Map`
      remembers the order in which keys were first set). */
  datatype KeyTable = KeyTable(keys: map<Token, Key>, order: seq<Token>)

  /** Every registered token maps to its own key, and the ids are exactly 0, 1, ... in
      registration order: distinct and without gaps. */
  ghost predicate Dense(t: KeyTable) {
    && |t.order| == |t.keys|
    && (forall n | 0 <= n < |t.order| :: t.order[n] in t.keys && t.keys[t.order[n]] == Key(t.order[n], n))
    && (forall u | u in t.keys :: !Falsy(u) && !u.KeyOf? && t.keys[u].id < |t.order| && t.order[t.keys[u].id] == u)
  }

  /** The registry only grows: nothing registered is ever removed or renumbered. */
  ghost predicate Grows(t: KeyTable, t': KeyTable) {
    t.order <= t'.order && forall u | u in t.keys :: u in t'.keys && t'.keys[u] == t.keys[u]
  }

  /** `k` is what the registry answers for `u`: the key itself when a key is passed,
      otherwise the registered key. */
  ghost predicate KeyFor(t: KeyTable, u: Token, k: Key) {
    if u.KeyOf? then k == u.key else u in t.keys && t.keys[u] == k
  }

  /** Growing the registry keeps every answer it has given. */
  lemma KeyForGrows(t: KeyTable, t': KeyTable, u: Token, k: Key)
    requires KeyFor(t, u, k) && Grows(t, t')
    ensures KeyFor(t', u, k)
  {
  }

  lemma GrowsTrans(t: KeyTable, t': KeyTable, t'': KeyTable)
    requires Grows(t, t') && Grows(t', t'')
    ensures Grows(t, t'')
  {
  }

  const Empty := KeyTable(map[], [])

  /** `GlobalKeyRegistry.get`: a key passed in is returned as it is; a registered token gets its
      key back; a new token is registered under the next id, unless it is falsy, in which case
      the `Key` constructor throws before anything is registered. */
  function Lookup(t: KeyTable, u: Token): (Result<Key, DiError>, KeyTable) {
    if u.KeyOf? then (Ok(u.key), t)
    else if u in t.keys then (Ok(t.keys[u]), t)
    else if Falsy(u) then (Err(TokenUndefined), t)
    else
      var k := Key(u, |t.keys|);
      (Ok(k), KeyTable(t.keys[u := k], t.order + [u]))
  }

  /** A lookup keeps the table dense, only grows it, and answers with the key it now holds for
      the token; a new token's id is the number of keys registered before it. */
  lemma {:induction false} LookupKeepsDense(t: KeyTable, u: Token)
    requires Dense(t)
    ensures var (r, t') := Lookup(t, u);
      && Dense(t') && Grows(t, t')
      && (r.Ok? <==> (u.KeyOf? || !Falsy(u)))
      && (r.Ok? ==> KeyFor(t', u, r.value))
      && (r.Ok? && !u.KeyOf? && u !in t.keys ==> r.value.id == |t.keys| && |t'.keys| == |t.keys| + 1)
  {
    var (r, t') := Lookup(t, u);
    if !u.KeyOf? && u !in t.keys && !Falsy(u) {
      var n := |t.keys|;
      assert |t'.keys| == n + 1;
      forall m | 0 <= m < |t'.order|
        ensures t'.order[m] in t'.keys && t'.keys[t'.order[m]] == Key(t'.order[m], m)
      {
        if m < n {
          assert t'.order[m] == t.order[m];
          assert t.order[m] != u;
        }
      }
    }
  }

  /** Whatever the table, a lookup only grows it and answers with the key it now holds. */
  lemma LookupGrows(t: KeyTable, u: Token)
    ensures var (r, t') := Lookup(t, u);
      && Grows(t, t')
      && (r.Ok? <==> (u.KeyOf? || u in t.keys || !Falsy(u)))
      && (r.Ok? ==> KeyFor(t', u, r.value))
  {
  }

  lemma LookupDense(t: KeyTable, u: Token)
    ensures Dense(t) ==> Dense(Lookup(t, u).1)
  {
    if Dense(t) {
      LookupKeepsDense(t, u);
    }
  }

  /** Asking twice for the same token gives the same answer and changes nothing the second time. */
  lemma {:induction false} LookupIdempotent(t: KeyTable, u: Token)
    requires Dense(t)
    ensures var (r, t') := Lookup(t, u); Lookup(t', u) == (r, t')
  {
    LookupKeepsDense(t, u);
  }

  /** Two tokens receive the same id exactly when they are the same token. */
  lemma {:induction false} SameIdIffSameToken(t: KeyTable, u: Token, v: Token)
    requires Dense(t) && !u.KeyOf? && !v.KeyOf?
    ensures var (ru, t1) := Lookup(t, u); var (rv, t2) := Lookup(t1, v);
      ru.Ok? && rv.Ok? ==> (ru.value.id == rv.value.id <==> u == v)
  {
    var (ru, t1) := Lookup(t, u);
    LookupKeepsDense(t, u);
    var (rv, t2) := Lookup(t1, v);
    LookupKeepsDense(t1, v);
    if ru.Ok? && rv.Ok? {
      assert t2.keys[u] == ru.value;
      assert t2.keys[v] == rv.value;
      if ru.value.id == rv.value.id {
        assert t2.order[ru.value.id] == u;
      }
    }
  }

  /** The registry object. `Get` is the only way it changes. */
  class GlobalKeyRegistry {
    var table: KeyTable

    ghost predicate Valid()
      reads this
    {
      Dense(table)
    }

    constructor ()
      ensures Valid() && table == Empty
    {
      table := Empty;
    }

    /** `numberOfKeys`: the size of the map. */
    function NumberOfKeys(): nat
      reads this
    {
      |table.keys|
    }

    /** `get(token)`, as `Lookup` describes it. */
    method Get(u: Token) returns (r: Result<Key, DiError>)
      requires Valid()
      modifies this
      ensures Valid() && Grows(old(table), table)
      ensures (r, table) == Lookup(old(table), u)
    {
      LookupKeepsDense(table, u);
      if u.KeyOf? {
        return Ok(u.key);
      }
      if u in table.keys {
        return Ok(table.keys[u]);
      }
      if Falsy(u) {
        return Err(TokenUndefined);
      }
      var newKey := Key(u, NumberOfKeys());
      table := KeyTable(table.keys[u := newKey], table.order + [u]);
      r := Ok(newKey);
    }
  }
}

=== FILE: resolution.dfy ===
/** Resolution of provider declarations into resolved providers (`resolveProviders` and its helpers). */
module Resolution {
  import opened Wrappers
  import opened Tokens
  import opened Errors
  import opened Registry
  import opened Providers

  /** What a resolved factory runs: a class's constructor, an application factory function, the
      constant of a value provider, or the engine's own factory for a module's context. */
  datatype Constructible =
    | ConstructClass(name: string)
    | CallFactory(fn: nat)
    | ReturnValue(value: Value)
    | ReturnModuleContext(op: nat, moduleId: string)

  datatype Dependency = Dependency(key: Key, optional: bool)

  datatype ResolvedFactory = ResolvedFactory(
    make: Constructible,
    dependencies: seq<Dependency>,
    executionContextIn: seq<string>,
    hasOnDestroyHook: bool,
    isGlobal: bool)

  datatype ResolvedProvider = ResolvedProvider(key: Key, factory: ResolvedFactory)

  function Ids(ps: seq<ResolvedProvider>): (ids: seq<nat>)
    ensures |ids| == |ps| && forall i | 0 <= i < |ps| :: ids[i] == ps[i].key.id
  {
    seq(|ps|, i requires 0 <= i < |ps| => ps[i].key.id)
  }

  // ---------------------------------------------------------------------------------------------
  // Dependencies

  /** The signature `noAnnotationError` prints: one entry per parameter, `?` for a parameter
      without a usable token and the stringified token otherwise. */
  function Signature(params: seq<Param>): (sig: seq<string>)
    ensures |sig| == |params|
    ensures forall i | 0 <= i < |params| ::
      sig[i] == (if Falsy(params[i].token) then "?" else Stringify(params[i].token))
  {
    if params == [] then []
    else [if Falsy(params[0].token) then "?" else Stringify(params[0].token)] + Signature(params[1..])
  }

  /** `params.map(p => extractToken(p, params))`: each parameter's token is registered in order and
      becomes a dependency with the parameter's optional flag; the first falsy token throws
      `NoAnnotation` naming that token and the whole signature. */
  function ExtractTokens(t: KeyTable, ps: seq<Param>, params: seq<Param>): (res: (Result<seq<Dependency>, DiError>, KeyTable))
    ensures Grows(t, res.1) && (Dense(t) ==> Dense(res.1))
    ensures res.0.Ok? ==> |res.0.value| == |ps|
    decreases |ps|
  {
    if ps == [] then (Ok([]), t)
    else if Falsy(ps[0].token) then (Err(NoAnnotation(ps[0].token, Signature(params))), t)
    else
      LookupGrows(t, ps[0].token);
      LookupDense(t, ps[0].token);
      var (k, t1) := Lookup(t, ps[0].token);
      var (rest, t2) := ExtractTokens(t1, ps[1..], params);
      GrowsTrans(t, t1, t2);
      if rest.Err? then (Err(rest.error), t2)
      else (Ok([Dependency(k.value, ps[0].optional)] + rest.value), t2)
  }

  /** Extraction succeeds exactly when no token is falsy; it then yields, per parameter, the
      registry's key for its token and its optional flag, and otherwise fails with `NoAnnotation`
      for a falsy token. */
  lemma ExtractTokensFacts(t: KeyTable, ps: seq<Param>, params: seq<Param>)
    ensures var (r, t') := ExtractTokens(t, ps, params);
      && (r.Ok? <==> forall p | p in ps :: !Falsy(p.token))
      && (r.Ok? ==> forall i | 0 <= i < |ps| ::
            r.value[i].optional == ps[i].optional && KeyFor(t', ps[i].token, r.value[i].key))
      && (r.Err? ==> exists i | 0 <= i < |ps| :: Falsy(ps[i].token) && r.error == NoAnnotation(ps[i].token, Signature(params)))
  {
    ExtractTokensOutcome(t, ps, params);
    ExtractTokensKeys(t, ps, params);
  }

  /** The tokens are extracted exactly when none is falsy; otherwise the error names a falsy one. */
  lemma {:induction false} ExtractTokensOutcome(t: KeyTable, ps: seq<Param>, params: seq<Param>)
    ensures var (r, t') := ExtractTokens(t, ps, params);
      && (r.Ok? <==> forall p | p in ps :: !Falsy(p.token))
      && (r.Err? ==> exists i | 0 <= i < |ps| :: Falsy(ps[i].token) && r.error == NoAnnotation(ps[i].token, Signature(params)))
    decreases |ps|
  {
    if ps != [] && !Falsy(ps[0].token) {
      LookupGrows(t, ps[0].token);
      var (k, t1) := Lookup(t, ps[0].token);
      ExtractTokensOutcome(t1, ps[1..], params);
      var (rest, t2) := ExtractTokens(t1, ps[1..], params);
      assert forall p | p in ps :: p == ps[0] || p in ps[1..];
      if rest.Err? {
        var i :| 0 <= i < |ps[1..]| && Falsy(ps[1..][i].token) && rest.error == NoAnnotation(ps[1..][i].token, Signature(params));
        assert ps[i + 1] == ps[1..][i];
      }
    }
  }

  /** Each extracted dependency keeps its parameter's optional flag and holds the key the final
      registry has for its token. */
  lemma {:induction false} ExtractTokensKeys(t: KeyTable, ps: seq<Param>, params: seq<Param>)
    ensures var (r, t') := ExtractTokens(t, ps, params);
      r.Ok? ==> forall i | 0 <= i < |ps| :: r.value[i].optional == ps[i].optional && KeyFor(t', ps[i].token, r.value[i].key)
    decreases |ps|
  {
    if ps != [] && !Falsy(ps[0].token) {
      LookupGrows(t, ps[0].token);
      var (k, t1) := Lookup(t, ps[0].token);
      ExtractTokensKeys(t1, ps[1..], params);
      var (rest, t2) := ExtractTokens(t1, ps[1..], params);
      if rest.Ok? {
        var r := [Dependency(k.value, ps[0].optional)] + rest.value;
        KeyForGrows(t1, t2, ps[0].token, k.value);
        forall i | 0 < i < |ps| ensures r[i].optional == ps[i].optional && KeyFor(t2, ps[i].token, r[i].key) {
          assert r[i] == rest.value[i - 1] && ps[i] == ps[1..][i - 1];
        }
      }
    }
  }

  /** `dependenciesFor(type)`: a class without metadata throws `NoInjectable`; a class without a
      parameter list has no dependencies; a parameter whose token is `null`/`undefined` throws
      `NoAnnotation` naming the class; otherwise the parameters' tokens, in order, which succeeds
      exactly when no token is falsy (an empty string fails `extractToken` with `NoAnnotation`). */
  function DependenciesFor(t: KeyTable, classes: ClassTable, cls: string): (res: (Result<seq<Dependency>, DiError>, KeyTable))
    ensures Grows(t, res.1) && (Dense(t) ==> Dense(res.1))
    ensures res.0.Ok? ==> cls in classes
    ensures cls !in classes ==> res.0 == Err(NoInjectable(Class(cls)))
    ensures cls in classes && classes[cls].params.None? ==> res.0 == Ok([])
    ensures cls in classes && classes[cls].params.Some? ==>
      (res.0.Ok? <==> forall p | p in classes[cls].params.value :: !Falsy(p.token))
    ensures cls in classes && classes[cls].params.Some? && res.0.Ok? ==>
      var ps := classes[cls].params.value;
      |res.0.value| == |ps| && forall i | 0 <= i < |ps| ::
        res.0.value[i].optional == ps[i].optional && KeyFor(res.1, ps[i].token, res.0.value[i].key)
    ensures cls in classes && classes[cls].params.Some? &&
            (exists p | p in classes[cls].params.value :: p.token.Undefined?) ==>
      res.0 == Err(NoAnnotation(Class(cls), Signature(classes[cls].params.value)))
    ensures cls in classes && classes[cls].params.Some? && res.0.Err? &&
            (forall p | p in classes[cls].params.value :: !p.token.Undefined?) ==>
      var ps := classes[cls].params.value;
      exists i | 0 <= i < |ps| :: Falsy(ps[i].token) && res.0 == Err(NoAnnotation(ps[i].token, Signature(ps)))
  {
    if cls !in classes then (Err(NoInjectable(Class(cls))), t)
    else
      match classes[cls].params
      case None => (Ok([]), t)
      case Some(ps) =>
        if exists i | 0 <= i < |ps| :: ps[i].token.Undefined? then
          assert forall i | 0 <= i < |ps| :: ps[i] in ps;
          (Err(NoAnnotation(Class(cls), Signature(ps))), t)
        else
          assert forall p | p in ps :: exists i | 0 <= i < |ps| :: ps[i] == p;
          ExtractTokensFacts(t, ps, ps);
          ExtractTokens(t, ps, ps)
  }

  /** The tokens of a factory's `deps`, each as a required parameter. */
  function Required(deps: seq<Token>): (ps: seq<Param>)
    ensures |ps| == |deps| && forall i | 0 <= i < |deps| :: ps[i] == Param(deps[i], false)
  {
    if deps == [] then [] else [Param(deps[0], false)] + Required(deps[1..])
  }

  /** `constructDependencies(fn, deps)` for a factory: every listed token is a required dependency. */
  function ConstructDependencies(t: KeyTable, deps: seq<Token>): (res: (Result<seq<Dependency>, DiError>, KeyTable))
    ensures Grows(t, res.1) && (Dense(t) ==> Dense(res.1))
    ensures res.0.Ok? <==> forall d | d in deps :: !Falsy(d)
    ensures res.0.Ok? ==>
      |res.0.value| == |deps| && forall i | 0 <= i < |deps| ::
        !res.0.value[i].optional && KeyFor(res.1, deps[i], res.0.value[i].key)
  {
    var params := Required(deps);
    ExtractTokensFacts(t, params, params);
    RequiredTokens(deps);
    ExtractTokens(t, params, params)
  }

  /** The required parameters carry exactly the listed tokens. */
  lemma {:induction false} RequiredTokens(deps: seq<Token>)
    ensures (forall d | d in deps :: !Falsy(d)) <==> (forall p | p in Required(deps) :: !Falsy(p.token))
  {
    if deps != [] {
      RequiredTokens(deps[1..]);
      assert Required(deps) == [Param(deps[0], false)] + Required(deps[1..]);
      assert forall d | d in deps :: d == deps[0] || d in deps[1..];
    }
  }

  // ---------------------------------------------------------------------------------------------
  // Factories and providers

  /** `resolveFactory`: a class provider takes its dependencies, `executionContextIn`, `global`
      and teardown hook from the class; a factory provider takes dependencies from `deps`
      (default: none) and the flags from the provider object; a value provider has no
      dependencies. An unset `global` is false. */
  function ResolveFactory(t: KeyTable, classes: ClassTable, def: ProviderDef): (res: (Result<ResolvedFactory, DiError>, KeyTable))
    ensures Grows(t, res.1) && (Dense(t) ==> Dense(res.1))
  {
    match def.use
    case UseClass(c) =>
      var (deps, t1) := DependenciesFor(t, classes, c);
      if deps.Err? then (Err(deps.error), t1)
      else
        var info := classes[c];
        (Ok(ResolvedFactory(ConstructClass(c), deps.value, info.options.executionContextIn.GetOr([]),
                            info.hasOnDestroy, info.options.global.GetOr(false))), t1)
    case UseFactory(fn, deps) =>
      var (ds, t1) := ConstructDependencies(t, deps.GetOr([]));
      if ds.Err? then (Err(ds.error), t1)
      else (Ok(ResolvedFactory(CallFactory(fn), ds.value, def.executionContextIn.GetOr([]), false, def.global.GetOr(false))), t1)
    case UseValue(v) =>
      (Ok(ResolvedFactory(ReturnValue(v), [], [], false, def.global.GetOr(false))), t)
  }

  /** A value provider has no dependencies, context members or teardown; a class provider's
      `global` flag is the class's own and its provider object's flag is ignored; a factory's
      flag is the provider object's; a factory resolves exactly when none of its `deps` is falsy. */
  lemma ResolveFactoryFacts(t: KeyTable, classes: ClassTable, def: ProviderDef)
    ensures var (r, _) := ResolveFactory(t, classes, def);
      && (r.Ok? && def.use.UseValue? ==>
            r.value.dependencies == [] && r.value.executionContextIn == [] && !r.value.hasOnDestroyHook)
      && (r.Ok? && def.use.UseClass? ==>
            def.use.cls in classes && r.value.isGlobal == (classes[def.use.cls].options.global == Some(true))
            && r.value.hasOnDestroyHook == classes[def.use.cls].hasOnDestroy)
      && (r.Ok? && !def.use.UseClass? ==> r.value.isGlobal == (def.global == Some(true)) && !r.value.hasOnDestroyHook)
      && (def.use.UseFactory? ==> (r.Ok? <==> forall d | d in def.use.deps.GetOr([]) :: !Falsy(d)))
  {
  }

  /** `resolveProvider`: the key of `provide` first (a falsy token throws), then the factory. */
  function ResolveProvider(t: KeyTable, classes: ClassTable, def: ProviderDef): (res: (Result<ResolvedProvider, DiError>, KeyTable))
    requires def.provide.Some?
    ensures Grows(t, res.1) && (Dense(t) ==> Dense(res.1))
    ensures res.0.Ok? ==> KeyFor(res.1, def.provide.value, res.0.value.key)
    ensures Falsy(def.provide.value) && !def.provide.value.KeyOf? && def.provide.value !in t.keys ==>
      res.0 == Err(TokenUndefined)
  {
    LookupGrows(t, def.provide.value);
    LookupDense(t, def.provide.value);
    var (k, t1) := Lookup(t, def.provide.value);
    if k.Err? then (Err(k.error), t1)
    else
      var (f, t2) := ResolveFactory(t1, classes, def);
      if f.Err? then (Err(f.error), t2) else (Ok(ResolvedProvider(k.value, f.value)), t2)
  }

  /** Every provider object in the list has `provide` set, as normalisation guarantees. */
  predicate Keyed(defs: seq<ProviderDef>) {
    forall k | 0 <= k < |defs| :: defs[k].provide.Some?
  }

  /** `normalized.map(resolveProvider)`: in order; the first failure aborts, keeping the keys
      registered before it. */
  function ResolveAll(t: KeyTable, classes: ClassTable, defs: seq<ProviderDef>): (res: (Result<seq<ResolvedProvider>, DiError>, KeyTable))
    requires Keyed(defs)
    ensures Grows(t, res.1) && (Dense(t) ==> Dense(res.1))
    ensures res.0.Ok? ==> |res.0.value| == |defs|
    decreases |defs|
  {
    if defs == [] then (Ok([]), t)
    else
      var n := |defs| - 1;
      var (prefix, t0) := ResolveAll(t, classes, defs[..n]);
      if prefix.Err? then (prefix, t0)
      else
        var (p, t1) := ResolveProvider(t0, classes, defs[n]);
        if p.Err? then (Err(p.error), t1) else (Ok(prefix.value + [p.value]), t1)
  }

  // ---------------------------------------------------------------------------------------------
  // Deduplication (`mergeResolvedProviders`)

  /** The first index in `ps` whose key id is `id`. */
  function IndexOfId(ps: seq<ResolvedProvider>, id: nat): (r: Option<nat>)
    ensures r.Some? ==> r.value < |ps| && ps[r.value].key.id == id && forall i | 0 <= i < r.value :: ps[i].key.id != id
    ensures r.None? ==> forall i | 0 <= i < |ps| :: ps[i].key.id != id
  {
    if ps == [] then None
    else if ps[0].key.id == id then Some(0)
    else match IndexOfId(ps[1..], id)
      case Some(j) => Some(j + 1)
      case None => None
  }

  /** Setting one provider in a JavaScript `Map` keyed by id: an existing id keeps its place and
      takes the new provider, a new id goes last. */
  function MergeStep(acc: seq<ResolvedProvider>, p: ResolvedProvider): seq<ResolvedProvider> {
    match IndexOfId(acc, p.key.id)
    case Some(j) => acc[j := p]
    case None => acc + [p]
  }

  /** The values of that `Map` after setting every provider of `ps` in order. */
  function Merged(ps: seq<ResolvedProvider>): seq<ResolvedProvider> {
    if ps == [] then [] else MergeStep(Merged(ps[..|ps| - 1]), ps[|ps| - 1])
  }

  /** The ids of `s` in order of first occurrence, each once. */
  function FirstOccurrences(s: seq<nat>): seq<nat> {
    if s == [] then []
    else
      var d := FirstOccurrences(s[..|s| - 1]);
      if s[|s| - 1] in d then d else d + [s[|s| - 1]]
  }

  /** The provider declared last for `id` in `ps`. */
  function LastWithId(ps: seq<ResolvedProvider>, id: nat): ResolvedProvider
    requires id in Ids(ps)
  {
    var n := |ps| - 1;
    if ps[n].key.id == id then ps[n] else LastWithId(ps[..n], id)
  }

  /** One step changes the ids only by appending a new one. */
  lemma MergeStepIds(acc: seq<ResolvedProvider>, p: ResolvedProvider)
    ensures Ids(MergeStep(acc, p)) == if p.key.id in Ids(acc) then Ids(acc) else Ids(acc) + [p.key.id]
  {
    match IndexOfId(acc, p.key.id)
    case Some(j) =>
      assert Ids(acc[j := p]) == Ids(acc);
    case None =>
      assert p.key.id !in Ids(acc);
      assert Ids(acc + [p]) == Ids(acc) + [p.key.id];
  }

  /** The merged ids are the declared ids in order of first occurrence. */
  lemma {:induction false} MergedIds(ps: seq<ResolvedProvider>)
    ensures Ids(Merged(ps)) == FirstOccurrences(Ids(ps))
  {
    if ps != [] {
      var n := |ps| - 1;
      var pre := ps[..n];
      MergedIds(pre);
      MergeStepIds(Merged(pre), ps[n]);
      assert Merged(ps) == MergeStep(Merged(pre), ps[n]);
      assert Ids(ps)[..n] == Ids(pre) && Ids(ps)[n] == ps[n].key.id;
      assert FirstOccurrences(Ids(ps)) ==
        var d := FirstOccurrences(Ids(pre));
        if ps[n].key.id in d then d else d + [ps[n].key.id];
    }
  }

  /** First occurrences are distinct and are exactly the elements. */
  lemma {:induction false} FirstOccurrencesFacts(s: seq<nat>)
    ensures Distinct(FirstOccurrences(s))
    ensures forall x :: x in FirstOccurrences(s) <==> x in s
  {
    if s != [] {
      var n := |s| - 1;
      FirstOccurrencesFacts(s[..n]);
      assert s == s[..n] + [s[n]];
    }
  }

  /** Each merged provider is the one declared last for its id. */
  lemma {:induction false} MergedKeepsLast(ps: seq<ResolvedProvider>)
    ensures forall q | q in Merged(ps) :: q.key.id in Ids(ps) && q == LastWithId(ps, q.key.id)
  {
    if ps != [] {
      var n := |ps| - 1;
      var pre := ps[..n];
      var p := ps[n];
      MergedKeepsLast(pre);
      MergedIds(pre);
      FirstOccurrencesFacts(Ids(pre));
      var m := Merged(pre);
      assert Ids(ps) == Ids(pre) + [p.key.id];
      forall q | q in Merged(ps) ensures q.key.id in Ids(ps) && q == LastWithId(ps, q.key.id) {
        if q != p {
          var k :| 0 <= k < |Merged(ps)| && Merged(ps)[k] == q;
          match IndexOfId(m, p.key.id)
          case Some(j) =>
            assert k != j && q == m[k];
            assert Ids(m)[k] != Ids(m)[j];
          case None =>
            assert q == m[k];
        }
      }
    }
  }

  /** Deduplication keeps exactly one provider per key id, the one declared last, at the place
      where the id first occurred; no declared id is lost. */
  lemma MergedLastWins(ps: seq<ResolvedProvider>)
    ensures Ids(Merged(ps)) == FirstOccurrences(Ids(ps))
    ensures Distinct(Ids(Merged(ps)))
    ensures forall q | q in Merged(ps) :: q.key.id in Ids(ps) && q == LastWithId(ps, q.key.id)
    ensures forall p | p in ps :: p.key.id in Ids(Merged(ps))
  {
    MergedIds(ps);
    FirstOccurrencesFacts(Ids(ps));
    MergedKeepsLast(ps);
  }

  /** The `Map`'s values in insertion order (`Array.from(map.values())`). */
  function Values(byId: map<nat, ResolvedProvider>, order: seq<nat>): (vs: seq<ResolvedProvider>)
    requires forall x | x in order :: x in byId
    ensures |vs| == |order| && forall k | 0 <= k < |order| :: vs[k] == byId[order[k]]
  {
    seq(|order|, k requires 0 <= k < |order| => byId[order[k]])
  }

  lemma ValuesReplace(byId: map<nat, ResolvedProvider>, order: seq<nat>, j: nat, p: ResolvedProvider)
    requires forall x | x in order :: x in byId
    requires Distinct(order) && j < |order| && order[j] == p.key.id
    ensures Values(byId[p.key.id := p], order) == Values(byId, order)[j := p]
  {
  }

  lemma ValuesAppend(byId: map<nat, ResolvedProvider>, order: seq<nat>, p: ResolvedProvider)
    requires forall x | x in order :: x in byId
    requires p.key.id !in order
    ensures Values(byId[p.key.id := p], order + [p.key.id]) == Values(byId, order) + [p]
  {
  }

  /** The `Map` with its insertion order: the order lists each key once, and each key holds a
      provider with that id. */
  ghost predicate IdMap(byId: map<nat, ResolvedProvider>, order: seq<nat>) {
    && Distinct(order)
    && (forall x :: x in byId <==> x in order)
    && (forall x | x in byId :: byId[x].key.id == x)
  }

  /** `map.set(p.key.id, p)` keeps the map and its insertion order consistent. */
  lemma SetKeepsIdMap(byId: map<nat, ResolvedProvider>, order: seq<nat>, p: ResolvedProvider)
    requires IdMap(byId, order)
    ensures IdMap(byId[p.key.id := p], if p.key.id in byId then order else order + [p.key.id])
  {
  }

  /** `map.set(p.key.id, p)` on the model agrees with one merge step on the values. */
  lemma SetAgreesWithMergeStep(byId: map<nat, ResolvedProvider>, order: seq<nat>, p: ResolvedProvider)
    requires IdMap(byId, order)
    ensures Values(byId[p.key.id := p], if p.key.id in byId then order else order + [p.key.id]) == MergeStep(Values(byId, order), p)
  {
    var m := Values(byId, order);
    if p.key.id in byId {
      var j :| 0 <= j < |order| && order[j] == p.key.id;
      forall k | 0 <= k < j ensures m[k].key.id != p.key.id {
        assert order[k] != order[j];
      }
      assert IndexOfId(m, p.key.id) == Some(j);
      ValuesReplace(byId, order, j, p);
    } else {
      assert IndexOfId(m, p.key.id) == None;
      ValuesAppend(byId, order, p);
    }
  }

  /** `mergeResolvedProviders`: a loop setting each provider in a `Map` keyed by id, modelled as
      the map together with its insertion order. */
  method MergeResolvedProviders(ps: seq<ResolvedProvider>) returns (byId: map<nat, ResolvedProvider>, order: seq<nat>)
    ensures Distinct(order) && forall x :: x in byId <==> x in order
    ensures Values(byId, order) == Merged(ps)
  {
    byId := map[];
    order := [];
    var i := 0;
    while i < |ps|
      invariant 0 <= i <= |ps|
      invariant IdMap(byId, order)
      invariant Values(byId, order) == Merged(ps[..i])
    {
      var p := ps[i];
      assert ps[..i + 1][..i] == ps[..i];
      SetKeepsIdMap(byId, order, p);
      SetAgreesWithMergeStep(byId, order, p);
      if p.key.id !in byId {
        order := order + [p.key.id];
      }
      byId := byId[p.key.id := p];
      i := i + 1;
    }
    assert ps[..i] == ps;
  }

  // ---------------------------------------------------------------------------------------------
  // `resolveProviders`

  /** Every provider object normalisation yields has `provide` set. */
  lemma NormalizedHaveProvide(ds: seq<Decl>)
    ensures Normalize(ds).Ok? ==> Keyed(Normalize(ds).value)
  {
    NormalizeFlattens(ds);
    if Normalize(ds).Ok? {
      var r := Normalize(ds).value;
      forall i | 0 <= i < |r| ensures r[i].provide.Some? {
        assert Leaves(ds)[i] in Leaves(ds);
      }
    }
  }

  /** Normalise, resolve each provider, deduplicate by key id. */
  function ResolveProvidersSpec(t: KeyTable, classes: ClassTable, ds: seq<Decl>): (res: (Result<seq<ResolvedProvider>, DiError>, KeyTable))
    ensures Grows(t, res.1) && (Dense(t) ==> Dense(res.1))
  {
    match Normalize(ds)
    case Err(e) => (Err(e), t)
    case Ok(defs) =>
      NormalizedHaveProvide(ds);
      var (r, t1) := ResolveAll(t, classes, defs);
      if r.Err? then (Err(r.error), t1) else (Ok(Merged(r.value)), t1)
  }

  /** `normalized.map(resolveProvider)` as a loop over a snapshot of the registry's table. */
  method ResolveEach(t0: KeyTable, classes: ClassTable, defs: seq<ProviderDef>) returns (r: Result<seq<ResolvedProvider>, DiError>, t: KeyTable)
    requires Keyed(defs)
    ensures (r, t) == ResolveAll(t0, classes, defs)
  {
    t := t0;
    var resolved: seq<ResolvedProvider> := [];
    var i := 0;
    while i < |defs|
      invariant 0 <= i <= |defs|
      invariant ResolveAll(t0, classes, defs[..i]) == (Ok(resolved), t)
    {
      ResolveAllStep(t0, classes, defs, i);
      var (p, t') := ResolveProvider(t, classes, defs[i]);
      t := t';
      if p.Err? {
        ResolveAllPrefixFailure(t0, classes, defs, i + 1);
        return Err(p.error), t;
      }
      resolved := resolved + [p.value];
      i := i + 1;
    }
    assert defs[..i] == defs;
    r := Ok(resolved);
  }

  /** `resolveProviders`, run against the registry object: the keys registered while resolving
      (by `Key.get` inside the helpers) stay in the registry, also when resolution throws. */
  method ResolveProviders(reg: GlobalKeyRegistry, classes: ClassTable, ds: seq<Decl>) returns (r: Result<seq<ResolvedProvider>, DiError>)
    requires reg.Valid()
    modifies reg
    ensures reg.Valid()
    ensures (r, reg.table) == ResolveProvidersSpec(old(reg.table), classes, ds)
  {
    var normalized := NormalizeProviders(ds, []);
    if normalized.Err? {
      return Err(normalized.error);
    }
    var defs := normalized.value;
    assert Normalize(ds) == Ok(defs) by {
      if Normalize(ds).Ok? {
        assert [] + Normalize(ds).value == Normalize(ds).value;
      }
    }
    NormalizedHaveProvide(ds);
    var resolved, t := ResolveEach(reg.table, classes, defs);
    reg.table := t;
    if resolved.Err? {
      return Err(resolved.error);
    }
    var byId, order := MergeResolvedProviders(resolved.value);
    r := Ok(Values(byId, order));
  }

  /** Resolving one more provider after a successful prefix. */
  lemma ResolveAllStep(t0: KeyTable, classes: ClassTable, defs: seq<ProviderDef>, i: nat)
    requires Keyed(defs)
    requires i < |defs| && ResolveAll(t0, classes, defs[..i]).0.Ok?
    ensures var (prefix, t) := ResolveAll(t0, classes, defs[..i]);
      ResolveAll(t0, classes, defs[..i + 1]) ==
        var (p, t') := ResolveProvider(t, classes, defs[i]);
        if p.Err? then (Err(p.error), t') else (Ok(prefix.value + [p.value]), t')
  {
    assert defs[..i + 1][..i] == defs[..i];
  }

  /** Once a prefix of the providers fails, so does the whole list, with the same error and keys. */
  lemma {:induction false} ResolveAllPrefixFailure(t: KeyTable, classes: ClassTable, defs: seq<ProviderDef>, n: nat)
    requires Keyed(defs)
    requires 0 < n <= |defs|
    requires ResolveAll(t, classes, defs[..n]).0.Err?
    ensures ResolveAll(t, classes, defs) == ResolveAll(t, classes, defs[..n])
    decreases |defs|
  {
    if n < |defs| {
      var pre := defs[..|defs| - 1];
      assert pre[..n] == defs[..n];
      ResolveAllPrefixFailure(t, classes, pre, n);
    } else {
      assert defs[..n] == defs;
    }
  }

}

=== FILE: runtime.dfy ===
/** The injectors of a running application (`ReflectiveInjector`) and the per-operation context
    builder (`createContextBuilder`), over one arena in which an injector is named by its index. */
module Runtime {
  import opened Wrappers
  import opened Tokens
  import opened Errors
  import opened Registry
  import opened Providers
  import opened Resolution
  import opened RuntimeState
  import opened Walks

  /** A provider that resolution of `{provide: key, useValue: v}` yields. */
  function ValueProvider(key: Key, v: Value): (p: ResolvedProvider)
    ensures p.key == key && p.factory.dependencies == [] && !p.factory.isGlobal && !p.factory.hasOnDestroyHook
  {
    ResolvedProvider(key, ResolvedFactory(ReturnValue(v), [], [], false, false))
  }

  /** The `CONTEXT` provider of a module's operation injector: a factory without dependencies
      that reads the operation's module-context cache when it runs. */
  function ModuleContextProvider(key: Key, o: nat, moduleId: string): (p: ResolvedProvider)
    ensures p.key == key && p.factory.dependencies == [] && !p.factory.isGlobal && !p.factory.hasOnDestroyHook
  {
    ResolvedProvider(key, ResolvedFactory(ReturnModuleContext(o, moduleId), [], [], false, false))
  }

  /** `ReflectiveInjector.resolve([{provide: token, useValue: v}])` for a token whose key is
      `key` yields exactly `ValueProvider(key, v)`. */
  lemma ValueProviderResolved(t: KeyTable, classes: ClassTable, token: Token, key: Key, v: Value)
    requires Lookup(t, token).0 == Ok(key)
    ensures ResolveProvider(t, classes, ProviderDef(Some(token), UseValue(v), None, None, None)).0 == Ok(ValueProvider(key, v))
  {
  }

  /** Resolving `{provide: token, useFactory}` without `deps` gives the provider a module's
      `CONTEXT` has: the same key, no dependencies, no context members, no teardown hook and
      not global. Only what the factory runs differs: the engine's read of the context cache
      stands for the closure over `contextCache[moduleId]`. */
  lemma ModuleContextProviderResolved(t: KeyTable, classes: ClassTable, token: Token, key: Key, fn: nat, o: nat, moduleId: string)
    requires Lookup(t, token).0 == Ok(key)
    ensures var r := ResolveProvider(t, classes, ProviderDef(Some(token), UseFactory(fn, None), None, None, None)).0;
      && r.Ok? && r.value.key == ModuleContextProvider(key, o, moduleId).key
      && r.value.factory == ModuleContextProvider(key, o, moduleId).factory.(make := CallFactory(fn))
  {
    var t1 := Lookup(t, token).1;
    assert ConstructDependencies(t1, []).0 == Ok([]);
  }

  function ModuleOperationName(moduleId: string): string {
    "Module \"" + moduleId + "\" (Operation Scope)"
  }

  class Application {
    /** The injectors (their fixed configuration, `_objs`, `_constructionCounter` and global map),
        the operations built so far and the modules map. */
    var st: AppState
    /** Each injector's `_executionContextGetter`. */
    var getters: seq<ContextGetter>
    /** The `onDestroy` calls made so far. */
    var hookCalls: seq<HookCall>
    /** The operation whose context picker `executionContext.create` installed last. */
    var ambient: Option<nat>
    /** The context builder's closure, with the module ids in the order the modules map was filled. */
    var wiring: Wiring

    /** Application code: a class constructor or factory function applied to its dependencies,
        returning the instance or the message of what it threw. */
    const invoke: Invoke
    /** The key of the `CONTEXT` token. */
    const contextKey: Key

    ghost predicate Valid()
      reads this`st, this`getters, this`ambient
    {
      && RuntimeState.Valid(st)
      && |getters| == |st.injectors|
      && (ambient.Some? ==> ambient.value < |st.operations|)
    }

    /** The application is assembled: the context builder's wiring fits the state. */
    ghost predicate Ready()
      reads this`st, this`getters, this`ambient, this`wiring
    {
      Valid() && Wired(st, wiring)
    }

    constructor(invoke: Invoke, contextKey: Key)
      ensures Valid() && st == AppState([], [], [], [], [], map[])
      ensures getters == [] && hookCalls == [] && ambient == None && wiring == Wiring([], 0, [], map[], map[])
      ensures this.invoke == invoke && this.contextKey == contextKey
    {
      this.invoke := invoke;
      this.contextKey := contextKey;
      st := AppState([], [], [], [], [], map[]);
      getters, hookCalls, ambient := [], [], None;
      wiring := Wiring([], 0, [], map[], map[]);
    }

    // -------------------------------------------------------------------------------------------
    // Construction and wiring

    /** `new ReflectiveInjector({...})`: a new injector at the end of the arena, one `UNDEFINED`
        slot per provider, `_keyIds` copied from the providers, counter zero, no global map and
        the getter that throws. */
    method NewInjector(name: string, providers: seq<ResolvedProvider>, parent: Option<nat>, fallbackParent: Option<nat>) returns (j: nat)
      requires Valid()
      requires parent.Some? ==> parent.value < |st.injectors|
      requires fallbackParent.Some? ==> fallbackParent.value < |st.injectors|
      modifies this`st, this`getters
      ensures Valid() && j == old(|st.injectors|)
      ensures st == AddInjector(old(st), InjectorConfig(name, providers, Resolution.Ids(providers), parent, fallbackParent))
      ensures getters == old(getters) + [ContextGetter.NotInExecutionContext]
    {
      var keyIds: seq<nat> := [];
      var k := 0;
      while k < |providers|
        invariant 0 <= k <= |providers|
        invariant keyIds == Resolution.Ids(providers[..k])
      {
        keyIds := keyIds + [providers[k].key.id];
        k := k + 1;
      }
      assert providers[..k] == providers;
      j := |st.injectors|;
      st := AddInjector(st, InjectorConfig(name, providers, keyIds, parent, fallbackParent));
      getters := getters + [ContextGetter.NotInExecutionContext];
    }

    /** `setExecutionContextGetter(getter)`. */
    method SetExecutionContextGetter(i: nat, g: ContextGetter)
      requires Valid() && i < |st.injectors|
      modifies this`getters
      ensures Valid() && getters == old(getters)[i := g]
    {
      getters := getters[i := g];
    }

    /** `attachGlobalProvidersMap`: the map's `has` is membership of the key id and its `get`
        hands the key to the owning module's injector. Attaching happens before the injector
        constructs anything the map covers, and never to a module's own injector. */
    method AttachGlobalProvidersMap(i: nat, ids: map<nat, string>, target: GlobalTarget)
      requires Valid() && i < |st.injectors| && AttachFits(st, i, ids, target)
      modifies this`st
      ensures Valid() && st == Attach(old(st), i, ids, target)
    {
      st := Attach(st, i, ids, target);
    }

    /** The modules map `createApplication` builds, recorded before any global map is attached
        and before any operation is built. */
    method SetModules(modules: map<string, ModuleEntry>)
      requires Valid() && st.operations == []
      requires forall i | 0 <= i < |st.globals| :: st.globals[i].NoGlobals?
      requires forall m | m in modules :: modules[m].injector < |st.injectors|
      modifies this`st
      ensures Valid() && st == old(st).(modules := modules)
    {
      ghost var s0 := st;
      st := st.(modules := modules);
      forall x | 0 <= x < |st.injectors|
        ensures InjectorOk(st, x)
      {
        assert InjectorOk(s0, x);
      }
    }

    /** `createContextBuilder({...})`: the builder's closure. */
    method SetWiring(w: Wiring)
      modifies this`wiring
      ensures wiring == w
    {
      wiring := w;
    }

    /** `_isObjectDefinedByKeyId(keyId)`: whether the first slot for the key id is constructed;
        false for a key id the injector does not hold. */
    method IsObjectDefinedByKeyId(i: nat, id: nat) returns (b: bool)
      requires Valid() && i < |st.injectors|
      ensures b <==> Stored(st, i, id).Some?
    {
      assert InjectorOk(st, i);
      var keyIds := st.injectors[i].keyIds;
      var k := 0;
      while k < |keyIds|
        invariant 0 <= k <= |keyIds|
        invariant forall q | 0 <= q < k :: keyIds[q] != id
      {
        if keyIds[k] == id {
          assert FirstIndex(keyIds, id) == Some(k);
          return st.objs[i][k].Filled?;
        }
        k := k + 1;
      }
      return false;
    }

    /** `registerProvidersToDestroy(injector)` for operation `o`: the pairs are collected in
        provider order and appended to the operation's list. */
    method RegisterProvidersToDestroy(o: nat, j: nat)
      requires Valid() && o < |st.operations| && j < |st.injectors|
      modifies this`st
      ensures Valid() && st == WithTeardown(old(st), o, TeardownOf(j, old(st.injectors[j].providers)))
    {
      var ps := st.injectors[j].providers;
      var es: seq<TeardownEntry> := [];
      var k := 0;
      while k < |ps|
        invariant 0 <= k <= |ps|
        invariant es == TeardownOf(j, ps[..k]) && st == old(st)
      {
        TeardownSnoc(j, ps, k);
        if ps[k].factory.hasOnDestroyHook {
          es := es + [TeardownEntry(j, ps[k].key.id)];
        }
        k := k + 1;
      }
      assert ps[..k] == ps;
      assert forall e | e in es :: e.injector == j;
      st := WithTeardown(st, o, es);
    }

    /** `getModuleContext(moduleId)` within operation `o`: the cached context, or on first use
        a module operation injector whose parent is the module's singleton injector and whose
        fallback parent is the operation injector, its teardown pairs registered and the context
        cached. A module id missing from the modules map throws before anything changes. */
    method GetModuleContext(o: nat, moduleId: string) returns (r: Result<Value, DiError>)
      requires Valid() && o < |st.operations|
      modifies this`st, this`getters
      ensures Valid() && Extends(old(st), st) && Progress(old(st), st) && old(getters) <= getters
      ensures r.Ok? ==>
        && r.value.ModuleContext? && r.value.moduleId == moduleId
        && moduleId in st.operations[o].cache && st.operations[o].cache[moduleId] == r.value.injector
        && r.value.injector < |st.injectors| && st.globals[r.value.injector].NoGlobals?
      ensures moduleId in old(st.operations[o].cache) ==>
        r == Ok(ModuleContext(old(st.operations[o].cache[moduleId]), moduleId)) && st == old(st) && getters == old(getters)
      ensures moduleId !in old(st.operations[o].cache) && moduleId !in st.modules ==>
        r == Err(UnknownModule(moduleId)) && st == old(st) && getters == old(getters)
      ensures moduleId !in old(st.operations[o].cache) && moduleId in st.modules ==>
        && r == Ok(ModuleContext(old(|st.injectors|), moduleId))
        && ContextCreated(old(st), st, o, moduleId, old(ModuleOperationConfig(o, moduleId)))
        && getters == old(getters) + [ContextGetter.NotInExecutionContext]
        && Uncached(st) + 1 == Uncached(old(st))
    {
      assert OperationOk(st, o);
      if moduleId in st.operations[o].cache {
        return Ok(ModuleContext(st.operations[o].cache[moduleId], moduleId));
      }
      if moduleId !in st.modules {
        return Err(UnknownModule(moduleId));
      }
      var j := CreateModuleContext(o, moduleId);
      r := Ok(ModuleContext(j, moduleId));
    }

    /** The configuration of module `moduleId`'s operation injector in operation `o`: the
        module's operation providers followed by its `CONTEXT`, the module's singleton injector as
        parent and the operation injector as fallback parent. */
    function ModuleOperationConfig(o: nat, moduleId: string): (c: InjectorConfig)
      requires RuntimeState.Valid(st) && o < |st.operations| && moduleId in st.modules
      reads this`st
      ensures ConfigFits(st, c)
      ensures c.parent == Some(st.modules[moduleId].injector) && c.fallbackParent == Some(st.operations[o].appInjector)
      ensures c.providers == st.modules[moduleId].operationProviders + [ModuleContextProvider(contextKey, o, moduleId)]
    {
      assert OperationOk(st, o);
      var entry := st.modules[moduleId];
      var ps := entry.operationProviders + [ModuleContextProvider(contextKey, o, moduleId)];
      InjectorConfig(ModuleOperationName(moduleId), ps, Resolution.Ids(ps), Some(entry.injector), Some(st.operations[o].appInjector))
    }

    /** The creating half of `getModuleContext` (the `contextCache` miss): a new module
        operation injector, its teardown pairs registered, the context cached. */
    method CreateModuleContext(o: nat, moduleId: string) returns (j: nat)
      requires Valid() && o < |st.operations| && moduleId in st.modules && moduleId !in st.operations[o].cache
      modifies this`st, this`getters
      ensures Valid() && Extends(old(st), st) && j == old(|st.injectors|)
      ensures j < |st.injectors| && st.globals[j].NoGlobals? && moduleId in st.operations[o].cache && st.operations[o].cache[moduleId] == j
      ensures ContextCreated(old(st), st, o, moduleId, old(ModuleOperationConfig(o, moduleId)))
      ensures getters == old(getters) + [ContextGetter.NotInExecutionContext]
      ensures Uncached(st) + 1 == Uncached(old(st))
    {
      ghost var s0 := st;
      var c := ModuleOperationConfig(o, moduleId);
      j := NewInjector(c.name, c.providers, c.parent, c.fallbackParent);
      AddInjectorFields(s0, c);
      ghost var s1 := st;
      RegisterProvidersToDestroy(o, j);
      ghost var s2 := st;
      CacheModuleContext(o, moduleId, j);
      ContextCreatedBySteps(s0, s1, s2, st, o, moduleId, c);
      ExtendsTrans(s0, s1, s2);
      ExtendsTrans(s0, s2, st);
    }

    /** Records a new module operation injector in operation `o`'s `contextCache`. */
    method CacheModuleContext(o: nat, moduleId: string, j: nat)
      requires Valid() && o < |st.operations| && j < |st.injectors| && st.globals[j].NoGlobals?
      requires moduleId in st.modules && moduleId !in st.operations[o].cache
      modifies this`st
      ensures Valid() && st == WithContext(old(st), o, moduleId, j)
    {
      st := WithContext(st, o, moduleId, j);
    }

    // -------------------------------------------------------------------------------------------
    // Resolution: `_getObjByKeyId`, `_new` with `_instantiateProvider`, `_getByKey`

    /** `_getObjByKeyId(keyId)` on injector `i`: a key id its global map records is handed to the
        owning module's injector; otherwise the injector's own slots answer. */
    method GetObjByKeyId(i: nat, id: nat) returns (r: Result<Option<Value>, DiError>)
      requires Valid() && i < |st.injectors|
      modifies this`st, this`getters
      ensures Valid() && Extends(old(st), st) && Progress(old(st), st) && old(getters) <= getters
      ensures InRange(old(st), [i]) && LookupOutcome(invoke, old(st), st, [i], id, r)
      decreases Uncached(st), Budget(st), if IsGlobalAt(st, i, id) then 7 else 5
    {
      if st.globals[i].Attached? && id in st.globals[i].ids {
        r := Delegate(i, id);
      } else {
        r := GetLocal(i, id);
      }
    }

    /** The global-map branch of `_getObjByKeyId`: the lookup moves to the injector of the module
        that owns the key id, and its answer is the owner's, `UNDEFINED` exactly when the owner
        does not hold the key. */
    method Delegate(i: nat, id: nat) returns (r: Result<Option<Value>, DiError>)
      requires Valid() && i < |st.injectors| && IsGlobalAt(st, i, id)
      modifies this`st, this`getters
      ensures Valid() && Extends(old(st), st) && Progress(old(st), st) && old(getters) <= getters
      ensures InRange(old(st), [i]) && LookupOutcome(invoke, old(st), st, [i], id, r)
      ensures st.globals[i] == old(st.globals[i]) && OwnerIn(st, i, id).Some?
      ensures r == Ok(None) <==> id !in st.injectors[OwnerIn(st, i, id).value].keyIds
      decreases Uncached(st), Budget(st), 6
    {
      ghost var s0 := st;
      var target := Owner(i, id);
      ghost var s1 := st;
      r := GetObjByKeyId(target, id);
      DelegatedOutcome(invoke, s0, s1, st, i, id, target, r);
    }

    /** The injector that owns a key id recorded in injector `i`'s global map (`OwnerIn`): the
        owning module's singleton injector, found without any change, or for an operation map
        that module's operation injector, created on first use through `getModuleContext`.
        Neither has a global map of its own. */
    method Owner(i: nat, id: nat) returns (target: nat)
      requires Valid() && i < |st.injectors| && IsGlobalAt(st, i, id)
      modifies this`st, this`getters
      ensures Valid() && Extends(old(st), st) && Progress(old(st), st) && old(getters) <= getters
      ensures target < |st.injectors| && st.globals[target].NoGlobals?
      ensures st.globals[i] == old(st.globals[i]) && OwnerIn(st, i, id) == Some(target)
      ensures old(st.globals[i].target).ModuleSingletonInjector? ==> st == old(st) && getters == old(getters)
    {
      var moduleId := st.globals[i].ids[id];
      assert InjectorOk(st, i);
      match st.globals[i].target {
        case ModuleSingletonInjector =>
          target := st.modules[moduleId].injector;
          ExtendsRefl(st);
        case ModuleOperationInjector(o) =>
          var c := GetModuleContext(o, moduleId);
          target := c.value.injector;
      }
    }

    /** The local branch of `_getObjByKeyId`: the first slot whose key id matches answers;
        `UNDEFINED` (here `None`) when there is none. */
    method GetLocal(i: nat, id: nat) returns (r: Result<Option<Value>, DiError>)
      requires Valid() && i < |st.injectors| && !IsGlobalAt(st, i, id)
      modifies this`st, this`getters
      ensures Valid() && Extends(old(st), st) && Progress(old(st), st) && old(getters) <= getters
      ensures InRange(old(st), [i]) && LookupOutcome(invoke, old(st), st, [i], id, r)
      decreases Uncached(st), Budget(st), 4
    {
      var keyIds := st.injectors[i].keyIds;
      var k := 0;
      while k < |keyIds| && keyIds[k] != id
        invariant 0 <= k <= |keyIds|
        invariant forall q | 0 <= q < k :: keyIds[q] != id
      {
        k := k + 1;
      }
      if k == |keyIds| {
        MissOutcome(invoke, st, i, id);
        r := Ok(None);
      } else {
        assert FirstIndex(keyIds, id) == Some(k);
        r := SlotObject(i, id, k);
      }
    }

    /** Slot `k` of injector `i`, the first holding `id`: an object already there is returned as
        it is; an `UNDEFINED` slot is first filled by `_new`. */
    method SlotObject(i: nat, id: nat, k: nat) returns (r: Result<Option<Value>, DiError>)
      requires Valid() && i < |st.injectors| && !IsGlobalAt(st, i, id)
      requires FirstIndex(st.injectors[i].keyIds, id) == Some(k)
      modifies this`st, this`getters
      ensures Valid() && Extends(old(st), st) && Progress(old(st), st) && old(getters) <= getters
      ensures InRange(old(st), [i]) && LookupOutcome(invoke, old(st), st, [i], id, r)
      decreases Uncached(st), Budget(st), 3
    {
      ghost var s0 := st;
      assert InjectorOk(st, i);
      if st.objs[i][k].Empty? {
        r := Construct(i, k);
      } else {
        ExtendsRefl(st);
        r := Ok(Some(st.objs[i][k].obj));
      }
      LocalOutcome(invoke, s0, st, i, id, k, r);
    }

    /** `this._objs[i] = this._new(provider)` for an `UNDEFINED` slot `k` of injector `i`: the
        slot is assigned only when `_new` returns, and then holds the answer. */
    method Construct(i: nat, k: nat) returns (r: Result<Option<Value>, DiError>)
      requires Valid() && i < |st.injectors| && k < |st.injectors[i].providers|
      requires k < |st.injectors[i].keyIds| && k < |st.objs[i]|
      requires st.globals[i].Attached? ==> st.injectors[i].keyIds[k] !in st.globals[i].ids
      modifies this`st, this`getters
      ensures Valid() && Extends(old(st), st) && Progress(old(st), st) && old(getters) <= getters
      ensures st.counters[i] > old(st.counters[i])
      ensures r.Ok? ==> r.value.Some? && st.objs[i][k] == Filled(r.value.value) && Built(invoke, st, i, k, r.value.value)
      decreases Uncached(st), Budget(st), 2
    {
      assert InjectorOk(st, i);
      ghost var s0 := st;
      var v, trace, got := New(i, k);
      if v.Err? {
        r := Err(v.error);
      } else {
        ghost var s1 := st;
        st := Fill(st, i, k, v.value);
        Chained(s0, s1, st);
        r := Ok(Some(v.value));
        ghost var p := s0.injectors[i].providers[k];
        assert |got| == |p.factory.dependencies|;
        assert Make(invoke, st, p.factory.make, got) == Make(invoke, s1, p.factory.make, got);
      }
    }

    /** `_new(provider)` for provider `k` of injector `i`: the construction counter goes up first;
        when it had already passed the slot count the provider is reported as a cyclic
        dependency. Otherwise the dependencies are looked up in order (`trace` and `got` record
        the lookups that answered), then the factory runs on their values, and the members listed
        in `executionContextIn` are bound to this injector's execution context, which needs an
        object. A failed lookup ends `_new` with its error, this provider's key appended. */
    method New(i: nat, k: nat) returns (r: Result<Value, DiError>, ghost trace: seq<AppState>, ghost got: seq<Value>)
      requires Valid() && i < |st.injectors| && k < |st.injectors[i].providers|
      modifies this`st, this`getters
      ensures Valid() && Extends(old(st), st) && Progress(old(st), st) && old(getters) <= getters
      ensures st.counters[i] > old(st.counters[i])
      ensures old(st.counters[i]) > |old(st.objs[i])| ==>
        && r == Err(InjectionError(CyclicDependency, old(st.injectors[i].name), old(st.injectors[i].providers[k].key)))
        && st == Bump(old(st), i)
      ensures old(st.counters[i]) <= |old(st.objs[i])| ==>
        var p := old(st.injectors[i].providers[k]);
        && DependenciesLookedUp(invoke, Bump(old(st), i), st, i, p.factory.dependencies, p.key, trace, got, r)
        && (|got| == |p.factory.dependencies| ==> r == Instantiate(p, old(st.injectors[i].name), i, Make(invoke, st, p.factory.make, got)))
      ensures r.Err? && r.error.Injection? ==> r.error.keys != [] && r.error.keys[|r.error.keys| - 1] == old(st.injectors[i].providers[k].key)
      ensures r.Ok? && old(st.injectors[i].providers[k].factory.executionContextIn) != [] ==>
        && r.value.ContextBound? && r.value.members == old(st.injectors[i].providers[k].factory.executionContextIn)
        && r.value.injector == i && IsObject(r.value.obj)
      decreases Uncached(st), Budget(st), 1
    {
      ghost var s0 := st;
      var provider := st.injectors[i].providers[k];
      var name := st.injectors[i].name;
      var counter := st.counters[i];
      st := Bump(st, i);
      if counter > |st.objs[i]| {
        r := Err(InjectionError(CyclicDependency, name, provider.key));
        trace, got := [st], [];
      } else {
        ghost var s1 := st;
        var values;
        values, trace, got := Dependencies(i, provider.factory.dependencies, provider.key);
        assert Moved(s1, st);
        Chained(s0, s1, st);
        if values.Err? {
          r := Err(values.error);
        } else {
          r := Instantiate(provider, name, i, Make(invoke, st, provider.factory.make, values.value));
        }
      }
    }

    /** The dependency loop of `_new`: each dependency is looked up from injector `i` (an optional
        one with `null` as not-found value), in order; `trace` holds the states between the
        lookups and `got` the values they answered. An error stops the loop and gets the key of
        the provider under construction appended. The caller has just raised a construction
        counter, which is the unit the measure adds back here. */
    method Dependencies(i: nat, deps: seq<Dependency>, key: Key) returns (r: Result<seq<Value>, DiError>, ghost trace: seq<AppState>, ghost got: seq<Value>)
      requires Valid() && i < |st.injectors|
      modifies this`st, this`getters
      ensures Valid() && Moved(old(st), st) && old(getters) <= getters
      ensures DependencyTrace(invoke, trace, got, i, deps) && trace[0] == old(st)
      ensures r.Ok? ==> r.value == got && |got| == |deps| && trace[|got|] == st
      ensures r.Err? ==> |got| < |deps| && exists e :: r.error == AddKey(e, key) && DependencyStep(invoke, trace[|got|], st, i, deps[|got|], Err(e))
      ensures r.Err? && r.error.Injection? ==> r.error.keys != [] && r.error.keys[|r.error.keys| - 1] == key
      decreases Uncached(st), Budget(st) + 1, 0
    {
      ghost var s0 := st;
      var values: seq<Value> := [];
      var d := 0;
      trace, got := [st], [];
      MovedRefl(st);
      while d < |deps|
        invariant 0 <= d <= |deps| && |values| == d && got == values
        invariant DependencyTrace(invoke, trace, got, i, deps) && trace[0] == s0 && trace[d] == st
        invariant Valid() && Moved(s0, st) && old(getters) <= getters
      {
        ghost var s1 := st;
        var v := GetByKey(i, deps[d].key, DependencyNotFound(deps[d]));
        MovedTrans(s0, s1, st);
        if v.Err? {
          return Err(AddKey(v.error, key)), trace, got;
        }
        TraceGrows(invoke, trace, got, i, deps, st, v.value);
        trace, got := trace + [st], got + [v.value];
        values := values + [v.value];
        d := d + 1;
      }
      r := Ok(values);
    }

    /** One `getObj()` walk of `_getByKey`: `_getObjByKeyId` on `start` and then up its `_parent`
        chain, stopping at the first answer that is not `UNDEFINED`. */
    method WalkChain(start: nat, id: nat) returns (r: Result<Option<Value>, DiError>)
      requires Valid() && start < |st.injectors|
      modifies this`st, this`getters
      ensures Valid() && Extends(old(st), st) && Progress(old(st), st) && old(getters) <= getters
      ensures InRange(old(st), Chain(old(st).injectors, start))
      ensures LookupOutcome(invoke, old(st), st, Chain(old(st).injectors, start), id, r)
      decreases Uncached(st), Budget(st), 8
    {
      ghost var s0 := st;
      ghost var js := Chain(st.injectors, start);
      var cur: nat := start;
      ghost var pos: nat := 0;
      var more := true;
      WalkStart(invoke, st, start, id);
      r := Ok(None);
      while more
        invariant Walk(invoke, s0, st, js, id, pos, cur, more, r) && old(getters) <= getters && Valid()
        decreases |js| - pos, more
      {
        ghost var s1 := st;
        r := GetObjByKeyId(cur, id);
        WalkAdvance(invoke, s0, s1, st, js, id, pos, cur, r);
        var parent := st.injectors[cur].parent;
        if r.Err? || r.value.Some? || parent.None? {
          more := false;
        } else {
          cur := parent.value;
          pos := pos + 1;
        }
      }
    }

    /** `_getByKey(key, notFoundValue)` on injector `i`: the walk from `i`, then the walk from
        its fallback parent, then the not-found value or `noProviderError` naming `i`. */
    method GetByKey(i: nat, key: Key, nf: NotFound) returns (r: Result<Value, DiError>)
      requires Valid() && i < |st.injectors|
      modifies this`st, this`getters
      ensures Valid() && Extends(old(st), st) && Progress(old(st), st) && old(getters) <= getters
      ensures GetKept(invoke, old(st), st, i, key, nf, r)
      decreases Uncached(st), Budget(st), 9
    {
      ghost var s0 := st;
      var name := st.injectors[i].name;
      var fallback := st.injectors[i].fallbackParent;
      ghost var a := Chain(st.injectors, i);
      ghost var b: seq<nat> := if fallback.Some? then Chain(st.injectors, fallback.value) else [];
      ghost var miss := NotFoundResult(nf, name, key);
      assert SearchOrder(s0.injectors, i) == a + b;
      var v := WalkChain(i, key.id);
      ghost var s1 := st;
      if v.Err? || v.value.Some? {
        SearchHitFirst(invoke, s0, s1, a, b, key.id, miss, v);
        return Answer(v);
      }
      if fallback.Some? {
        v := WalkChain(fallback.value, key.id);
        ProgressTrans(s0, s1, st);
        ChainStable(s0.injectors, s1.injectors, fallback.value);
        if v.Err? || v.value.Some? {
          SearchHitSecond(invoke, s0, s1, st, a, b, key.id, miss, v);
          return Answer(v);
        }
      } else {
        ExtendsRefl(st);
      }
      SearchMiss(invoke, s0, s1, st, a, b, key.id, miss);
      r := NotFoundResult(nf, name, key);
    }

    // -------------------------------------------------------------------------------------------
    // The public entry points: `get`, `instantiateAll`, the execution-context getters, the
    // context builder and its `destroy`

    /** `get(token, notFoundValue)` on injector `i`: the registry's key for the token, then
        `_getByKey`. A falsy token throws in the registry before any injector is asked. */
    method Get(reg: GlobalKeyRegistry, i: nat, token: Token, nf: NotFound) returns (r: Result<Value, DiError>)
      requires Valid() && reg.Valid() && i < |st.injectors|
      modifies reg, this`st, this`getters
      ensures Valid() && reg.Valid() && Extends(old(st), st) && old(getters) <= getters
      ensures reg.table == Lookup(old(reg.table), token).1
      ensures Lookup(old(reg.table), token).0.Err? ==> r == Err(TokenUndefined) && st == old(st)
      ensures Lookup(old(reg.table), token).0.Ok? ==>
        var key := Lookup(old(reg.table), token).0.value;
        && InRange(old(st), SearchOrder(old(st).injectors, i))
        && GetOutcome(invoke, old(st), st, SearchOrder(old(st).injectors, i), key.id, NotFoundResult(nf, old(st.injectors[i].name), key), r)
    {
      LookupKeepsDense(reg.table, token);
      var key := reg.Get(token);
      if key.Err? {
        ExtendsRefl(st);
        return Err(key.error);
      }
      r := GetByKey(i, key.value, nf);
    }

    /** `instantiateAll()` on injector `i`: `_getByKey` for each of its providers in order, the
        first error thrown ending the run. After a run without error, every provider the injector
        keeps in a slot of its own (rather than handing to a module through its global map) has
        been constructed. */
    method InstantiateAll(i: nat) returns (thrown: Option<DiError>)
      requires Valid() && i < |st.injectors|
      modifies this`st, this`getters
      ensures Valid() && Extends(old(st), st) && old(getters) <= getters
      ensures thrown.None? ==> AllBuilt(st, i)
    {
      ghost var s0 := st;
      var ps := st.injectors[i].providers;
      var k := 0;
      ExtendsRefl(st);
      while k < |ps|
        invariant 0 <= k <= |ps| && Valid() && Extends(s0, st) && old(getters) <= getters
        invariant ps == st.injectors[i].providers && BuiltBelow(st, i, k)
      {
        ghost var s1 := st;
        var v := GetByKey(i, ps[k].key, ThrowIfNotFound);
        ExtendsTrans(s0, s1, st);
        if v.Err? {
          return Some(v.error);
        }
        BuiltOneMore(invoke, s1, st, i, k, NotFoundResult(ThrowIfNotFound, s1.injectors[i].name, ps[k].key), v);
        k := k + 1;
      }
      thrown := None;
    }

    /** A read of a context-bound member of an instance made by injector `i`: the injector's
        `_executionContextGetter`. Outside any operation it throws; otherwise it asks the picker
        the last built context installed for the application context or for one module's
        context, which creates that module's operation injector on first use. */
    method ReadExecutionContext(i: nat) returns (r: Result<Value, DiError>)
      requires Valid() && i < |st.injectors|
      modifies this`st, this`getters
      ensures Valid() && Extends(old(st), st) && old(getters) <= getters
      ensures old(getters[i]).NotInExecutionContext? ==> r == Err(DiError.NotInExecutionContext) && st == old(st)
      ensures !old(getters[i]).NotInExecutionContext? && ambient.None? ==> r == Err(NoExecutionContext) && st == old(st)
      ensures old(getters[i]).ApplicationContextGetter? && ambient.Some? ==>
        r == Ok(OperationContext(st.operations[ambient.value].appInjector)) && st == old(st)
      ensures old(getters[i]).ModuleContextGetter? && ambient.Some? ==>
        var o := ambient.value;
        var m := old(getters[i]).moduleId;
        && (m in old(st.operations[o].cache) ==> r == Ok(ModuleContext(old(st.operations[o].cache[m]), m)) && st == old(st))
        && (m !in old(st.operations[o].cache) && m !in st.modules ==> r == Err(UnknownModule(m)) && st == old(st))
        && (m !in old(st.operations[o].cache) && m in st.modules ==>
              r == Ok(ModuleContext(old(|st.injectors|), m)) && st.operations[o].cache == old(st.operations[o].cache)[m := old(|st.injectors|)])
        && (r.Ok? ==> m in st.operations[o].cache && r == Ok(ModuleContext(st.operations[o].cache[m], m)))
    {
      ExtendsRefl(st);
      match getters[i]
      case NotInExecutionContext =>
        r := Err(DiError.NotInExecutionContext);
      case ApplicationContextGetter =>
        if ambient.None? {
          r := Err(NoExecutionContext);
        } else {
          r := Ok(OperationContext(st.operations[ambient.value].appInjector));
        }
      case ModuleContextGetter(m) =>
        if ambient.None? {
          r := Err(NoExecutionContext);
        } else {
          r := GetModuleContext(ambient.value, m);
        }
    }

    /** The `destroy` of operation `o`'s context, wrapped in `once`: the first call makes one
        `onDestroy` call per registered pair whose slot `_isObjectDefinedByKeyId` reports
        constructed, on the object `_getObjByKeyId` then reads from that slot (constructing
        nothing), and empties the context cache; every later call does nothing. */
    method Destroy(o: nat)
      requires Valid() && o < |st.operations|
      modifies this`st, this`getters, this`hookCalls
      ensures Valid() && old(getters) <= getters
      ensures old(st.operations[o].destroyed) ==> st == old(st) && hookCalls == old(hookCalls)
      ensures !old(st.operations[o].destroyed) ==>
        && old(OperationOk(st, o))
        && hookCalls == old(hookCalls) + Hooks(old(st), old(st.operations[o].toDestroy))
        && st == Destroyed(old(st), o)
    {
      if st.operations[o].destroyed {
        return;
      }
      var es := st.operations[o].toDestroy;
      assert OperationOk(st, o);
      CallHooks(es);
      st := Destroyed(st, o);
    }

    /** The loop over the teardown list: each constructed instance's `onDestroy` in order. */
    method CallHooks(es: seq<TeardownEntry>)
      requires Valid() && forall e | e in es :: e.injector < |st.injectors|
      modifies this`st, this`getters, this`hookCalls
      ensures Valid() && st == old(st) && old(getters) <= getters
      ensures hookCalls == old(hookCalls) + Hooks(old(st), es)
    {
      ghost var s0, calls0 := st, hookCalls;
      var k := 0;
      while k < |es|
        invariant 0 <= k <= |es| && Valid() && st == s0 && old(getters) <= getters
        invariant hookCalls == calls0 + Hooks(s0, es[..k])
      {
        HooksPrefix(s0, es, k);
        CallHook(es[k]);
        k := k + 1;
      }
      assert es[..k] == es;
    }

    /** One pair of the teardown loop: when `_isObjectDefinedByKeyId` reports the slot
        constructed, `onDestroy` is called on the object `_getObjByKeyId` reads from that slot. */
    method CallHook(e: TeardownEntry)
      requires Valid() && e.injector < |st.injectors|
      modifies this`st, this`getters, this`hookCalls
      ensures Valid() && st == old(st) && old(getters) <= getters
      ensures hookCalls == old(hookCalls) + Hooks(old(st), [e])
    {
      assert [e][..0] == [];
      var constructed := IsObjectDefinedByKeyId(e.injector, e.keyId);
      if constructed {
        FilledIsLocal(st, e.injector, e.keyId);
        var obj := GetObjByKeyId(e.injector, e.keyId);
        hookCalls := hookCalls + [HookCall(e.injector, e.keyId, obj.value.value)];
      }
    }

    /** `contextBuilder(context)`: re-attaches the singleton global map to the application
        injector, points the application injector's getter at the application context and each
        module's singleton injector's getter at that module's context, installs this operation's
        context picker, creates the operation injector `App (Operation Scope)` (the
        application's operation-scoped providers and a `CONTEXT` value provider, with the
        application injector as parent), registers its teardown pairs and attaches the operation
        global map, which hands keys to module operation injectors of this operation. */
    method BuildContext(context: Value) returns (o: nat)
      requires Ready()
      modifies this`st, this`getters, this`ambient
      ensures Ready() && o == old(|st.operations|) && ambient == Some(o)
      ensures var ps := wiring.appOperationProviders + [ValueProvider(contextKey, context)];
        && ConfigFits(old(st), InjectorConfig("App (Operation Scope)", ps, Resolution.Ids(ps), Some(wiring.appInjector), None))
        && st == OpenOperation(old(st), InjectorConfig("App (Operation Scope)", ps, Resolution.Ids(ps), Some(wiring.appInjector), None), wiring.operationGlobals)
      ensures |getters| == old(|getters|) + 1 && getters[|getters| - 1] == ContextGetter.NotInExecutionContext
      ensures GettersInstalled(old(getters), getters[..old(|getters|)], old(st.modules), wiring)
    {
      InstallGetters();
      o := OpenOperationInjector(context);
    }

    /** The builder's first steps: the singleton global map attached again to the application
        injector (it already has that map, so nothing changes), the application injector's getter
        pointed at the application context, and each module's at its own context. */
    method InstallGetters()
      requires Ready()
      modifies this`st, this`getters
      ensures Ready() && st == old(st) && GettersInstalled(old(getters), getters, st.modules, wiring)
    {
      var app := wiring.appInjector;
      ReattachSame(st, app);
      AttachGlobalProvidersMap(app, wiring.singletonGlobals, ModuleSingletonInjector);
      SetExecutionContextGetter(app, ApplicationContextGetter);
      ModuleGetters();
    }

    /** The builder's remaining steps: this operation's picker installed, the operation injector
        created, its teardown pairs registered, the operation global map attached. */
    method OpenOperationInjector(context: Value) returns (o: nat)
      requires Ready()
      modifies this`st, this`getters, this`ambient
      ensures Ready() && o == old(|st.operations|) && ambient == Some(o)
      ensures var ps := wiring.appOperationProviders + [ValueProvider(contextKey, context)];
        && ConfigFits(old(st), InjectorConfig("App (Operation Scope)", ps, Resolution.Ids(ps), Some(wiring.appInjector), None))
        && st == OpenOperation(old(st), InjectorConfig("App (Operation Scope)", ps, Resolution.Ids(ps), Some(wiring.appInjector), None), wiring.operationGlobals)
      ensures getters == old(getters) + [ContextGetter.NotInExecutionContext]
    {
      ghost var s0 := st;
      var app := wiring.appInjector;
      var ps := wiring.appOperationProviders + [ValueProvider(contextKey, context)];
      ghost var c := InjectorConfig("App (Operation Scope)", ps, Resolution.Ids(ps), Some(app), None);
      var j := NewInjector("App (Operation Scope)", ps, Some(app), None);
      o := |st.operations|;
      st := AddOperation(st, j);
      ambient := Some(o);
      RegisterProvidersToDestroy(o, j);
      assert st == Staged(s0, c);
      OpenFits(s0, c, wiring.operationGlobals);
      AttachGlobalProvidersMap(j, wiring.operationGlobals, ModuleOperationInjector(o));
      OpenSteps(s0, c, wiring.operationGlobals);
      WiredKept(s0, st, wiring);
    }

    /** The loop of `modulesMap.forEach` that points each module's singleton injector's getter at
        that module's context, in the order the modules map was filled. */
    method ModuleGetters()
      requires Ready()
      modifies this`getters
      ensures Ready() && ModulesPointed(old(getters), getters, st.modules, wiring.moduleOrder)
    {
      var order := wiring.moduleOrder;
      var q := 0;
      while q < |order|
        invariant 0 <= q <= |order| && Ready() && ModulesPointed(old(getters), getters, st.modules, order[..q])
      {
        var m := order[q];
        assert order[..q + 1] == order[..q] + [m];
        ModulesPointedStep(old(getters), getters, st.modules, order[..q], m);
        SetExecutionContextGetter(st.modules[m].injector, ModuleContextGetter(m));
        q := q + 1;
      }
      assert order[..q] == order;
    }
  }
}

=== FILE: runtime_state.dfy ===
/** The state of a running application's injectors and operations as plain values: the
    invariants the engine keeps, how lookups are ordered, and the measures that bound its
    recursion. */
module RuntimeState {
  import opened Wrappers
  import opened Tokens
  import opened Errors
  import opened Providers
  import opened Resolution

  /** One entry of `_objs`: the `UNDEFINED` marker until the provider is constructed. */
  datatype Slot = Empty | Filled(obj: Value)

  /** Whose injector an attached global map hands a key to: the owning module's singleton
      injector, or that module's injector for one operation (created on first use). */
  datatype GlobalTarget = ModuleSingletonInjector | ModuleOperationInjector(op: nat)

  /** `_globalProvidersMap`: none attached (the constructor's empty `Map`), or key id to module id
      together with the getter of the owning module's injector. */
  datatype GlobalLink = NoGlobals | Attached(ids: map<nat, string>, target: GlobalTarget)

  /** `_executionContextGetter`: the default that throws, the current operation's application
      context, or one module's context in the current operation. */
  datatype ContextGetter = NotInExecutionContext | ApplicationContextGetter | ModuleContextGetter(moduleId: string)

  /** The fields of a `ReflectiveInjector` that never change after construction. */
  datatype InjectorConfig = InjectorConfig(
    name: string,
    providers: seq<ResolvedProvider>,
    keyIds: seq<nat>,
    parent: Option<nat>,
    fallbackParent: Option<nat>)

  /** One `[injector, keyId]` pair of `providersToDestroy`. */
  datatype TeardownEntry = TeardownEntry(injector: nat, keyId: nat)

  /** What one built context holds: its operation injector, `contextCache` (module id to the
      module's operation injector), `providersToDestroy`, and the `called` flag of `once`. */
  datatype Operation = Operation(appInjector: nat, cache: map<string, nat>, toDestroy: seq<TeardownEntry>, destroyed: bool)

  /** One `onDestroy()` call made by teardown. */
  datatype HookCall = HookCall(injector: nat, keyId: nat, instance: Value)

  /** What the context builder reads of a module: its singleton injector and its resolved
      operation-scoped providers. */
  datatype ModuleEntry = ModuleEntry(injector: nat, operationProviders: seq<ResolvedProvider>)

  /** All injectors of an application, by index, with their mutable parts; the operations built
      so far; the modules map. */
  datatype AppState = AppState(
    injectors: seq<InjectorConfig>,
    objs: seq<seq<Slot>>,
    counters: seq<nat>,
    globals: seq<GlobalLink>,
    operations: seq<Operation>,
    modules: map<string, ModuleEntry>)

  /** The index of the first occurrence of `id` (the `_keyIds` scans stop there). */
  function FirstIndex(ids: seq<nat>, id: nat): (r: Option<nat>)
    ensures r.Some? ==> r.value < |ids| && ids[r.value] == id && forall q | 0 <= q < r.value :: ids[q] != id
    ensures r.None? <==> id !in ids
  {
    if ids == [] then None
    else if ids[0] == id then Some(0)
    else match FirstIndex(ids[1..], id)
      case Some(q) => Some(q + 1)
      case None => None
  }

  // ---------------------------------------------------------------------------------------------
  // Invariants

  ghost predicate Shaped(s: AppState) {
    |s.objs| == |s.injectors| && |s.counters| == |s.injectors| && |s.globals| == |s.injectors|
  }

  /** Whether injector `i` has a global map that records `id`. */
  ghost predicate IsGlobalAt(s: AppState, i: nat, id: nat)
    requires Shaped(s) && i < |s.injectors|
  {
    s.globals[i].Attached? && id in s.globals[i].ids
  }

  ghost predicate ParentsBelow(injs: seq<InjectorConfig>) {
    forall i | 0 <= i < |injs| ::
      (injs[i].parent.Some? ==> injs[i].parent.value < i) &&
      (injs[i].fallbackParent.Some? ==> injs[i].fallbackParent.value < i)
  }

  /** One injector: parallel arrays of equal length, `_keyIds[k]` the id of provider `k`,
      parents created before it, and no constructed slot for a key its global map hands on;
      every module its global map names exists. */
  ghost predicate InjectorOk(s: AppState, i: nat)
    requires Shaped(s) && i < |s.injectors|
  {
    var c := s.injectors[i];
    && |c.keyIds| == |c.providers| && |s.objs[i]| == |c.providers|
    && (forall k | 0 <= k < |c.providers| :: c.keyIds[k] == c.providers[k].key.id)
    && (c.parent.Some? ==> c.parent.value < i)
    && (c.fallbackParent.Some? ==> c.fallbackParent.value < i)
    && match s.globals[i]
       case NoGlobals => true
       case Attached(ids, target) =>
         && (forall k | 0 <= k < |c.keyIds| && c.keyIds[k] in ids :: s.objs[i][k].Empty?)
         && (forall id | id in ids :: ids[id] in s.modules)
         && (target.ModuleOperationInjector? ==> target.op < |s.operations|)
  }

  /** One operation: its injectors exist, and module operation injectors have no global map. */
  ghost predicate OperationOk(s: AppState, o: nat)
    requires Shaped(s) && o < |s.operations|
  {
    var op := s.operations[o];
    && op.appInjector < |s.injectors|
    && (forall m | m in op.cache :: op.cache[m] < |s.injectors| && s.globals[op.cache[m]].NoGlobals?)
    && (forall e | e in op.toDestroy :: e.injector < |s.injectors|)
  }

  ghost predicate Valid(s: AppState) {
    && Shaped(s)
    && ParentsBelow(s.injectors)
    && (forall i | 0 <= i < |s.injectors| :: InjectorOk(s, i))
    && (forall m | m in s.modules :: s.modules[m].injector < |s.injectors| && s.globals[s.modules[m].injector].NoGlobals?)
    && (forall o | 0 <= o < |s.operations| :: OperationOk(s, o))
  }

  /** The row keeps its length and a filled slot stays filled (it is never reset to `UNDEFINED`). */
  ghost predicate SlotsKept(a: seq<Slot>, b: seq<Slot>) {
    |a| == |b| && forall k | 0 <= k < |a| && a[k].Filled? :: b[k].Filled?
  }

  /** An operation keeps its injector and every module context it has cached. */
  ghost predicate OperationKept(x: Operation, y: Operation) {
    y.appInjector == x.appInjector && forall m | m in x.cache :: m in y.cache && y.cache[m] == x.cache[m]
  }

  /** What resolution may do to the state: append injectors and operations, fill slots, raise
      construction counters and extend module-context caches. Nothing existing is removed,
      renamed or re-pointed, and no filled slot is emptied. */
  ghost predicate Extends(s: AppState, t: AppState) {
    && Shaped(s) && Shaped(t)
    && s.modules == t.modules
    && s.injectors <= t.injectors
    && s.globals <= t.globals
    && (forall i | 0 <= i < |s.objs| :: SlotsKept(s.objs[i], t.objs[i]))
    && (forall i | 0 <= i < |s.counters| :: s.counters[i] <= t.counters[i])
    && |s.operations| <= |t.operations|
    && (forall o | 0 <= o < |s.operations| :: OperationKept(s.operations[o], t.operations[o]))
  }

  lemma ExtendsRefl(s: AppState)
    requires Shaped(s)
    ensures Extends(s, s)
  {
  }

  lemma ExtendsTrans(s: AppState, t: AppState, u: AppState)
    requires Extends(s, t) && Extends(t, u)
    ensures Extends(s, u)
  {
    forall i | 0 <= i < |s.objs| ensures SlotsKept(s.objs[i], u.objs[i]) {
      assert SlotsKept(t.objs[i], u.objs[i]);
    }
    forall o | 0 <= o < |s.operations| ensures OperationKept(s.operations[o], u.operations[o]) {
      assert OperationKept(t.operations[o], u.operations[o]);
    }
  }

  // ---------------------------------------------------------------------------------------------
  // Transitions

  /** A configuration that fits state `s`: `_keyIds` parallel to the providers, parents existing. */
  ghost predicate ConfigFits(s: AppState, c: InjectorConfig) {
    && |c.keyIds| == |c.providers| && (forall k | 0 <= k < |c.providers| :: c.keyIds[k] == c.providers[k].key.id)
    && (c.parent.Some? ==> c.parent.value < |s.injectors|)
    && (c.fallbackParent.Some? ==> c.fallbackParent.value < |s.injectors|)
  }

  /** A new injector at the end of the arena: every slot `UNDEFINED`, counter zero, no global map. */
  function AddInjector(s: AppState, c: InjectorConfig): (t: AppState)
    requires Valid(s) && ConfigFits(s, c)
    ensures Valid(t) && Extends(s, t) && Uncached(t) == Uncached(s)
  {
    var t := s.(injectors := s.injectors + [c], objs := s.objs + [seq(|c.providers|, _ => Empty)],
                counters := s.counters + [0], globals := s.globals + [NoGlobals]);
    assert forall x | 0 <= x < |t.injectors| :: InjectorOk(t, x) by {
      forall x | 0 <= x < |t.injectors| ensures InjectorOk(t, x) {
        if x < |s.injectors| {
          assert InjectorOk(s, x);
        }
      }
    }
    assert forall x | 0 <= x < |t.operations| :: OperationOk(t, x) by {
      forall x | 0 <= x < |t.operations| ensures OperationOk(t, x) {
        assert OperationOk(s, x);
      }
    }
    assert forall i | 0 <= i < |s.objs| :: SlotsKept(s.objs[i], t.objs[i]);
    t
  }

  /** What `AddInjector` changes, field by field. */
  lemma AddInjectorFields(s: AppState, c: InjectorConfig)
    requires Valid(s) && ConfigFits(s, c)
    ensures AddInjector(s, c) == s.(injectors := s.injectors + [c], objs := s.objs + [seq(|c.providers|, _ => Empty)],
                                    counters := s.counters + [0], globals := s.globals + [NoGlobals])
  {
  }

  /** An operation whose injectors exist in `s`. */
  ghost predicate OperationFits(s: AppState, op: Operation)
    requires Shaped(s)
  {
    && op.appInjector < |s.injectors|
    && (forall m | m in op.cache :: op.cache[m] < |s.injectors| && s.globals[op.cache[m]].NoGlobals?)
    && (forall e | e in op.toDestroy :: e.injector < |s.injectors|)
  }

  /** Operation `o` replaced by `op`: its teardown list or its module-context cache updated. */
  function WithOperation(s: AppState, o: nat, op: Operation): (t: AppState)
    requires Valid(s) && o < |s.operations| && OperationFits(s, op)
    ensures Valid(t)
    ensures OperationKept(s.operations[o], op) ==> Extends(s, t)
  {
    var t := s.(operations := s.operations[o := op]);
    assert forall x | 0 <= x < |t.injectors| :: InjectorOk(t, x) by {
      forall x | 0 <= x < |t.injectors| ensures InjectorOk(t, x) {
        assert InjectorOk(s, x);
      }
    }
    assert forall x | 0 <= x < |t.operations| :: OperationOk(t, x) by {
      forall x | 0 <= x < |t.operations| ensures OperationOk(t, x) {
        if x != o {
          assert OperationOk(s, x);
        }
      }
    }
    assert OperationKept(s.operations[o], op) ==> Extends(s, t) by {
      if OperationKept(s.operations[o], op) {
        assert forall i | 0 <= i < |s.objs| :: SlotsKept(s.objs[i], t.objs[i]);
        forall x | 0 <= x < |s.operations| ensures OperationKept(s.operations[x], t.operations[x]) {
        }
      }
    }
    t
  }

  /** Operation `o` with teardown pairs appended to its `providersToDestroy`. */
  function WithTeardown(s: AppState, o: nat, es: seq<TeardownEntry>): (t: AppState)
    requires Valid(s) && o < |s.operations| && forall e | e in es :: e.injector < |s.injectors|
    ensures Valid(t) && Extends(s, t) && Uncached(t) == Uncached(s)
    ensures t == s.(operations := s.operations[o := s.operations[o].(toDestroy := s.operations[o].toDestroy + es)])
  {
    var op := s.operations[o];
    assert OperationOk(s, o);
    UncachedSame(s.modules.Keys, s.operations, o, op.(toDestroy := op.toDestroy + es));
    WithOperation(s, o, op.(toDestroy := op.toDestroy + es))
  }

  /** Operation `o` with module `m`'s context cached as injector `j`: one context fewer left to
      create. */
  function WithContext(s: AppState, o: nat, m: string, j: nat): (t: AppState)
    requires Valid(s) && o < |s.operations| && j < |s.injectors| && s.globals[j].NoGlobals?
    requires m in s.modules && m !in s.operations[o].cache
    ensures Valid(t) && Extends(s, t) && Uncached(t) + 1 == Uncached(s)
    ensures t == s.(operations := s.operations[o := s.operations[o].(cache := s.operations[o].cache[m := j])])
  {
    var op := s.operations[o];
    var op' := op.(cache := op.cache[m := j]);
    assert OperationOk(s, o);
    assert op'.cache.Keys == op.cache.Keys + {m};
    UncachedAdd(s.modules.Keys, s.operations, o, op', m);
    WithOperation(s, o, op')
  }

  /** `s` to `t` by creating module `m`'s context in operation `o`, the new module operation
      injector configured as `c`: that injector appended with every slot `UNDEFINED`, a zero
      counter and no global map, its teardown pairs registered in `o` and the context cached
      there; the existing injectors' slots and counters, the other operations and the modules
      map are untouched. */
  ghost predicate ContextCreated(s: AppState, t: AppState, o: nat, m: string, c: InjectorConfig)
    requires o < |s.operations|
  {
    var j := |s.injectors|;
    var op := s.operations[o];
    && t.injectors == s.injectors + [c]
    && t.objs == s.objs + [seq(|c.providers|, _ => Empty)]
    && t.counters == s.counters + [0]
    && t.globals == s.globals + [NoGlobals]
    && t.operations == s.operations[o := op.(cache := op.cache[m := j], toDestroy := op.toDestroy + TeardownOf(j, c.providers))]
    && t.modules == s.modules
  }

  /** `ContextCreated` from its three steps: the injector added, its teardown pairs
      registered, the context cached. */
  lemma ContextCreatedBySteps(s: AppState, u: AppState, w: AppState, t: AppState, o: nat, m: string, c: InjectorConfig)
    requires o < |s.operations|
    requires u == s.(injectors := s.injectors + [c], objs := s.objs + [seq(|c.providers|, _ => Empty)],
                     counters := s.counters + [0], globals := s.globals + [NoGlobals])
    requires w == u.(operations := u.operations[o := u.operations[o].(toDestroy := u.operations[o].toDestroy + TeardownOf(|s.injectors|, c.providers))])
    requires t == w.(operations := w.operations[o := w.operations[o].(cache := w.operations[o].cache[m := |s.injectors|])])
    ensures ContextCreated(s, t, o, m, c)
  {
  }

  /** Slot `k` of injector `i` set to `v` (`this._objs[i] = this._new(...)`); the slot is not
      one the injector's global map covers. */
  function Fill(s: AppState, i: nat, k: nat, v: Value): (t: AppState)
    requires Valid(s) && i < |s.injectors| && k < |s.objs[i]|
    requires s.globals[i].Attached? ==> k < |s.injectors[i].keyIds| && s.injectors[i].keyIds[k] !in s.globals[i].ids
    ensures Valid(t) && Extends(s, t) && Uncached(t) == Uncached(s) && Budget(t) == Budget(s)
  {
    var t := s.(objs := s.objs[i := s.objs[i][k := Filled(v)]]);
    assert forall x | 0 <= x < |t.injectors| :: InjectorOk(t, x) by {
      forall x | 0 <= x < |t.injectors| ensures InjectorOk(t, x) {
        assert InjectorOk(s, x);
      }
    }
    assert forall x | 0 <= x < |t.operations| :: OperationOk(t, x) by {
      forall x | 0 <= x < |t.operations| ensures OperationOk(t, x) {
        assert OperationOk(s, x);
      }
    }
    BudgetRow(s.objs, s.counters, i, s.objs[i][k := Filled(v)]);
    t
  }

  /** Injector `i`'s construction counter raised by one (`this._constructionCounter++`): the
      budget drops by one while the counter had not passed the slot count, and stays at zero
      slack after. */
  function Bump(s: AppState, i: nat): (t: AppState)
    requires Valid(s) && i < |s.injectors|
    ensures Valid(t) && Extends(s, t) && Uncached(t) == Uncached(s)
    ensures s.counters[i] <= |s.objs[i]| ==> Budget(t) + 1 == Budget(s)
    ensures s.counters[i] > |s.objs[i]| ==> Budget(t) == Budget(s)
  {
    var t := s.(counters := s.counters[i := s.counters[i] + 1]);
    CountersOnly(s, t);
    BudgetCounter(s.objs, s.counters, i, s.counters[i] + 1);
    assert Budget(t) == BudgetOf(s.objs, s.counters[i := s.counters[i] + 1]);
    t
  }

  /** Raising construction counters keeps the state valid and extends it. */
  lemma CountersOnly(s: AppState, t: AppState)
    requires Valid(s) && t == s.(counters := t.counters) && |t.counters| == |s.counters|
    requires forall x | 0 <= x < |s.counters| :: s.counters[x] <= t.counters[x]
    ensures Valid(t) && Extends(s, t) && Uncached(t) == Uncached(s)
  {
    forall x | 0 <= x < |t.injectors| ensures InjectorOk(t, x) {
      assert InjectorOk(s, x);
    }
    forall x | 0 <= x < |t.operations| ensures OperationOk(t, x) {
      assert OperationOk(s, x);
    }
  }

  /** Whether a global map may be attached to injector `i`: none of the slots it covers is
      constructed, the modules it names exist, its target operation exists, and `i` is neither a
      module's injector nor a cached module operation injector. */
  ghost predicate AttachFits(s: AppState, i: nat, ids: map<nat, string>, target: GlobalTarget)
    requires Shaped(s) && i < |s.injectors|
  {
    && (forall k | 0 <= k < |s.objs[i]| && k < |s.injectors[i].keyIds| && s.injectors[i].keyIds[k] in ids :: s.objs[i][k].Empty?)
    && (forall id | id in ids :: ids[id] in s.modules)
    && (target.ModuleOperationInjector? ==> target.op < |s.operations|)
    && (forall m | m in s.modules :: s.modules[m].injector != i)
    && (forall o, m | 0 <= o < |s.operations| && m in s.operations[o].cache :: s.operations[o].cache[m] != i)
  }

  /** Injector `i` with a global map attached. */
  function Attach(s: AppState, i: nat, ids: map<nat, string>, target: GlobalTarget): (t: AppState)
    requires Valid(s) && i < |s.injectors| && AttachFits(s, i, ids, target)
    ensures Valid(t)
  {
    var t := s.(globals := s.globals[i := Attached(ids, target)]);
    assert forall x | 0 <= x < |t.injectors| :: InjectorOk(t, x) by {
      forall x | 0 <= x < |t.injectors| ensures InjectorOk(t, x) {
        assert InjectorOk(s, x);
      }
    }
    assert forall x | 0 <= x < |t.operations| :: OperationOk(t, x) by {
      forall x | 0 <= x < |t.operations| ensures OperationOk(t, x) {
        assert OperationOk(s, x);
      }
    }
    t
  }

  // ---------------------------------------------------------------------------------------------
  // Measures

  /** Constructions injector with `cap` slots may still start before its guard throws. */
  function Slack(cap: nat, counter: nat): nat {
    if counter <= cap then cap + 1 - counter else 0
  }

  ghost function BudgetOf(objs: seq<seq<Slot>>, counters: seq<nat>): nat
    requires |objs| == |counters|
  {
    if objs == [] then 0 else Slack(|objs[0]|, counters[0]) + BudgetOf(objs[1..], counters[1..])
  }

  /** The constructions all injectors together may still start. */
  ghost function Budget(s: AppState): nat
    requires Shaped(s)
  {
    BudgetOf(s.objs, s.counters)
  }

  ghost function UncachedOf(modules: set<string>, ops: seq<Operation>): nat {
    if ops == [] then 0 else |modules - ops[0].cache.Keys| + UncachedOf(modules, ops[1..])
  }

  /** The module contexts the built operations may still create. */
  ghost function Uncached(s: AppState): nat {
    UncachedOf(s.modules.Keys, s.operations)
  }

  /** The measure never grows: fewer module contexts left to create, or as many and no more
      constructions left. */
  ghost predicate Progress(s: AppState, t: AppState)
    requires Shaped(s) && Shaped(t)
  {
    Uncached(t) < Uncached(s) || (Uncached(t) == Uncached(s) && Budget(t) <= Budget(s))
  }

  /** The measure has strictly dropped. */
  ghost predicate Below(s: AppState, t: AppState)
    requires Shaped(s) && Shaped(t)
  {
    Uncached(t) < Uncached(s) || (Uncached(t) == Uncached(s) && Budget(t) < Budget(s))
  }

  lemma ProgressTrans(s: AppState, t: AppState, u: AppState)
    requires Shaped(s) && Shaped(t) && Shaped(u)
    requires Progress(s, t) && Progress(t, u)
    ensures Progress(s, u)
  {
  }

  /** Two steps that each extend the state without raising the measure make one such step. */
  lemma Chained(s: AppState, t: AppState, u: AppState)
    requires Extends(s, t) && Extends(t, u) && Progress(s, t) && Progress(t, u)
    ensures Extends(s, u) && Progress(s, u)
  {
    ExtendsTrans(s, t, u);
  }

  /** A run of steps from `s` to `t`: both valid, `t` extends `s`, the measure has not risen. */
  ghost predicate Moved(s: AppState, t: AppState) {
    Valid(s) && Valid(t) && Extends(s, t) && Progress(s, t)
  }

  lemma MovedRefl(s: AppState)
    requires Valid(s)
    ensures Moved(s, s)
  {
    ExtendsRefl(s);
  }

  lemma MovedTrans(s: AppState, t: AppState, u: AppState)
    requires Moved(s, t) && Moved(t, u)
    ensures Moved(s, u)
  {
    ExtendsTrans(s, t, u);
  }

  lemma BelowThenProgress(s: AppState, t: AppState, u: AppState)
    requires Shaped(s) && Shaped(t) && Shaped(u)
    requires Below(s, t) && Progress(t, u)
    ensures Below(s, u)
  {
  }

  /** Changing one counter changes the budget by the change in that injector's slack. */
  lemma {:induction false} BudgetCounter(objs: seq<seq<Slot>>, counters: seq<nat>, i: nat, c: nat)
    requires |objs| == |counters| && i < |objs|
    ensures BudgetOf(objs, counters[i := c]) + Slack(|objs[i]|, counters[i]) ==
            BudgetOf(objs, counters) + Slack(|objs[i]|, c)
  {
    if i > 0 {
      BudgetCounter(objs[1..], counters[1..], i - 1, c);
      assert counters[i := c][1..] == counters[1..][i - 1 := c];
    } else {
      assert counters[i := c][1..] == counters[1..];
    }
  }

  /** Filling slots leaves the budget alone: it depends only on how many slots there are. */
  lemma {:induction false} BudgetRow(objs: seq<seq<Slot>>, counters: seq<nat>, i: nat, row: seq<Slot>)
    requires |objs| == |counters| && i < |objs| && |row| == |objs[i]|
    ensures BudgetOf(objs[i := row], counters) == BudgetOf(objs, counters)
  {
    if i > 0 {
      BudgetRow(objs[1..], counters[1..], i - 1, row);
      assert objs[i := row][1..] == objs[1..][i - 1 := row];
    } else {
      assert objs[i := row][1..] == objs[1..];
    }
  }

  /** Caching one more known module in an operation leaves one context fewer to create. */
  lemma {:induction false} UncachedAdd(modules: set<string>, ops: seq<Operation>, o: nat, op: Operation, m: string)
    requires o < |ops| && m in modules && m !in ops[o].cache
    requires op.cache.Keys == ops[o].cache.Keys + {m}
    ensures UncachedOf(modules, ops[o := op]) + 1 == UncachedOf(modules, ops)
  {
    if o > 0 {
      UncachedAdd(modules, ops[1..], o - 1, op, m);
      assert ops[o := op][1..] == ops[1..][o - 1 := op];
    } else {
      assert ops[o := op][1..] == ops[1..];
      assert modules - op.cache.Keys == (modules - ops[o].cache.Keys) - {m};
    }
  }

  /** Replacing an operation by one with the same cached modules changes nothing. */
  lemma {:induction false} UncachedSame(modules: set<string>, ops: seq<Operation>, o: nat, op: Operation)
    requires o < |ops| && op.cache.Keys == ops[o].cache.Keys
    ensures UncachedOf(modules, ops[o := op]) == UncachedOf(modules, ops)
  {
    if o > 0 {
      UncachedSame(modules, ops[1..], o - 1, op);
      assert ops[o := op][1..] == ops[1..][o - 1 := op];
    } else {
      assert ops[o := op][1..] == ops[1..];
    }
  }

  /** Appending an injector with a zero counter adds its slack to the budget. */
  lemma {:induction false} BudgetAppend(objs: seq<seq<Slot>>, counters: seq<nat>, row: seq<Slot>)
    requires |objs| == |counters|
    ensures BudgetOf(objs + [row], counters + [0]) == BudgetOf(objs, counters) + |row| + 1
  {
    if objs != [] {
      BudgetAppend(objs[1..], counters[1..], row);
      assert (objs + [row])[1..] == objs[1..] + [row];
      assert (counters + [0])[1..] == counters[1..] + [0];
    }
  }

  // ---------------------------------------------------------------------------------------------
  // Lookup order

  /** An injector followed by its `_parent` chain. */
  ghost function Chain(injs: seq<InjectorConfig>, x: nat): (js: seq<nat>)
    requires ParentsBelow(injs) && x < |injs|
    ensures |js| > 0 && js[0] == x && forall q | 0 <= q < |js| :: js[q] <= x
    decreases x
  {
    [x] + match injs[x].parent
      case None => []
      case Some(p) => Chain(injs, p)
  }

  /** Appending injectors does not change an existing injector's chain. */
  lemma {:induction false} ChainStable(injs: seq<InjectorConfig>, more: seq<InjectorConfig>, x: nat)
    requires ParentsBelow(injs) && ParentsBelow(more) && injs <= more && x < |injs|
    ensures Chain(more, x) == Chain(injs, x)
    decreases x
  {
    assert more[x] == injs[x];
    if injs[x].parent.Some? {
      ChainStable(injs, more, injs[x].parent.value);
    }
  }

  /** Following `_parent` from the injector at position `pos` of a chain: the parent is the next
      position, and the chain ends exactly where an injector has no parent. */
  lemma ChainNext(injs: seq<InjectorConfig>, js: seq<nat>, pos: nat, cur: nat)
    requires ParentsBelow(injs) && cur < |injs| && pos <= |js| && js[pos..] == Chain(injs, cur)
    ensures pos < |js| && js[pos] == cur
    ensures injs[cur].parent.None? ==> pos + 1 == |js|
    ensures injs[cur].parent.Some? ==>
      var p := injs[cur].parent.value;
      p < |injs| && pos + 1 < |js| && js[pos + 1] == p && js[pos + 1..] == Chain(injs, p)
  {
    assert js[pos..][1..] == js[pos + 1..];
  }

  /** `_getByKey`'s search order: the injector's chain, then its fallback parent's chain. */
  ghost function SearchOrder(injs: seq<InjectorConfig>, i: nat): seq<nat>
    requires ParentsBelow(injs) && i < |injs|
  {
    Chain(injs, i) + match injs[i].fallbackParent
      case None => []
      case Some(f) => Chain(injs, f)
  }

  /** Injector `j` answers for `id`: through its global map, or with a slot of its own. */
  ghost predicate Knows(s: AppState, j: nat, id: nat)
    requires Valid(s) && j < |s.injectors|
  {
    IsGlobalAt(s, j, id) || id in s.injectors[j].keyIds
  }

  /** Injector `j` answers for `id` with a slot of its own. */
  ghost predicate LocalKnower(s: AppState, j: nat, id: nat)
    requires Valid(s) && j < |s.injectors|
  {
    !IsGlobalAt(s, j, id) && id in s.injectors[j].keyIds
  }

  /** The slot in which a local knower keeps `id`. */
  ghost function SlotOf(s: AppState, j: nat, id: nat): (k: nat)
    requires Valid(s) && j < |s.injectors| && id in s.injectors[j].keyIds
    ensures k < |s.injectors[j].keyIds| && s.injectors[j].keyIds[k] == id && k < |s.objs[j]|
  {
    assert InjectorOk(s, j);
    FirstIndex(s.injectors[j].keyIds, id).value
  }

  ghost predicate InRange(s: AppState, js: seq<nat>) {
    forall q | 0 <= q < |js| :: js[q] < |s.injectors|
  }

  /** The position in `js` of the first injector that answers for `id`. */
  ghost function FirstKnower(s: AppState, js: seq<nat>, id: nat): (r: Option<nat>)
    requires Valid(s) && InRange(s, js)
    ensures r.Some? ==> r.value < |js| && Knows(s, js[r.value], id) && forall q | 0 <= q < r.value :: !Knows(s, js[q], id)
    ensures r.None? ==> forall q | 0 <= q < |js| :: !Knows(s, js[q], id)
  {
    if js == [] then None
    else if Knows(s, js[0], id) then Some(0)
    else match FirstKnower(s, js[1..], id)
      case Some(q) => Some(q + 1)
      case None => None
  }

  lemma FirstKnowerSingle(s: AppState, j: nat, id: nat)
    requires Valid(s) && j < |s.injectors|
    ensures InRange(s, [j])
    ensures FirstKnower(s, [j], id) == if Knows(s, j, id) then Some(0) else None
  {
    assert [j][1..] == [];
  }

  /** The first knower of a concatenation: from the first part if it has one, otherwise from the second. */
  lemma {:induction false} FirstKnowerAppend(s: AppState, a: seq<nat>, b: seq<nat>, id: nat)
    requires Valid(s) && InRange(s, a) && InRange(s, b)
    ensures InRange(s, a + b)
    ensures FirstKnower(s, a + b, id) ==
      match FirstKnower(s, a, id)
      case Some(p) => Some(p)
      case None => match FirstKnower(s, b, id) case Some(q) => Some(|a| + q) case None => None
    decreases |a|
  {
    if a == [] {
      assert a + b == b;
    } else {
      assert (a + b)[0] == a[0];
      assert (a + b)[1..] == a[1..] + b;
      FirstKnowerAppend(s, a[1..], b, id);
    }
  }

  /** The injector that answers, in state `t`, for a key id recorded in injector `j`'s global
      map: the owning module's singleton injector, or that module's operation injector in the
      map's operation once `getModuleContext` has created it. */
  ghost function OwnerIn(t: AppState, j: nat, id: nat): (owner: Option<nat>)
    requires Valid(t) && j < |t.injectors| && IsGlobalAt(t, j, id)
    ensures owner.Some? ==> owner.value < |t.injectors| && t.globals[owner.value].NoGlobals?
  {
    assert InjectorOk(t, j);
    var m := t.globals[j].ids[id];
    match t.globals[j].target
    case ModuleSingletonInjector => Some(t.modules[m].injector)
    case ModuleOperationInjector(o) =>
      assert OperationOk(t, o);
      if m in t.operations[o].cache then Some(t.operations[o].cache[m]) else None
  }

  /** A lookup that injector `j` hands on through its global map: by `t` the owner exists; when
      the owner holds the key, an answer is the object the owner now stores for it; and `j`'s own
      slot for the key stays `UNDEFINED`. */
  ghost predicate Delegated(s: AppState, t: AppState, j: nat, id: nat, r: Result<Option<Value>, DiError>)
    requires Valid(s) && Valid(t) && Extends(s, t) && j < |s.injectors| && IsGlobalAt(s, j, id)
  {
    assert t.globals[j] == s.globals[j];
    var owner := OwnerIn(t, j, id);
    && owner.Some?
    && (id in t.injectors[owner.value].keyIds ==> (r.Ok? ==> r.value.Some? && Stored(t, owner.value, id) == r.value))
    && Stored(t, j, id) == None
  }

  /** A handed-on lookup that found nothing: by `t` the owner exists and does not hold the key. */
  ghost predicate OwnerLacks(s: AppState, t: AppState, j: nat, id: nat)
    requires Valid(s) && Valid(t) && Extends(s, t) && j < |s.injectors| && IsGlobalAt(s, j, id)
  {
    assert t.globals[j] == s.globals[j];
    var owner := OwnerIn(t, j, id);
    owner.Some? && id !in t.injectors[owner.value].keyIds
  }

  /** What one lookup step along the injectors `js` promises: when nobody in `js` answers for
      `id`, nothing changes and the answer is `UNDEFINED`; when the first that answers keeps the
      key in a slot of its own, the slot is answered as `SlotAnswered` says (a filled slot
      returned as it is, an `UNDEFINED` one built by its provider); when it hands the key on through its
      global map, the answer is as `Delegated` says. */
  ghost predicate LookupOutcome(inv: Invoke, s: AppState, t: AppState, js: seq<nat>, id: nat, r: Result<Option<Value>, DiError>)
    requires Valid(s) && Valid(t) && Extends(s, t) && InRange(s, js)
  {
    match FirstKnower(s, js, id)
    case None => r == Ok(None) && t == s
    case Some(p) =>
      if LocalKnower(s, js[p], id) then
        SlotAnswered(inv, s, t, js[p], SlotOf(s, js[p], id), r)
      else Delegated(s, t, js[p], id, r)
  }

  /** How application code runs: a class constructor or a factory function applied to its
      dependency values, giving the instance or the message it throws. */
  type Invoke = (Constructible, seq<Value>) -> Result<Value, string>

  /** The factory a resolved provider runs: the engine's own for value providers and for a
      module's `CONTEXT` (the cache entry of that module at the time it runs, `undefined` once
      the cache was cleared), application code otherwise. */
  function Make(inv: Invoke, s: AppState, c: Constructible, deps: seq<Value>): Result<Value, string>
  {
    match c
    case ReturnValue(v) => Ok(v)
    case ReturnModuleContext(o, m) =>
      Ok(if o < |s.operations| && m in s.operations[o].cache then ModuleContext(s.operations[o].cache[m], m) else Absent)
    case _ => inv(c, deps)
  }

  /** `_instantiateProvider`'s last steps for a provider whose factory produced `made`: a
      throwing factory becomes an `instantiationError`; the members listed in
      `executionContextIn` are then defined on the instance, which fails on a non-object. */
  function Instantiate(provider: ResolvedProvider, name: string, i: nat, made: Result<Value, string>): (r: Result<Value, DiError>)
    ensures r.Err? ==> r.error.Injection? && r.error.keys == [provider.key] && r.error.kind.Instantiation?
    ensures made.Err? ==> r == Err(InjectionError(Instantiation(made.error), name, provider.key))
    ensures made.Ok? && provider.factory.executionContextIn == [] ==> r == Ok(made.value)
    ensures r.Ok? && provider.factory.executionContextIn != [] ==>
      r == Ok(ContextBound(made.value, provider.factory.executionContextIn, i)) && IsObject(made.value)
  {
    if made.Err? then Err(InjectionError(Instantiation(made.error), name, provider.key))
    else if provider.factory.executionContextIn == [] then Ok(made.value)
    else if !IsObject(made.value) then Err(InjectionError(Instantiation("Object.defineProperty called on non-object"), name, provider.key))
    else Ok(ContextBound(made.value, provider.factory.executionContextIn, i))
  }

  /** `v` is what provider `k` of injector `j` builds in state `t`: its factory run on one value
      per dependency, then `_instantiateProvider`'s last steps. */
  ghost predicate Built(inv: Invoke, t: AppState, j: nat, k: nat, v: Value)
    requires j < |t.injectors| && k < |t.injectors[j].providers|
  {
    var p := t.injectors[j].providers[k];
    exists got: seq<Value> | |got| == |p.factory.dependencies| ::
      Instantiate(p, t.injectors[j].name, j, Make(inv, t, p.factory.make, got)) == Ok(v)
  }

  /** What asking injector `j` for the key it keeps in slot `k` promises, from `s` to `t`: an
      answer is the object now stored in `k`; a filled slot is returned as it is with nothing
      changed; an `UNDEFINED` slot goes through `_new` (the construction counter rises) and an
      answer is what the provider builds. */
  ghost predicate SlotAnswered(inv: Invoke, s: AppState, t: AppState, j: nat, k: nat, r: Result<Option<Value>, DiError>)
    requires Valid(s) && Valid(t) && Extends(s, t) && j < |s.injectors| && k < |s.objs[j]|
  {
    assert InjectorOk(s, j) && InjectorOk(t, j) && t.injectors[j] == s.injectors[j];
    && (r.Ok? ==> r.value.Some? && t.objs[j][k] == Filled(r.value.value))
    && (s.objs[j][k].Filled? ==> r == Ok(Some(s.objs[j][k].obj)) && t == s)
    && (s.objs[j][k].Empty? ==> t.counters[j] > s.counters[j] && (r.Ok? ==> Built(inv, t, j, k, r.value.value)))
  }

  /** What to do on a total miss: the `notFoundValue` when one was given, otherwise
      `noProviderError` naming the injector that was asked. */
  datatype NotFound = ThrowIfNotFound | Default(value: Value)

  function NotFoundResult(nf: NotFound, injectorName: string, key: Key): (r: Result<Value, DiError>)
    ensures nf.Default? <==> r.Ok?
    ensures r.Err? ==> r.error == InjectionError(NoProvider, injectorName, key)
  {
    match nf
    case Default(v) => Ok(v)
    case ThrowIfNotFound => Err(InjectionError(NoProvider, injectorName, key))
  }

  /** `_getByKey`'s promise: a total miss changes nothing and answers as `NotFoundResult`
      says; otherwise as `LookupOutcome` says for the first injector that answers. */
  ghost predicate GetOutcome(inv: Invoke, s: AppState, t: AppState, js: seq<nat>, id: nat, miss: Result<Value, DiError>, r: Result<Value, DiError>)
    requires Valid(s) && Valid(t) && Extends(s, t) && InRange(s, js)
  {
    match FirstKnower(s, js, id)
    case None => r == miss && t == s
    case Some(p) =>
      if LocalKnower(s, js[p], id) then
        SlotAnswered(inv, s, t, js[p], SlotOf(s, js[p], id), Found(r))
      else Delegated(s, t, js[p], id, Found(r))
  }

  /** An answer of `_getByKey` seen as the answer of a lookup step: never `UNDEFINED`. */
  function Found(r: Result<Value, DiError>): (f: Result<Option<Value>, DiError>)
    ensures f.Ok? <==> r.Ok?
    ensures r.Ok? ==> f.value == Some(r.value)
  {
    match r
    case Ok(v) => Ok(Some(v))
    case Err(e) => Err(e)
  }

  /** What to do when no injector provides a dependency: `null` for an optional one, otherwise
      `noProviderError`. */
  function DependencyNotFound(dep: Dependency): (nf: NotFound)
    ensures nf.Default? <==> dep.optional
    ensures nf.Default? ==> nf.value == Null
  {
    if dep.optional then Default(Null) else ThrowIfNotFound
  }

  /** `_getByKey(key, notFoundValue)` on injector `i`, from state `s` to state `t` with answer
      `r`: its promise along injector `i`'s search order, a total miss answering as `nf` says
      with `noProviderError` naming injector `i`. */
  ghost predicate GetKept(inv: Invoke, s: AppState, t: AppState, i: nat, key: Key, nf: NotFound, r: Result<Value, DiError>) {
    && Valid(s) && Valid(t) && Extends(s, t) && i < |s.injectors| && InRange(s, SearchOrder(s.injectors, i))
    && GetOutcome(inv, s, t, SearchOrder(s.injectors, i), key.id, NotFoundResult(nf, s.injectors[i].name, key), r)
  }

  /** One lookup of `_new`'s dependency loop, from state `s` to state `t` with answer `r`: the
      lookup starts at injector `i` and keeps `_getByKey`'s promise for the dependency's key. */
  ghost predicate DependencyStep(inv: Invoke, s: AppState, t: AppState, i: nat, dep: Dependency, r: Result<Value, DiError>) {
    GetKept(inv, s, t, i, dep.key, DependencyNotFound(dep), r)
  }

  /** The lookups of `_new`'s dependency loop so far: `trace` holds the states between them and
      `got` the values they answered, one per dependency in order. */
  ghost predicate DependencyTrace(inv: Invoke, trace: seq<AppState>, got: seq<Value>, i: nat, deps: seq<Dependency>) {
    && |trace| == |got| + 1 && |got| <= |deps|
    && forall d | 0 <= d < |got| :: DependencyStep(inv, trace[d], trace[d + 1], i, deps[d], Ok(got[d]))
  }

  /** `_new`'s dependency loop from state `s` to state `t`, as `trace` and `got` record it: either
      every dependency answered, the last lookup ending in `t`, or the lookup after the last
      answer failed with an error that became `r`, the constructed provider's `key` appended. */
  ghost predicate DependenciesLookedUp(inv: Invoke, s: AppState, t: AppState, i: nat, deps: seq<Dependency>, key: Key,
                                       trace: seq<AppState>, got: seq<Value>, r: Result<Value, DiError>) {
    && DependencyTrace(inv, trace, got, i, deps) && trace[0] == s
    && (|got| == |deps| ==> trace[|got|] == t)
    && (|got| < |deps| ==> exists e :: r == Err(AddKey(e, key)) && DependencyStep(inv, trace[|got|], t, i, deps[|got|], Err(e)))
  }

  /** A lookup that answered extends the trace by one step. */
  lemma TraceGrows(inv: Invoke, trace: seq<AppState>, got: seq<Value>, i: nat, deps: seq<Dependency>, t: AppState, v: Value)
    requires DependencyTrace(inv, trace, got, i, deps) && |got| < |deps|
    requires DependencyStep(inv, trace[|got|], t, i, deps[|got|], Ok(v))
    ensures DependencyTrace(inv, trace + [t], got + [v], i, deps)
  {
    var trace', got' := trace + [t], got + [v];
    forall d | 0 <= d < |got'| ensures DependencyStep(inv, trace'[d], trace'[d + 1], i, deps[d], Ok(got'[d])) {
      if d < |got| {
        assert trace'[d] == trace[d] && trace'[d + 1] == trace[d + 1] && got'[d] == got[d];
      }
    }
  }

  // ---------------------------------------------------------------------------------------------
  // The walk's bookkeeping (the steps themselves are proved in `Walks`)

  /** While a walk along `js` has reached position `pos`: before the walk passes the first
      knower (as of `s`), nothing has changed and nobody before `pos` answers; once it has
      passed it, that knower handed the key on to an owner that does not hold it. */
  ghost predicate Tracked(s: AppState, u: AppState, js: seq<nat>, id: nat, pos: nat)
    requires Valid(s) && Valid(u) && Extends(s, u) && InRange(s, js) && pos <= |js|
  {
    var first := FirstKnower(s, js, id);
    if first.Some? && first.value < pos then
      !LocalKnower(s, js[first.value], id) && OwnerLacks(s, u, js[first.value], id)
    else
      u == s && forall q | 0 <= q < pos :: !Knows(s, js[q], id)
  }

  /** The state of a walk along `js` started in `s`, now in `t`: while it goes on (`more`) it
      stands at position `pos` on injector `cur` with the rest of the chain ahead; once it has
      stopped, `r` is what it promises for the whole of `js`. */
  ghost predicate Walk(inv: Invoke, s: AppState, t: AppState, js: seq<nat>, id: nat, pos: nat, cur: nat, more: bool, r: Result<Option<Value>, DiError>) {
    && Valid(s) && Valid(t) && Extends(s, t) && Progress(s, t) && InRange(s, js) && pos < |js|
    && (more ==> cur < |s.injectors| && js[pos..] == Chain(s.injectors, cur) && Tracked(s, t, js, id, pos))
    && (!more ==> LookupOutcome(inv, s, t, js, id, r))
  }

  /** The answer of a walk that was not `UNDEFINED`, as `_getByKey` returns it. */
  function Answer(v: Result<Option<Value>, DiError>): Result<Value, DiError>
    requires v.Err? || v.value.Some?
  {
    match v
    case Err(e) => Err(e)
    case Ok(x) => Ok(x.value)
  }

  // ---------------------------------------------------------------------------------------------
  // Teardown

  /** `registerProvidersToDestroy(injector)`: one entry per provider with an `onDestroy` hook,
      in order. */
  function TeardownOf(j: nat, ps: seq<ResolvedProvider>): (es: seq<TeardownEntry>)
    ensures forall e | e in es :: e.injector == j && exists p | p in ps :: p.factory.hasOnDestroyHook && p.key.id == e.keyId
    ensures forall p | p in ps && p.factory.hasOnDestroyHook :: TeardownEntry(j, p.key.id) in es
  {
    if ps == [] then []
    else
      var n := |ps| - 1;
      var rest := TeardownOf(j, ps[..n]);
      assert forall p | p in ps[..n] :: p in ps;
      assert forall p | p in ps :: p in ps[..n] || p == ps[n];
      if ps[n].factory.hasOnDestroyHook then rest + [TeardownEntry(j, ps[n].key.id)] else rest
  }

  /** The teardown list of one more provider: the shorter list, then that provider's entry when
      it has an `onDestroy` hook. */
  lemma TeardownSnoc(j: nat, ps: seq<ResolvedProvider>, k: nat)
    requires k < |ps|
    ensures TeardownOf(j, ps[..k + 1]) ==
      TeardownOf(j, ps[..k]) + if ps[k].factory.hasOnDestroyHook then [TeardownEntry(j, ps[k].key.id)] else []
  {
    assert ps[..k + 1][..k] == ps[..k];
  }

  /** The object in injector `j`'s slot for `id`, if that injector exists and that slot has been
      constructed. */
  ghost function Stored(s: AppState, j: nat, id: nat): Option<Value>
    requires Valid(s)
  {
    if j < |s.injectors| && id in s.injectors[j].keyIds && s.objs[j][SlotOf(s, j, id)].Filled? then Some(s.objs[j][SlotOf(s, j, id)].obj) else None
  }

  /** The `onDestroy` calls teardown makes: one per registered pair whose slot is constructed,
      in registration order, on the object stored there. */
  ghost function Hooks(s: AppState, es: seq<TeardownEntry>): (hs: seq<HookCall>)
    requires Valid(s)
    ensures |hs| <= |es|
    ensures forall h | h in hs :: TeardownEntry(h.injector, h.keyId) in es && Stored(s, h.injector, h.keyId) == Some(h.instance)
    ensures forall e | e in es && Stored(s, e.injector, e.keyId).Some? :: HookCall(e.injector, e.keyId, Stored(s, e.injector, e.keyId).value) in hs
  {
    if es == [] then []
    else
      var n := |es| - 1;
      var e := es[n];
      assert forall x | x in es :: x in es[..n] || x == e;
      var rest := Hooks(s, es[..n]);
      match Stored(s, e.injector, e.keyId)
      case Some(v) => rest + [HookCall(e.injector, e.keyId, v)]
      case None => rest
  }

  /** The hooks of a list grow pair by pair. */
  lemma HooksSnoc(s: AppState, es: seq<TeardownEntry>, e: TeardownEntry)
    requires Valid(s)
    ensures Hooks(s, es + [e]) == Hooks(s, es) + Hooks(s, [e])
  {
    assert (es + [e])[..|es|] == es;
    assert [e][..0] == [];
  }

  /** The hooks of the first `k + 1` pairs: those of the first `k`, then the pair at `k`. */
  lemma HooksPrefix(s: AppState, es: seq<TeardownEntry>, k: nat)
    requires Valid(s) && k < |es|
    ensures Hooks(s, es[..k + 1]) == Hooks(s, es[..k]) + Hooks(s, [es[k]])
  {
    assert es[..k + 1] == es[..k] + [es[k]];
    HooksSnoc(s, es[..k], es[k]);
  }

  // ---------------------------------------------------------------------------------------------
  // Operations built and torn down

  /** A new operation at the end: its operation injector `j`, nothing cached, nothing registered
      for teardown, not destroyed. */
  function AddOperation(s: AppState, j: nat): (t: AppState)
    requires Valid(s) && j < |s.injectors|
    ensures Valid(t) && Extends(s, t)
    ensures t.operations == s.operations + [Operation.Operation(j, map[], [], false)]
  {
    var t := s.(operations := s.operations + [Operation.Operation(j, map[], [], false)]);
    assert forall x | 0 <= x < |t.injectors| :: InjectorOk(t, x) by {
      forall x | 0 <= x < |t.injectors| ensures InjectorOk(t, x) {
        assert InjectorOk(s, x);
      }
    }
    assert forall x | 0 <= x < |t.operations| :: OperationOk(t, x) by {
      forall x | 0 <= x < |t.operations| ensures OperationOk(t, x) {
        if x < |s.operations| {
          assert OperationOk(s, x);
        }
      }
    }
    assert forall i | 0 <= i < |s.objs| :: SlotsKept(s.objs[i], t.objs[i]);
    t
  }

  /** Operation `o` after its teardown ran: the context cache emptied and the `once` flag set;
      the teardown list stays. */
  function Destroyed(s: AppState, o: nat): (t: AppState)
    requires Valid(s) && o < |s.operations|
    ensures Valid(t) && t.injectors == s.injectors && t.objs == s.objs && t.globals == s.globals
    ensures |t.operations| == |s.operations| && t.operations[o].destroyed && t.operations[o].cache == map[]
    ensures forall x | 0 <= x < |s.operations| && x != o :: t.operations[x] == s.operations[x]
  {
    assert OperationOk(s, o);
    WithOperation(s, o, s.operations[o].(cache := map[], destroyed := true))
  }

  /** Growing the state keeps whether injector `i` holds `id` in a slot of its own, and a
      constructed slot stays constructed. */
  lemma StoredKept(s: AppState, t: AppState, i: nat, id: nat)
    requires Valid(s) && Valid(t) && Extends(s, t) && i < |s.injectors|
    ensures LocalKnower(s, i, id) == LocalKnower(t, i, id)
    ensures Stored(s, i, id).Some? ==> Stored(t, i, id).Some?
  {
    assert s.injectors[i] == t.injectors[i] && s.globals[i] == t.globals[i];
    if id in s.injectors[i].keyIds {
      assert SlotOf(s, i, id) == SlotOf(t, i, id);
      assert SlotsKept(s.objs[i], t.objs[i]);
    }
  }

  /** A lookup that starts at `i`, where `i` holds the key in a slot of its own, succeeds only by
      constructing or reading that slot: the answer is what the slot now stores. */
  lemma FoundLocally(inv: Invoke, s: AppState, t: AppState, i: nat, id: nat, miss: Result<Value, DiError>, r: Result<Value, DiError>)
    requires Valid(s) && Valid(t) && Extends(s, t) && i < |s.injectors|
    requires InRange(s, SearchOrder(s.injectors, i))
    requires GetOutcome(inv, s, t, SearchOrder(s.injectors, i), id, miss, r)
    requires r.Ok? && LocalKnower(s, i, id)
    ensures Stored(t, i, id) == Some(r.value)
  {
    var js := SearchOrder(s.injectors, i);
    assert js[0] == i;
    assert FirstKnower(s, js, id) == Some(0);
    assert s.injectors[i] == t.injectors[i];
    assert SlotOf(s, i, id) == SlotOf(t, i, id);
  }

  /** A constructed slot is never one the injector's global map covers, so the injector alone
      answers for its key. */
  lemma FilledIsLocal(s: AppState, i: nat, id: nat)
    requires Valid(s) && i < |s.injectors| && Stored(s, i, id).Some?
    ensures LocalKnower(s, i, id) && InRange(s, [i]) && FirstKnower(s, [i], id) == Some(0)
  {
    assert InjectorOk(s, i);
    assert s.injectors[i].keyIds[SlotOf(s, i, id)] == id;
    FirstKnowerSingle(s, i, id);
  }

  /** Attaching to an injector the global map it already has changes nothing. */
  lemma ReattachSame(s: AppState, i: nat)
    requires Valid(s) && i < |s.injectors| && s.globals[i].Attached?
    requires forall m | m in s.modules :: s.modules[m].injector != i
    ensures AttachFits(s, i, s.globals[i].ids, s.globals[i].target)
    ensures Attach(s, i, s.globals[i].ids, s.globals[i].target) == s
  {
    assert InjectorOk(s, i);
    forall o, m | 0 <= o < |s.operations| && m in s.operations[o].cache
      ensures s.operations[o].cache[m] != i
    {
      assert OperationOk(s, o);
    }
    assert s.globals[i := s.globals[i]] == s.globals;
  }

  /** An operation opened up to its global map: its application injector created, its
      operation recorded, its teardown list filled. */
  ghost function Staged(s: AppState, c: InjectorConfig): (t: AppState)
    requires Valid(s) && ConfigFits(s, c)
    ensures var j := |s.injectors|;
      && t.injectors == s.injectors + [c]
      && t.objs == s.objs + [seq(|c.providers|, _ => Empty)]
      && t.counters == s.counters + [0]
      && t.globals == s.globals + [NoGlobals]
      && t.operations == s.operations + [Operation.Operation(j, map[], TeardownOf(j, c.providers), false)]
      && t.modules == s.modules
  {
    var j := |s.injectors|;
    var t1 := AddInjector(s, c);
    var t2 := AddOperation(t1, j);
    assert [] + TeardownOf(j, c.providers) == TeardownOf(j, c.providers);
    WithTeardown(t2, |s.operations|, TeardownOf(j, c.providers))
  }

  lemma StagedValid(s: AppState, c: InjectorConfig)
    requires Valid(s) && ConfigFits(s, c)
    ensures Valid(Staged(s, c))
  {
  }

  /** The new operation injector may take the global map: none of its slots is filled yet and
      no module or operation cache points at it. */
  lemma OpenFits(s: AppState, c: InjectorConfig, ids: map<nat, string>)
    requires Valid(s) && ConfigFits(s, c) && forall id | id in ids :: ids[id] in s.modules
    ensures AttachFits(Staged(s, c), |s.injectors|, ids, ModuleOperationInjector(|s.operations|))
  {
    var t3 := Staged(s, c);
    StagedValid(s, c);
    CachesBelow(s);
    assert forall x | 0 <= x < |s.operations| :: t3.operations[x] == s.operations[x];
    FreshFits(t3, |s.injectors|, ids, |s.operations|);
  }

  /** A fresh injector, above every module's and every cached one, with nothing constructed. */
  lemma FreshFits(t: AppState, j: nat, ids: map<nat, string>, o: nat)
    requires Shaped(t) && j < |t.injectors| && o < |t.operations|
    requires forall k | 0 <= k < |t.objs[j]| :: t.objs[j][k].Empty?
    requires forall id | id in ids :: ids[id] in t.modules
    requires forall m | m in t.modules :: t.modules[m].injector < j
    requires forall x, m | 0 <= x < |t.operations| && m in t.operations[x].cache :: t.operations[x].cache[m] < j
    ensures AttachFits(t, j, ids, ModuleOperationInjector(o))
  {
  }

  /** Every operation's module cache points below the number of injectors. */
  lemma CachesBelow(s: AppState)
    requires Valid(s)
    ensures forall x, m | 0 <= x < |s.operations| && m in s.operations[x].cache :: s.operations[x].cache[m] < |s.injectors|
  {
    forall x, m | 0 <= x < |s.operations| && m in s.operations[x].cache
      ensures s.operations[x].cache[m] < |s.injectors|
    {
      assert OperationOk(s, x);
    }
  }

  /** Attaching the global map to the staged operation is `OpenOperation`. */
  lemma OpenSteps(s: AppState, c: InjectorConfig, ids: map<nat, string>)
    requires Valid(s) && ConfigFits(s, c) && forall id | id in ids :: ids[id] in s.modules
    requires Valid(Staged(s, c)) && AttachFits(Staged(s, c), |s.injectors|, ids, ModuleOperationInjector(|s.operations|))
    ensures Attach(Staged(s, c), |s.injectors|, ids, ModuleOperationInjector(|s.operations|)) == OpenOperation(s, c, ids)
  {
    var t := Attach(Staged(s, c), |s.injectors|, ids, ModuleOperationInjector(|s.operations|));
    var u := OpenOperation(s, c, ids);
    assert t.globals == u.globals;
  }

  /** A new operation: its operation injector `c` at the end of the arena, the operation's record
      with that injector's teardown pairs, and the operation global map `ids` attached to the
      injector, handing keys to module operation injectors of this operation. */
  function OpenOperation(s: AppState, c: InjectorConfig, ids: map<nat, string>): (t: AppState)
    requires Valid(s) && ConfigFits(s, c) && forall id | id in ids :: ids[id] in s.modules
    ensures Valid(t) && Extends(s, t)
    ensures var j := |s.injectors|;
      && t.injectors == s.injectors + [c]
      && t.objs == s.objs + [seq(|c.providers|, _ => Empty)]
      && t.counters == s.counters + [0]
      && t.globals == s.globals + [Attached(ids, ModuleOperationInjector(|s.operations|))]
      && t.operations == s.operations + [Operation.Operation(j, map[], TeardownOf(j, c.providers), false)]
      && t.modules == s.modules
  {
    var j := |s.injectors|;
    var t := AppState(s.injectors + [c], s.objs + [seq(|c.providers|, _ => Empty)], s.counters + [0],
      s.globals + [Attached(ids, ModuleOperationInjector(|s.operations|))],
      s.operations + [Operation.Operation(j, map[], TeardownOf(j, c.providers), false)], s.modules);
    OpenedValid(s, c, ids, t);
    assert forall i | 0 <= i < |s.objs| :: t.objs[i] == s.objs[i];
    assert forall x | 0 <= x < |s.operations| :: t.operations[x] == s.operations[x];
    t
  }

  lemma OpenedValid(s: AppState, c: InjectorConfig, ids: map<nat, string>, t: AppState)
    requires Valid(s) && ConfigFits(s, c) && forall id | id in ids :: ids[id] in s.modules
    requires var j := |s.injectors|;
      t == AppState(s.injectors + [c], s.objs + [seq(|c.providers|, _ => Empty)], s.counters + [0],
        s.globals + [Attached(ids, ModuleOperationInjector(|s.operations|))],
        s.operations + [Operation.Operation(j, map[], TeardownOf(j, c.providers), false)], s.modules)
    ensures Valid(t)
  {
    var j := |s.injectors|;
    forall x | 0 <= x < |t.injectors|
      ensures InjectorOk(t, x)
    {
      if x < j {
        assert InjectorOk(s, x);
        assert t.injectors[x] == s.injectors[x] && t.objs[x] == s.objs[x] && t.globals[x] == s.globals[x];
      }
    }
    forall x | 0 <= x < |t.operations|
      ensures OperationOk(t, x)
    {
      if x < |s.operations| {
        assert OperationOk(s, x);
        assert t.operations[x] == s.operations[x];
        forall m | m in t.operations[x].cache ensures t.globals[t.operations[x].cache[m]] == s.globals[s.operations[x].cache[m]] {
        }
      }
    }
    forall m | m in t.modules ensures t.globals[t.modules[m].injector] == s.globals[s.modules[m].injector] {
    }
  }

  /** Every one of the first `k` providers that injector `i` keeps in a slot of its own has
      been constructed. */
  ghost predicate BuiltBelow(s: AppState, i: nat, k: nat)
    requires Valid(s) && i < |s.injectors|
  {
    forall q | 0 <= q < k && q < |s.injectors[i].providers| && LocalKnower(s, i, s.injectors[i].providers[q].key.id) ::
      Stored(s, i, s.injectors[i].providers[q].key.id).Some?
  }

  /** Every provider injector `i` keeps in a slot of its own has been constructed. */
  ghost predicate AllBuilt(s: AppState, i: nat)
    requires Valid(s) && i < |s.injectors|
  {
    BuiltBelow(s, i, |s.injectors[i].providers|)
  }

  /** A successful `_getByKey` on injector `i` for its provider `k` leaves the providers before
      `k` built and builds provider `k` if the injector keeps it itself. */
  lemma BuiltOneMore(inv: Invoke, s: AppState, t: AppState, i: nat, k: nat, miss: Result<Value, DiError>, r: Result<Value, DiError>)
    requires Valid(s) && Valid(t) && Extends(s, t) && i < |s.injectors| && k < |s.injectors[i].providers|
    requires InRange(s, SearchOrder(s.injectors, i))
    requires GetOutcome(inv, s, t, SearchOrder(s.injectors, i), s.injectors[i].providers[k].key.id, miss, r) && r.Ok?
    requires BuiltBelow(s, i, k)
    ensures BuiltBelow(t, i, k + 1)
  {
    var ps := s.injectors[i].providers;
    assert t.injectors[i] == s.injectors[i];
    forall q | 0 <= q < k + 1 && LocalKnower(t, i, ps[q].key.id)
      ensures Stored(t, i, ps[q].key.id).Some?
    {
      StoredKept(s, t, i, ps[q].key.id);
      if q == k {
        FoundLocally(inv, s, t, i, ps[k].key.id, miss, r);
      }
    }
  }

  lemma AllBuiltKept(s: AppState, t: AppState, i: nat)
    requires Valid(s) && Valid(t) && Extends(s, t) && i < |s.injectors| && AllBuilt(s, i)
    ensures AllBuilt(t, i)
  {
    assert t.injectors[i] == s.injectors[i];
    forall k | 0 <= k < |t.injectors[i].providers| && LocalKnower(t, i, t.injectors[i].providers[k].key.id)
      ensures Stored(t, i, t.injectors[i].providers[k].key.id).Some?
    {
      StoredKept(s, t, i, t.injectors[i].providers[k].key.id);
    }
  }

  // ---------------------------------------------------------------------------------------------
  // The context builder's wiring

  /** The singleton injectors of the modules named in `order`. */
  ghost function InjectorsOf(modules: map<string, ModuleEntry>, order: seq<string>): set<nat> {
    set m | m in order && m in modules :: modules[m].injector
  }

  /** What `createContextBuilder` closes over, fixed once the application is created. */
  datatype Wiring = Wiring(
    moduleOrder: seq<string>,
    appInjector: nat,
    appOperationProviders: seq<ResolvedProvider>,
    singletonGlobals: map<nat, string>,
    operationGlobals: map<nat, string>)

  /** The context builder's wiring fits state `s`: the application injector exists and carries
      the singleton global map, the module order lists exactly the modules, the operation global
      map names existing modules, and every module has a singleton injector of its own. */
  ghost predicate Wired(s: AppState, w: Wiring) {
    && Shaped(s)
    && w.appInjector < |s.injectors|
    && s.globals[w.appInjector] == Attached(w.singletonGlobals, ModuleSingletonInjector)
    && (forall m :: m in w.moduleOrder <==> m in s.modules)
    && (forall id | id in w.operationGlobals :: w.operationGlobals[id] in s.modules)
    && (forall m | m in s.modules :: s.modules[m].injector != w.appInjector)
    && (forall m, n | m in s.modules && n in s.modules && m != n :: s.modules[m].injector != s.modules[n].injector)
  }

  /** The getters `g` are `before` with the singleton injector of each module named in `order`
      pointed at that module's context. */
  ghost predicate ModulesPointed(before: seq<ContextGetter>, g: seq<ContextGetter>, modules: map<string, ModuleEntry>, order: seq<string>) {
    && |g| == |before|
    && (forall m | m in order && m in modules :: modules[m].injector < |g| && g[modules[m].injector] == ModuleContextGetter(m))
    && (forall x | 0 <= x < |g| && x !in InjectorsOf(modules, order) :: g[x] == before[x])
  }

  /** Pointing one more module's injector at its context, when no two modules share an injector. */
  lemma ModulesPointedStep(before: seq<ContextGetter>, g: seq<ContextGetter>, modules: map<string, ModuleEntry>, order: seq<string>, m: string)
    requires ModulesPointed(before, g, modules, order) && m in modules && modules[m].injector < |g|
    requires forall a, b | a in modules && b in modules && a != b :: modules[a].injector != modules[b].injector
    ensures ModulesPointed(before, g[modules[m].injector := ModuleContextGetter(m)], modules, order + [m])
  {
    assert InjectorsOf(modules, order + [m]) == InjectorsOf(modules, order) + {modules[m].injector};
  }

  /** The getters `g` are `before` with the application injector's getter pointed at the
      application context and each module's singleton injector's at that module's context; every
      other getter is as it was. */
  ghost predicate GettersInstalled(before: seq<ContextGetter>, g: seq<ContextGetter>, modules: map<string, ModuleEntry>, w: Wiring) {
    && |g| == |before| && w.appInjector < |g|
    && g[w.appInjector] == ApplicationContextGetter
    && (forall m | m in modules :: modules[m].injector < |g| && g[modules[m].injector] == ModuleContextGetter(m))
    && (forall x | 0 <= x < |g| && x != w.appInjector && x !in InjectorsOf(modules, w.moduleOrder) :: g[x] == before[x])
  }

  /** Growing the state keeps it wired. */
  lemma WiredKept(s: AppState, t: AppState, w: Wiring)
    requires Wired(s, w) && Extends(s, t)
    ensures Wired(t, w)
  {
    assert s.globals[w.appInjector] == t.globals[w.appInjector];
  }
}

=== FILE: tokens.dfy ===
/** Injection tokens and the keys the registry assigns to them. */
module Tokens {

  /** What a provider is registered under and what a dependency asks for. */
  datatype Token =
    | Undefined                        // `undefined` or `null`
    | Class(name: string)              // a class; two classes are equal when their names are
    | Handle(serial: nat, desc: string)  // an `InjectionToken` object; `serial` stands for its identity
    | Str(s: string)                   // a string used as a token
    | KeyOf(key: Key)                  // a `Key` object passed where a token is expected

  /** A registered token with its integer id. */
  datatype Key = Key(token: Token, id: nat)

  /** The tokens JavaScript treats as false in `if (!token)`. */
  predicate Falsy(t: Token) {
    t.Undefined? || (t.Str? && t.s == "")
  }

  /** The display name of a token in error messages (the text itself is not part of this model). */
  function Stringify(t: Token): string {
    match t
    case Undefined => "undefined"
    case Class(n) => n
    case Handle(_, d) => "InjectionToken " + d
    case Str(s) => s
    case KeyOf(_) => "[object Object]"
  }
}

=== FILE: walks.dfy ===
/** The lookup walk one step at a time: what asking a single injector promises, how a walk
    along a parent chain keeps its promise step by step, and how `_getByKey`'s two walks combine. */
module Walks {
  import opened Wrappers
  import opened Tokens
  import opened Errors
  import opened Providers
  import opened RuntimeState

  /** An injector never constructs a key its global map hands on. */
  lemma GlobalSlotEmpty(t: AppState, j: nat, id: nat)
    requires Valid(t) && j < |t.injectors| && IsGlobalAt(t, j, id)
    ensures Stored(t, j, id) == None
  {
    assert InjectorOk(t, j);
    if id in t.injectors[j].keyIds {
      assert t.injectors[j].keyIds[SlotOf(t, j, id)] == id;
    }
  }

  /** Once the owner of a handed-on key exists, it stays the owner, and its key ids never change. */
  lemma OwnerKept(s: AppState, u: AppState, t: AppState, j: nat, id: nat)
    requires Valid(s) && Valid(u) && Valid(t) && Extends(s, u) && Extends(u, t) && Extends(s, t)
    requires j < |s.injectors| && IsGlobalAt(s, j, id)
    ensures u.globals[j] == s.globals[j] && t.globals[j] == s.globals[j]
    ensures OwnerIn(u, j, id).Some? ==>
      && OwnerIn(t, j, id) == OwnerIn(u, j, id)
      && t.injectors[OwnerIn(u, j, id).value] == u.injectors[OwnerIn(u, j, id).value]
  {
    assert u.globals[j] == s.globals[j] && t.globals[j] == s.globals[j];
    assert InjectorOk(u, j);
    match u.globals[j].target
    case ModuleSingletonInjector =>
    case ModuleOperationInjector(o) =>
      assert OperationKept(u.operations[o], t.operations[o]);
  }

  /** An owner that does not hold the key still does not hold it later. */
  lemma LacksKept(s: AppState, u: AppState, t: AppState, j: nat, id: nat)
    requires Valid(s) && Valid(u) && Valid(t) && Extends(s, u) && Extends(u, t) && Extends(s, t)
    requires j < |s.injectors| && IsGlobalAt(s, j, id) && OwnerLacks(s, u, j, id)
    ensures OwnerLacks(s, t, j, id)
  {
    OwnerKept(s, u, t, j, id);
  }

  /** When the owner does not hold the key, whatever the rest of the lookup answers keeps the
      promise of a handed-on lookup. */
  lemma LacksAnswers(s: AppState, t: AppState, j: nat, id: nat, r: Result<Option<Value>, DiError>)
    requires Valid(s) && Valid(t) && Extends(s, t) && j < |s.injectors| && IsGlobalAt(s, j, id)
    requires OwnerLacks(s, t, j, id)
    ensures Delegated(s, t, j, id, r)
  {
    assert t.globals[j] == s.globals[j];
    GlobalSlotEmpty(t, j, id);
  }

  /** A single injector that answers for `id` through its global map, after `Owner` found the
      owner `target` (in `u`) and the owner was asked (ending in `t`): the step answers as the
      owner did, which is `UNDEFINED` exactly when the owner does not hold the key. */
  lemma DelegatedOutcome(inv: Invoke, s: AppState, u: AppState, t: AppState, i: nat, id: nat, target: nat, r: Result<Option<Value>, DiError>)
    requires Valid(s) && Valid(u) && Valid(t) && Extends(s, u) && Extends(u, t) && Progress(s, u) && Progress(u, t)
    requires i < |s.injectors| && IsGlobalAt(s, i, id)
    requires u.globals[i] == s.globals[i] && OwnerIn(u, i, id) == Some(target)
    requires InRange(u, [target]) && LookupOutcome(inv, u, t, [target], id, r)
    ensures Extends(s, t) && Progress(s, t) && InRange(s, [i]) && LookupOutcome(inv, s, t, [i], id, r)
    ensures t.globals[i] == s.globals[i] && OwnerIn(t, i, id) == Some(target)
    ensures r == Ok(None) <==> id !in t.injectors[target].keyIds
  {
    ExtendsTrans(s, u, t);
    ProgressTrans(s, u, t);
    FirstKnowerSingle(s, i, id);
    FirstKnowerSingle(u, target, id);
    OwnerKept(s, u, t, i, id);
    GlobalSlotEmpty(t, i, id);
    if id in u.injectors[target].keyIds {
      var k := SlotOf(u, target, id);
      assert SlotOf(t, target, id) == k;
    }
  }

  /** A single injector that keeps `id` in slot `k` (the first slot holding it): the step keeps
      its promise when slot `k` was answered as `SlotAnswered` says (an object already there is
      returned unchanged, an `UNDEFINED` one is built by the provider's factory). */
  lemma LocalOutcome(inv: Invoke, s: AppState, t: AppState, i: nat, id: nat, k: nat, r: Result<Option<Value>, DiError>)
    requires Valid(s) && Valid(t) && Extends(s, t) && i < |s.injectors| && !IsGlobalAt(s, i, id)
    requires FirstIndex(s.injectors[i].keyIds, id) == Some(k) && k < |s.objs[i]| && k < |t.objs[i]|
    requires SlotAnswered(inv, s, t, i, k, r)
    ensures InRange(s, [i]) && LookupOutcome(inv, s, t, [i], id, r)
  {
    FirstKnowerSingle(s, i, id);
  }

  /** A single injector that does not answer for `id`: `UNDEFINED`, nothing changed. */
  lemma MissOutcome(inv: Invoke, s: AppState, i: nat, id: nat)
    requires Valid(s) && i < |s.injectors| && !IsGlobalAt(s, i, id) && id !in s.injectors[i].keyIds
    ensures Extends(s, s) && InRange(s, [i]) && LookupOutcome(inv, s, s, [i], id, Ok(None))
  {
    FirstKnowerSingle(s, i, id);
  }

  /** One step of a walk: asking injector `js[pos]` either settles the whole walk or, on
      `UNDEFINED`, moves the walk on (and ends it on the last injector). */
  lemma {:induction false} WalkStep(inv: Invoke, s: AppState, u: AppState, t: AppState, js: seq<nat>, pos: nat, id: nat, r: Result<Option<Value>, DiError>)
    requires Valid(s) && Valid(u) && Valid(t) && Extends(s, u) && Extends(u, t) && Extends(s, t)
    requires InRange(s, js) && pos < |js| && InRange(u, [js[pos]])
    requires Tracked(s, u, js, id, pos)
    requires LookupOutcome(inv, u, t, [js[pos]], id, r)
    ensures r.Err? || r.value.Some? ==> LookupOutcome(inv, s, t, js, id, r)
    ensures r == Ok(None) ==> Tracked(s, t, js, id, pos + 1)
    ensures r == Ok(None) && pos + 1 == |js| ==> LookupOutcome(inv, s, t, js, id, r)
  {
    var first := FirstKnower(s, js, id);
    FirstKnowerSingle(u, js[pos], id);
    if first.Some? && first.value < pos {
      var j := js[first.value];
      LacksKept(s, u, t, j, id);
      LacksAnswers(s, t, j, id, r);
    } else if Knows(s, js[pos], id) {
      assert first == Some(pos);
    } else {
      forall q | 0 <= q < pos + 1 ensures !Knows(s, js[q], id) {
      }
    }
  }

  /** A walk from `start` begins on `start`, with nothing changed. */
  lemma WalkStart(inv: Invoke, s: AppState, start: nat, id: nat)
    requires Valid(s) && start < |s.injectors|
    ensures Walk(inv, s, s, Chain(s.injectors, start), id, 0, start, true, Ok(None))
  {
    ExtendsRefl(s);
    var js := Chain(s.injectors, start);
    assert js[0..] == js;
  }

  /** Asking injector `cur` moves the walk on to its parent, or stops it on an answer or at the
      end of the chain. */
  lemma WalkAdvance(inv: Invoke, s: AppState, u: AppState, t: AppState, js: seq<nat>, id: nat, pos: nat, cur: nat, r: Result<Option<Value>, DiError>)
    requires Walk(inv, s, u, js, id, pos, cur, true, Ok(None))
    requires Valid(t) && Extends(u, t) && Progress(u, t) && InRange(u, [cur]) && LookupOutcome(inv, u, t, [cur], id, r)
    ensures cur < |t.injectors| && t.injectors[cur].parent == s.injectors[cur].parent
    ensures var stop := r.Err? || r.value.Some? || s.injectors[cur].parent.None?;
      && (stop ==> Walk(inv, s, t, js, id, pos, cur, false, r))
      && (!stop ==> Walk(inv, s, t, js, id, pos + 1, s.injectors[cur].parent.value, true, r))
  {
    ChainNext(s.injectors, js, pos, cur);
    ExtendsTrans(s, u, t);
    WalkStep(inv, s, u, t, js, pos, id, r);
    ProgressTrans(s, u, t);
    assert s.injectors <= t.injectors;
  }

  /** `_getByKey` settled by its first walk (along `a`): its promise over `a + b` holds. */
  lemma {:induction false} SearchHitFirst(inv: Invoke, s: AppState, u: AppState, a: seq<nat>, b: seq<nat>, id: nat, miss: Result<Value, DiError>, v: Result<Option<Value>, DiError>)
    requires Valid(s) && Valid(u) && Extends(s, u) && InRange(s, a) && InRange(s, b)
    requires LookupOutcome(inv, s, u, a, id, v) && (v.Err? || v.value.Some?)
    ensures InRange(s, a + b) && GetOutcome(inv, s, u, a + b, id, miss, Answer(v))
  {
    FirstKnowerAppend(s, a, b, id);
    assert Found(Answer(v)) == v;
    match FirstKnower(s, a, id)
    case Some(p) =>
      assert (a + b)[p] == a[p];
    case None =>
  }

  /** A walk that found nothing although some injector knew the key: that knower handed the key
      on to an owner that does not hold it, so any later answer keeps the walk's promise. */
  lemma MissedThenAny(inv: Invoke, s: AppState, u: AppState, t: AppState, js: seq<nat>, p: nat, id: nat, r: Result<Option<Value>, DiError>)
    requires Valid(s) && Valid(u) && Valid(t) && Extends(s, u) && Extends(u, t) && Extends(s, t) && InRange(s, js)
    requires LookupOutcome(inv, s, u, js, id, Ok(None)) && FirstKnower(s, js, id) == Some(p)
    ensures !LocalKnower(s, js[p], id) && Delegated(s, t, js[p], id, r)
  {
    LacksKept(s, u, t, js[p], id);
    LacksAnswers(s, t, js[p], id, r);
  }

  /** `_getByKey` settled by its second walk (along `b`), the first having found nothing. */
  lemma {:induction false} SearchHitSecond(inv: Invoke, s: AppState, u: AppState, t: AppState, a: seq<nat>, b: seq<nat>, id: nat, miss: Result<Value, DiError>, v: Result<Option<Value>, DiError>)
    requires Valid(s) && Valid(u) && Valid(t) && Extends(s, u) && Extends(u, t) && InRange(s, a) && InRange(s, b)
    requires LookupOutcome(inv, s, u, a, id, Ok(None)) && InRange(u, b) && LookupOutcome(inv, u, t, b, id, v)
    requires v.Err? || v.value.Some?
    ensures Extends(s, t) && InRange(s, a + b) && GetOutcome(inv, s, t, a + b, id, miss, Answer(v))
  {
    ExtendsTrans(s, u, t);
    FirstKnowerAppend(s, a, b, id);
    assert Found(Answer(v)) == v;
    match FirstKnower(s, a, id)
    case Some(p) =>
      MissedThenAny(inv, s, u, t, a, p, id, Found(Answer(v)));
      assert (a + b)[p] == a[p];
    case None =>
      assert u == s;
      SearchHitOnlySecond(inv, s, t, a, b, id, miss, v);
  }

  /** The second walk's answer when nothing in the first chain knows the key. */
  lemma {:induction false} SearchHitOnlySecond(inv: Invoke, s: AppState, t: AppState, a: seq<nat>, b: seq<nat>, id: nat, miss: Result<Value, DiError>, v: Result<Option<Value>, DiError>)
    requires Valid(s) && Valid(t) && Extends(s, t) && InRange(s, a) && InRange(s, b)
    requires FirstKnower(s, a, id).None? && LookupOutcome(inv, s, t, b, id, v)
    requires v.Err? || v.value.Some?
    ensures InRange(s, a + b) && GetOutcome(inv, s, t, a + b, id, miss, Answer(v))
  {
    assert FirstKnower(s, b, id).Some?;
    var q := FirstKnower(s, b, id).value;
    FirstKnowerAppend(s, a, b, id);
    assert (a + b)[|a| + q] == b[q];
    SameKnowerOutcome(inv, s, t, b, a + b, q, |a| + q, id, miss, v);
  }

  /** Two search orders whose first knowers are the same injector answer alike. */
  lemma SameKnowerOutcome(inv: Invoke, s: AppState, t: AppState, js: seq<nat>, ks: seq<nat>, p: nat, q: nat, id: nat, miss: Result<Value, DiError>, v: Result<Option<Value>, DiError>)
    requires Valid(s) && Valid(t) && Extends(s, t) && InRange(s, js) && InRange(s, ks)
    requires FirstKnower(s, js, id) == Some(p) && FirstKnower(s, ks, id) == Some(q) && ks[q] == js[p]
    requires LookupOutcome(inv, s, t, js, id, v) && (v.Err? || v.value.Some?)
    ensures GetOutcome(inv, s, t, ks, id, miss, Answer(v))
  {
    assert Found(Answer(v)) == v;
  }

  /** `_getByKey` after two walks that found nothing: a total miss. */
  lemma {:induction false} SearchMiss(inv: Invoke, s: AppState, u: AppState, t: AppState, a: seq<nat>, b: seq<nat>, id: nat, miss: Result<Value, DiError>)
    requires Valid(s) && Valid(u) && Valid(t) && Extends(s, u) && Extends(u, t) && InRange(s, a) && InRange(s, b)
    requires LookupOutcome(inv, s, u, a, id, Ok(None)) && InRange(u, b) && LookupOutcome(inv, u, t, b, id, Ok(None))
    ensures Extends(s, t) && InRange(s, a + b) && GetOutcome(inv, s, t, a + b, id, miss, miss)
  {
    ExtendsTrans(s, u, t);
    FirstKnowerAppend(s, a, b, id);
    match FirstKnower(s, a, id)
    case Some(p) =>
      MissedThenAny(inv, s, u, t, a, p, id, Found(miss));
      assert (a + b)[p] == a[p];
    case None =>
      assert u == s;
      match FirstKnower(s, b, id)
      case Some(q) =>
        ExtendsRefl(t);
        MissedThenAny(inv, s, t, t, b, q, id, Found(miss));
        assert (a + b)[|a| + q] == b[q];
      case None =>
  }
}

=== FILE: wrappers.dfy ===
/** Option and Result, used for the engine's "maybe absent" values and for every thrown error. */
module Wrappers {

  datatype Option<+T> = None | Some(value: T) {
    /** The wrapped value, or `default` when absent (the `??` operator). */
    function GetOr(default: T): T {
      match this
      case Some(v) => v
      case None => default
    }
  }

  /** `Err` stands for a thrown exception, `Ok` for a normal return. */
  datatype Result<+T, +E> = Ok(value: T) | Err(error: E) {
    predicate IsFailure() {
      Err?
    }

    function PropagateFailure<U>(): Result<U, E>
      requires Err?
    {
      Err(error)
    }

    function Extract(): T
      requires Ok?
    {
      value
    }
  }
}
